=== FILE: README.md ===
# TweetFilter-AI decision logic, in Dafny

TweetFilter-AI is a user script for X/Twitter. It sends each tweet on the timeline to a
language model through OpenRouter, reads a 0–10 score out of the reply, and hides tweets
that score below a threshold. The repository holds several generations of the script:
- the earliest single-file `twitter-desloppifier.js`;
- its successor `src/twitter-desloppifier.js`;
- the modular sources under `src/`: the API layer, the `Rating` and `Tweet` models, the caches, the instructions history and the score indicator;
- the combined `TweetFilter-AI.user.js`.

This project models the deterministic logic that sits between reading the page and calling
the model:
- **Rating caches.** The backend cache merges partial updates. The helper cache replaces whole records. Their cleanup passes, and the global cache of the combined script, are modelled too (`BackendCache`, `HelperCache`, `CacheCleanup`, `CacheHelpers`, `CacheEntry`).
- **Scoring instructions.** The history is most recent first, deduplicated by a 32-bit rolling hash. The manager also writes a summary title (`InstructionsHistory`, `InstructionsManager`).
- **Reading a completion.** This covers every version's `SCORE_n` pattern, the analysis block and the three follow-up questions. `Rating.fromAPIResponse` and `Rating.getFullContent` form a round trip (`ResponseParsing`, `Ratings`, `Scores`).
- **State machines.** `Tweet`'s states and filtering, and the score indicator's `update`, its look, tooltip visibility, conversation and registry (`Tweets`, `ScoreIndicator`).
- **Per-tweet decisions.** The threshold filter, applying a cached rating, the order of checks in `scheduleTweetProcessing`, and the at-most-once `processedTweets` gate (`RatingEngine`, `Handles`, `UserScript`).
- **Retry loops.** Each version's `rateTweetWithOpenRouter` is a fold over a sequence of attempt outcomes. It gives the attempts made, the backoff waits, `pendingRequests` and the fallback result (`Api`, `AsyncRetry`, `CallbackRetry`).
- **Thread bookkeeping in the combined script.** Pruning stored reply relationships, the bounded reply chain, reply assignment and media from earlier tweets (`UserScript`).
- **Reading a tweet from the page.** Tweet ids, handles, the tweet text and ad detection, over a read-only facade of the element's strings (`DomScraper`, `EarliestScript`).

The `filterSingleTweet`, `scheduleTweetProcessing` and handle-list functions of the two
older scripts are the same algorithms as those of `src/ratingEngine.js` and
`src/ui/handleManager.js`. One model serves all versions. A flag covers the one place where
they differ: only the newer scripts mark a queued tweet as pending.

JavaScript values are modelled explicitly:
- a score is `undefined`, `null`, `NaN` or an integer (`Scores.Score`);
- a missing object property is `None`;
- strings are `seq<char>`;
- the 32-bit wrap-around of the instruction hash is written out.

Each regular expression is a deterministic scanner. For the patterns involved there is only
one way to match at a position, so the scanner's first position is the regex's first match.

The model follows the code where the code departs from its evident intent:
- **Rate-limit branch (`src/twitter-desloppifier.js:2212`).** The branch assigns to the constant `API_CALL_DELAY_MS`. The resulting `TypeError` resolves the attempt as a parse error instead of retrying (`CallbackRetry.RateLimitIsNotRetried`).
- **Ad-author branch (`src/api/api.js:113`).** The branch reads `currentInstructions` before its `const` declaration at line 126, so an ad author's rating rejects (`Api.RateWithOpenRouter`).
- **Double release (`src/api/api.js:246-298`).** A failed final reply releases the pending request twice; the clamp at 0 keeps the counter non-negative (`Api.LoopPending`).
- **Quoted-author line (`src/ratingEngine.js:163`).** The line is built in a double-quoted string, so it contains the literal `@${quotedHandle}` (`RatingEngine.QuotedAuthorNotFilledIn`).
- **Quoted handle (`src/domScraper.js:67-92`).** `getUserHandles` lists a quoted author's handle twice when both the avatar and the status link name it (`DomScraper.HandlesOfQuotingTweet`).
- **Lenient pattern.** `src/api.js` and `src/twitter-desloppifier.js` use `/\SCORE_(\d+)/`, which accepts any non-space character in place of the `S` (`ResponseParsing.LenientAcceptsOtherWords`).
- **Cache key of `rateTweet` (`src/api/api.js:371`).** `rateTweet` reads `request.tweetId`, but the request body built at lines 129-170 has no such property. It therefore reads and writes the record stored under the key `"undefined"`, never the tweet's own (`Api.RateTweet`, `Api.RateTweetIgnoresTweetRecord`).
- **Follow-up instructions (`src/ui/ScoreIndicator.js:1957-1960`).** The user's instructions replace the placeholder through `String.prototype.replace` with a string replacement. So `$$`, `$&`, `` $` `` and `$'` in them are expanded rather than kept as typed (`JsString.ReplaceFirst`, `JsString.ReplaceExpandsDollars`, `ScoreIndicator.FollowUpPromptInstructions`).
- **Media links without `await` (`src/ratingEngine.js:125-137`).** `delayedProcessTweet` calls the `async` `extractMediaLinks` of `src/domScraper.js:104` without `await`, so `allMediaLinks` is a Promise and `allMediaLinks.filter` throws a `TypeError`. The `catch` at 251-264 rates every tweet that is neither listed nor cached 5 with status `error`, and the model is never asked from there (`RatingEngine.DelayedProcessTweet`, `RatingEngine.CaughtTweetScoredFive`). The context of lines 144-168 (`RatingEngine.ContextText`) is what those lines would build. The same function in `src/twitter-desloppifier.js` and `TweetFilter-AI.user.js` calls a synchronous `extractMediaLinks`.
- **Failed stream (`src/api/api.js:551-572`).** The stream's error handler leaves score 5 on the record. A later attempt therefore finds a score, writes no placeholder and streams on from 5, so it cannot end in the error result (`Api.StreamFailure`, `Api.FailedStreamKeepsFive`).
- **Failed completion text (`src/api/api.js:398-400`).** `getCompletion` reports failure with the boolean `error: true`, so `result.error || "Unknown error"` is the boolean `true`. The retry loop then throws `new Error(true)`, whose message is `"true"` (`Api.RateTweet`).
- **Description typo.** The listed-author description at `src/ratingEngine.js:37` is spelled `Whtielisted user`.

## Model

| member | source | states |
|---|---|---|
| BackendCache.Get | src/backends/TweetCache.js:62-64 | `get` finds a record exactly when `has` holds for the id, and then it is the stored record; otherwise `null` |
| BackendCache.Set | src/backends/TweetCache.js:72-138 | after `set` the id is stored with every property but the score present; no other id is added, removed or changed |
| BackendCache.SetIsPartialMerge | src/backends/TweetCache.js:76-135 | a property the update carries replaces the stored one; an omitted property keeps the stored value and falls back to its default (`''`, `false`) only when the stored record lacks it too; an omitted score keeps the stored score |
| BackendCache.SetTimestamp | src/backends/TweetCache.js:84-85 | the timestamp is the update's, else the stored one, else the clock's reading, so it is always defined |
| BackendCache.SetCarried | src/backends/TweetCache.js:76-96 | every property an update carries is stored as given: the score when it is not `undefined`, description, reasoning, questions, last answer, media, timestamp, streaming flag and conversation history |
| BackendCache.NewRecordScore | src/backends/TweetCache.js:73-135 | a record created by `set` has exactly the update's score, which stays undefined when none is given, and `fromStorage` defaults to `false` |
| BackendCache.SetNeverShortens | src/backends/TweetCache.js:110-122 | `individualTweetText` and `individualMediaUrls` never get shorter, and each is either the stored value or the update's |
| BackendCache.LongerTextReplaces | src/backends/TweetCache.js:111-115 | an update whose `individualTweetText` is longer than the stored one always replaces it |
| BackendCache.SetMergesMetadata | src/backends/TweetCache.js:90-91 | metadata is merged key by key: the update's keys win, the stored keys it lacks survive, and no other key appears |
| BackendCache.SetKeepsMetadata | src/backends/TweetCache.js:92-94 | without metadata in the update the stored metadata stays, and a record without any gets the six `null` fields |
| BackendCache.SetIdempotent | src/backends/TweetCache.js:72-138 | applying the same update a second time, at any later time, stores the same record as applying it once |
| BackendCache.Delete | src/backends/TweetCache.js:156-162 | `delete` removes only that id and leaves the cache as it was when the id is absent |
| BackendCache.Clear | src/backends/TweetCache.js:168-169 | after `clear` no id is stored and the size is 0 |
| BackendCache.Size | src/backends/TweetCache.js:182-184 | `size` is the number of stored ids and is 0 exactly for the empty cache |
| BackendCache.GetAfterSetAndDelete | src/backends/TweetCache.js:138-158 | after `set` the id is found by `get` and `has`, after `delete` it is not; `set` grows the size by one exactly when the id was new |
| BackendCache.VerdictKeepsRetained | src/backends/TweetCache.js:200-216 | a record is kept by the cleanup exactly when it has a score and is streaming, auto-scored, or carries at least three history messages |
| BackendCache.Cleanup | src/backends/TweetCache.js:191-234 | after `cleanup` every remaining record is unchanged and satisfies that rule, every record satisfying it remains, the three counters count the records without a score (streaming or not) and the scored records without history, `deletedCount` is their sum and `afterCount = beforeCount − deletedCount`; a save is scheduled exactly when something was deleted |
| BackendCache.CleanupIdempotent | src/backends/TweetCache.js:198-220 | a second cleanup deletes nothing |
| BackendCache.LoadFromStorage | src/backends/TweetCache.js:32-43 | every loaded record is the stored one with `fromStorage` set to `true`; text that does not parse gives an empty cache |
| CacheCleanup.Cleanup | src/backends/TweetCache.js:198-220 | the deleting `for…in` walk shared by the three cleanups keeps exactly the records the rule keeps, and each counter equals the number of records deleted for its reason |
| CacheCleanup.SurvivorsAreClean | src/helpers/cache-helpers.js:24-40 | what a cleanup keeps passes the same rule again, so a second walk keeps everything |
| CacheEntry.ScoreVerdict | src/helpers/cache-helpers.js:28-34 | the score-only rule keeps exactly the records with a score, and counts a deletion as streaming exactly when `streaming === true` |
| HelperCache.Get | src/helpers/TweetCache.js:36-38 | the stored record when the id is stored, otherwise `null` |
| HelperCache.Set | src/helpers/TweetCache.js:46-60 | the new record holds the update's score, its texts or `''`, its flags or `false`, its timestamp unless missing or 0 (then the clock's), and nothing else; other ids are untouched; storage is written exactly when `saveImmediately` |
| HelperCache.SetReplaces | src/helpers/TweetCache.js:48-55 | the record `set` stores does not depend on what was stored before |
| HelperCache.Delete | src/helpers/TweetCache.js:67-72 | only that id is removed; storage is written exactly when asked |
| HelperCache.Clear | src/helpers/TweetCache.js:78-83 | the cache is emptied; storage is written exactly when asked |
| HelperCache.Size | src/helpers/TweetCache.js:89-91 | the number of stored ids |
| HelperCache.Cleanup | src/helpers/TweetCache.js:98-128 | exactly the records without a score are deleted, the rest are unchanged, the two counters split the deletions by `streaming === true`, the counts add up, and storage is written only when asked and something was deleted |
| HelperCache.LoadFromStorage | src/helpers/TweetCache.js:13-21 | the parsed map, or an empty cache when the text does not parse |
| CacheHelpers.CleanupInvalidCacheEntries | src/helpers/cache-helpers.js:17-55 | every remaining record has a score and is unchanged, every scored record remains, the counts split the deletions by `streaming === true` and add up, and the cache is saved only when asked and something was deleted |
| CacheHelpers.CleanupIdempotent | src/helpers/cache-helpers.js:24-40 | a second cleanup deletes nothing |
| CacheHelpers.LoadStoredRatings | TweetFilter-AI.user.js:2165-2181 | each stored rating is copied into the cache with `fromStorage: true`, overriding a record of the same id, and the other records stay; text that does not parse leaves the cache as it was |
| InstructionsHistory.ToInt32 | src/backends/InstructionsHistory.js:26-27 | the result of a bitwise operator is the signed 32-bit value congruent to its operand modulo 2^32 |
| InstructionsHistory.HashValueIsWrappedPolynomial | src/backends/InstructionsHistory.js:22-28 | the shift-and-subtract loop computes the polynomial hash `s[0]·31^(n−1) + … + s[n−1]` reduced to signed 32 bits |
| InstructionsHistory.ToBase36RoundTrip | src/backends/InstructionsHistory.js:29 | the base-36 rendering of the hash, sign included, reads back as the hash |
| InstructionsHistory.HashStringsEqualIffValuesEqual | src/backends/InstructionsHistory.js:22-30 | two hash strings are equal exactly when the 32-bit hash values are, so comparing the strings compares the hashes |
| InstructionsHistory.HashString | src/backends/InstructionsHistory.js:22-30 | the hash string is never empty and starts with `-` exactly when the 32-bit hash is negative |
| InstructionsHistory.FindHash | src/backends/InstructionsHistory.js:82 | `findIndex` gives the first entry with the hash, and nothing exactly when no entry has it |
| InstructionsHistory.RemoveAt | src/backends/InstructionsHistory.js:123 | `splice(i, 1)` removes element `i` and keeps the others in order |
| InstructionsHistory.Add | src/backends/InstructionsHistory.js:74-110 | `add` fails exactly when the instructions or the summary trim to nothing, and then changes nothing; on success the front entry carries the hash of the trimmed instructions and the current time |
| InstructionsHistory.AddNew | src/backends/InstructionsHistory.js:90-101 | new instructions go in front as the trimmed instructions and summary, followed by the old entries in order, with the oldest dropped past ten |
| InstructionsHistory.AddExisting | src/backends/InstructionsHistory.js:82-89 | instructions already present move that entry to the front with the new summary and time; the length is unchanged and the other entries keep their order |
| InstructionsHistory.AddBounded | src/backends/InstructionsHistory.js:99-101 | a history of at most ten entries stays within ten after `add` |
| InstructionsHistory.AddKeepsHashesDistinct | src/backends/InstructionsHistory.js:80-101 | if no two entries share a hash before `add`, none do after it |
| InstructionsHistory.Remove | src/backends/InstructionsHistory.js:117-130 | an index outside the list fails and changes nothing; otherwise exactly element `i` is removed and the rest keep their order |
| InstructionsHistory.Get | src/backends/InstructionsHistory.js:145-155 | the entry at an index inside the list, `null` outside it |
| InstructionsHistory.GetAll | src/backends/InstructionsHistory.js:136-138 | the copy lists every entry `get` returns, in order |
| InstructionsHistory.Size | src/backends/InstructionsHistory.js:174-176 | the indexes below `size` are exactly those `get` answers |
| InstructionsHistory.Clear | src/backends/InstructionsHistory.js:160-163 | the history is empty afterwards |
| InstructionsHistory.LoadFromStorage | src/backends/InstructionsHistory.js:36-53 | text that does not parse or is not an array gives an empty history; otherwise every entry is kept in order, with its own non-empty hash or else the hash of its instructions |
| InstructionsManager.SummaryOfWords | src/backends/InstructionsManager.js:49-57 | the summary's words are all the words of the trimmed text when there are at most three, else the first three, `…` and the last word |
| InstructionsManager.SummaryNotBlank | src/backends/InstructionsManager.js:49-57 | the summary of text that is not blank is not blank, so the history accepts the pair a save hands it |
| InstructionsManager.GenerateSummary | src/backends/InstructionsManager.js:49-57 | blank text has an empty summary; the words of any other are stated by `SummaryOfWords` |
| InstructionsManager.SaveInstructions | src/backends/InstructionsManager.js:20-41 | the save fails exactly for blank text and then changes nothing; otherwise the trimmed text becomes current, the history's front entry is that text's hash at the current time, and the result asks for the cache to be cleared |
| InstructionsManager.CurrentAfterSave | src/backends/InstructionsManager.js:63-65 | `getCurrentInstructions` returns the last successfully saved text |
| InstructionsManager.GetCurrentInstructions | src/backends/InstructionsManager.js:63-65 | the getter returns the stored current instructions; `CurrentAfterSave` states what they are after a save |
| InstructionsManager.SaveKeepsHistoryInvariant | src/backends/InstructionsManager.js:33-34 | saving keeps the history within ten entries and its hashes distinct |
| ResponseParsing.FirstScore | src/models/Rating.js:69-72 | the first `SCORE_n` token's value, and `null` exactly when the text holds no such token anywhere |
| ResponseParsing.LastScore | src/api/api.js:380-383 | the value of the last `SCORE_n` token (no token after it), and nothing exactly when there is no token |
| ResponseParsing.GlobalScanReachesLastToken | src/api/api.js:380-382 | the global `match(/SCORE_(\d+)/g)` scan is empty exactly when no token occurs, and its last match has no token after it |
| ResponseParsing.FirstAndLastAgreeOnSingleToken | src/api/api.js:380-383 | with a single token the first-match and last-match readings agree |
| ResponseParsing.LenientScore | src/api.js:233 | `/\SCORE_(\d+)/` finds its first match: one visible character, then `CORE_` and digits; nothing exactly when no position matches |
| ResponseParsing.LenientFindsEveryStrictScore | src/api.js:233 | every completion with a `SCORE_n` token also matches the lenient pattern |
| ResponseParsing.LenientAcceptsOtherWords | src/twitter-desloppifier.js:2229 | the lenient pattern reads 7 from `XCORE_7`, which has no `SCORE_n` token |
| ResponseParsing.BracketScore | twitter-desloppifier.js:896-898 | `/\[SCORE:\s*(\d+)\s*\]/` gives the digits of its first match, and nothing exactly when it matches nowhere |
| ResponseParsing.BracketScoreOfToken | twitter-desloppifier.js:873-898 | a reply ending its text with a line holding `[SCORE: n]`, as the prompt asks, reads back `n` when no `[SCORE:` occurs earlier |
| ResponseParsing.TaggedScore | src/ui/ScoreIndicator.js:1941-1942 | `/<SCORE>\s*SCORE_(\d+)\s*<\/SCORE>/` gives the digits of its first match, and nothing exactly when it matches nowhere |
| ResponseParsing.TagBody | src/models/Rating.js:75 | the lazy group of `<open>([\s\S]*?)<close>` runs from the first opening tag to the first closing tag after it; no match exactly when no closing tag follows any opening tag |
| ResponseParsing.AnalysisOrWhole | src/models/Rating.js:75-81 | the trimmed analysis body when the block exists, otherwise the whole completion |
| ResponseParsing.ExtractFollowUpQuestions | src/api/api.js:33-68 | empty text gives `[]`; otherwise either `[]` or three non-empty trimmed questions, the latter only when `Q_1.`, `Q_2.` and `Q_3.` first occur in that order |
| ResponseParsing.ExtractQuestionsOfBlock | src/api/api.js:33-68 | text without markers followed by a rendered question block gives back exactly its three questions |
| ResponseParsing.ExtractQuestionsRoundTrip | src/api/api.js:33-68 | the question block of three plain questions reads back as those questions |
| Ratings.NewRating | src/models/Rating.js:12-31 | a new rating holds the given score, review, reasoning and metadata, no questions, answer or history, the current time, and both flags false |
| Ratings.FromObject | src/models/Rating.js:37-58 | hydration keeps the score and takes every other property or its default; a missing or zero timestamp becomes the current time; the UI history is not read |
| Ratings.ToObject | src/models/Rating.js:189-203 | `toJSON` writes every property, the UI history defaulting to `[]` |
| Ratings.ObjectRoundTrip | src/models/Rating.js:189-212 | `fromJSON(toJSON(r))` gives back `r` but for the UI history, when the timestamp is not 0 |
| Ratings.ParsedRatingValidIffToken | src/models/Rating.js:181-183 | a rating parsed from a completion is valid exactly when the completion holds a `SCORE_n` token |
| Ratings.FromApiResponse | src/models/Rating.js:65-90 | the score is the first token's value, or `null` exactly when there is none; the review is the whole text without an analysis block and trimmed with one; questions are `[]` without a question block and otherwise `[]` or three trimmed questions |
| Ratings.IsValid | src/models/Rating.js:181-183 | a rating is valid exactly when its score is neither `null`, `undefined` nor `NaN` |
| Ratings.FullContent | src/models/Rating.js:219-239 | a rating with nothing to render gives `''`; a non-empty review opens the text with its analysis section; questions close it with their block |
| Ratings.FullContentRoundTrip | src/models/Rating.js:65-239 | parsing the rendered content gives back the score and the review of any rating with a non-negative score and a non-empty trimmed review holding neither `SCORE_` nor `</ANALYSIS>`, whatever its questions; the questions come back too when the review holds no question markers and there are no questions or three plain ones |
| Ratings.ScoreReadsBack | src/models/Rating.js:227 | for any questions, a non-negative score comes back from the rendered content whenever the non-empty review holds no `SCORE_` token |
| Ratings.ReviewReadsBack | src/models/Rating.js:222-224 | for any score and any questions, a non-empty trimmed review without `</ANALYSIS>` comes back as the analysis of the rendered content |
| Ratings.QuestionsReadBack | src/models/Rating.js:230-236 | the rendered question block is read back as the same questions |
| Scores.ParseIntOfIntToString | src/ratingEngine.js:47 | `parseInt(String(n), 10)` is `n` for every integer below `1e21` in size, the range `String` writes in plain digits, so a score written to `data-sloppiness-score` with `toString` reads back unchanged |
| Scores.ParseInt | src/ratingEngine.js:8 | `parseInt(s, 10)` gives a number or `NaN`, never `undefined` or `null` |
| Scores.IntToString | src/ratingEngine.js:47 | `String(n)` is never empty |
| Api.LastScoreOf | src/api/api.js:380-383 | the last token read as a score: `null` exactly when the reply holds no `SCORE_n` token, and otherwise a non-negative number |
| Api.RateTweetScore | src/api/api.js:372-383 | a truthy score already in the cache wins; otherwise the score is `null` exactly when the reply has no token |
| Api.ExistingScore | src/api/api.js:371-372 | the score read is that of the record under the key `"undefined"`, and `undefined` when there is none |
| Api.LastTokenDecides | src/api/api.js:380-383 | without a truthy cached score, the last of several `SCORE_n` tokens decides the score |
| Api.RateTweet | src/api/api.js:370-404 | a completion without error and with a message gives its text and writes, under the key `"undefined"`, the score computed from the one stored there and that text, with the text as description and streaming off; any other gives an error reply with a non-empty message and leaves the cache as it was; a completion flagged as failed (`error: true`, a boolean) gives the content `"true"`; no other key is touched |
| Api.RateTweetIgnoresTweetRecord | src/api/api.js:371-390 | what is stored under any real tweet id changes neither the reply nor the record written |
| Api.StartStream | src/api/api.js:451-454 | the stream starts from the cached score when it is truthy and from `null` otherwise |
| Api.StreamStep | src/api/api.js:460-469 | a non-empty chunk text replaces the accumulated text; the score becomes the last token of the accumulated text, and stays as it was when there is none |
| Api.StreamChunks | src/api/api.js:457-487 | no chunk leaves the state as it was; the accumulated text is the starting one or the text of one non-empty chunk |
| Api.FinishStream | src/api/api.js:489-508 | a stream that ends with an error has score 5 and text ending in `[No score detected - Error]`; otherwise it ends with a set score |
| Api.RateTweetStreaming | src/api/api.js:414-548 | the streamed rating either ends in error with score 5 and its text ending in `[No score detected - Error]`, or ends with a set score; `StreamErrorIffNoToken` states when each happens |
| Api.StreamScoreStaysSet | src/api/api.js:460-469 | once the stream holds a number, later chunks never lose it |
| Api.StreamNullUntilToken | src/api/api.js:454-469 | starting from `null`, the score stays `null` exactly as long as no accumulated text holds a token |
| Api.StreamErrorIffNoToken | src/api/api.js:451-508 | the streamed rating ends in error exactly when no truthy score was cached and no accumulated text, the final one included, holds a token |
| Api.StreamScoreNeverUndefined | src/api/api.js:454-469 | starting from `null` or a number, the stream's score is always `null` or a number |
| Api.StreamChunksAppend | src/api/api.js:489-499 | the final result updates text and score exactly as one more chunk would |
| Api.StreamFinalTokenDecides | src/api/api.js:491-499 | when the final text holds tokens, the stream ends rated with the last one's value and that text |
| Api.GenerationMetadata | src/api/api.js:273 | metadata holding the generation id is stored exactly when the reply has a non-empty id; otherwise `null` |
| Api.StreamPlaceholder | src/api/api.js:425-436 | a record whose score is `undefined` or `null`, or a missing one, becomes a streaming placeholder with score `null` and empty description and reasoning; a record with a score is left alone; no other id is touched |
| Api.ChunkWrites | src/api/api.js:480-486 | each chunk rewrites the stored record, when there is one, with the accumulated text, reasoning and score and streaming on; without a record or without chunks the cache is unchanged; no other id is touched |
| Api.StreamFailure | src/api/api.js:551-572 | a failed stream sets the record's streaming off, its score to 5 and its description to `Stream Error: ` and the message, keeps every other field, and leaves a missing record and every other id alone |
| Api.FailedStreamKeepsFive | src/api/api.js:425-572 | after a failed stream the next attempt writes no placeholder, starts streaming from score 5, and cannot end in the error result |
| Api.StreamWithCache | src/api/api.js:424-520 | the streamed result is computed from the stored description, reasoning and score; the final record holds that score, text and reasoning, streaming off, the clock's reading; an error result is stored with score 5 and the note appended; no other id is touched |
| Api.CacheBeforeAttempts | src/api/api.js:218-223 | with an indicator and no ad author the tweet's record is marked streaming with its media and the current time, keeping its score; otherwise the cache is unchanged; no other id is touched |
| Api.FinalUpdate | src/api/api.js:263-275 | on success the update carries the reviewed score, the analysis as description, the follow-up questions and the reasoning; on failure score 5, the failure text, no questions and no reasoning; both turn streaming off and clear the last answer |
| Api.WriteFinal | src/api/api.js:263-326 | the final record holds the result's score, description, questions and reasoning, streaming off, the media and the clock's reading; no other id is touched |
| Api.CacheAfterAttempts | src/api/api.js:225-338 | with no indicator, an ad author or no attempt allowed, nothing more is written after the attempts' own writes; no other id is touched |
| Api.FinalRecordOfAttempts | src/api/api.js:263-326 | after the loop the record is no longer streaming and holds the media; a success stores the reviewed score, description, questions and the successful attempt's reasoning; after the last failure it stores score 5, no questions and `Failed to get valid rating after multiple attempts: ` followed by the last attempt's error |
| Api.FinalRecordIgnoresMid | src/api/api.js:263-326 | the final record's score, description, questions, reasoning, streaming flag and history do not depend on what the attempts stored before it |
| Api.Release | src/api/api.js:83-86 | `cleanupRequest` never makes `pendingRequests` negative and otherwise takes one away |
| Api.Backoffs | src/api/api.js:289-302 | the waits after failed attempts `from` to `to − 1` are `attempt² · 1000` ms each, one per attempt |
| Api.Loop | src/api/api.js:225-338 | the loop stops at the first successful reply, taking its text and the score of its `<SCORE>` block; every earlier attempt failed; it fails only after `maxRetries` attempts, with score 5 and the last failure's message; the waits are `attempt² · 1000` ms after each failed attempt but the last |
| Api.RateWithOpenRouter | src/api/api.js:81-367 | no indicator gives an immediate error result with no attempt; an ad author rejects; otherwise the call makes at most `maxRetries` attempts, and every error result has score 5 |
| Api.RetrySucceedsAtFirstSuccess | src/api/api.js:226-286 | the rating succeeds exactly when one of the first `maxRetries` attempts succeeds; it stops at the first such attempt, and every earlier attempt failed |
| Api.RetryBackoffs | src/api/api.js:289-302 | the waits are `1000, 4000, 9000, …` ms, one after every attempt but the last; when all attempts fail there were exactly `maxRetries` of them |
| Api.LoopPending | src/api/api.js:236-338 | `pendingRequests` ends where it started, except that a failed final reply releases one request more, clamped at 0 |
| Api.PendingNeverNegative | src/api/api.js:83-86 | starting from a non-negative count, `pendingRequests` ends non-negative |
| AsyncRetry.MatchIsPatternScore | TweetFilter-AI.user.js:2613 | trying each position of the reply in turn finds the first match of the script's `/SCORE_(\d+)/`, or of the lenient `/\SCORE_(\d+)/` of `src/api.js`, and its value |
| AsyncRetry.MatchFrom | TweetFilter-AI.user.js:2613 | a value is found exactly when the pattern matches at some position from `from` on |
| AsyncRetry.Loop | TweetFilter-AI.user.js:2582-2645 | the loop makes between one and `maxRetries` attempts, waiting `attempt² · 1000` ms after each failed attempt but the last; it fails only after all `maxRetries` attempts, with score 5 and the fallback message |
| AsyncRetry.LoopOutcomes | TweetFilter-AI.user.js:2598-2644 | every attempt before the last failed, thrown or unscored; a success takes the matched reply's content and its first match's value; `pendingRequests` is back where it started |
| AsyncRetry.Rate | TweetFilter-AI.user.js:2523-2654 | at most `maxRetries` attempts; the waits are `1000, 4000, 9000, …` ms, one fewer than the attempts; a failure is score 5 with the fallback message |
| AsyncRetry.RateFirstSuccess | TweetFilter-AI.user.js:2583-2653 | the rating succeeds exactly when one of the first `maxRetries` replies matches; it stops at the first such reply, every earlier attempt failed, and the score is that reply's first match |
| AsyncRetry.ScriptTakesFirstToken | TweetFilter-AI.user.js:2613-2616 | with two `SCORE_n` tokens in a reply, the combined script takes the first |
| AsyncRetry.LenientRateAcceptsOtherWords | src/api.js:233 | a reply `XCORE_7` is accepted by the lenient pattern and rejected by the script's strict one |
| AsyncRetry.ApiJsRate | src/api.js:210-266 | the lenient loop; a success stores the tweet's text, the score and the reply under the tweet id; a failure leaves the cache unchanged; other ids are untouched |
| AsyncRetry.MessageParts | src/api.js:187-195 | the prompt comes first, then one image part per media URL, in order, exactly when there are media and the model accepts images |
| CallbackRetry.ScanIsReadScore | src/twitter-desloppifier.js:2229 | trying each position of the reply in turn finds the same score as the version's first-match pattern (`/\SCORE_(\d+)/` in the modular script, `[SCORE: n]` in the earliest one) |
| CallbackRetry.StepFacts | src/twitter-desloppifier.js:2184-2283 | a callback retries exactly on a retryable outcome while `currentAttempt < maxAttempts`; it resolves without error exactly on a successful response whose content has a score, and then carries that score and content; every error result has score 5 |
| CallbackRetry.ModularStep | src/twitter-desloppifier.js:2184-2283 | the modular callback retries only while `currentAttempt < maxAttempts`; a result without error comes only from a 2xx response with non-empty content and carries that content; every error result has score 5 |
| CallbackRetry.EarliestStep | twitter-desloppifier.js:883-941 | the earliest callback retries only while `currentAttempt < maxAttempts`; a result without error comes only from a 2xx response with non-empty content and carries that content; every error result has score 5 |
| CallbackRetry.Pow2Doubles | src/twitter-desloppifier.js:2218 | `Math.pow(2, n)` doubles with each step and exceeds `n` |
| CallbackRetry.WaitDoubles | src/twitter-desloppifier.js:2218 | the modular backoff starts at one second and doubles with each attempt |
| CallbackRetry.Attempts | src/twitter-desloppifier.js:2066-2286 | attempts go on while retried and stop at the first resolved one; there is one wait of `2^currentAttempt · 1000` ms per retry, and `pendingRequests` is back where it started |
| CallbackRetry.RetriedOnlyWhenRetryable | src/twitter-desloppifier.js:2217-2279 | every attempt before the last had a retryable outcome and had attempts remaining |
| CallbackRetry.RateWithCallbacks | src/twitter-desloppifier.js:2057-2288 | at least one attempt and at most `maxAttempts − attempt + 1`; the waits are `2^(attempt+j) · 1000` ms; an error result has score 5 |
| CallbackRetry.DefaultRating | src/twitter-desloppifier.js:2057 | with the defaults there are at most 3 attempts, all but the last retryable; the result is a success exactly when the last attempt was a successful response with a readable score; the modular waits are a prefix of `[2000, 4000]` |
| CallbackRetry.RateLimitIsNotRetried | src/twitter-desloppifier.js:2200-2246 | an empty reply naming a rate limit throws on the assignment to the constant delay and resolves as a parse error on the first attempt, with no retry |
| CallbackRetry.ClientErrorIsNotRetried | src/twitter-desloppifier.js:2248-2260 | a status other than 2xx, 429 or 5xx resolves at once with `API error: <status>` |
| CallbackRetry.MissingScoreIsNotRetried | twitter-desloppifier.js:883-920 | a reply with content but no score is not retried, in either script, and resolves with score 5 and an error |
| CallbackRetry.CacheAfter | src/twitter-desloppifier.js:2230-2236 | a success stores its score and reply under the tweet id, the modular script with the tweet's text as well; a failure stores nothing; other ids are untouched |
| EarliestScript.NormalisedUrlCases | twitter-desloppifier.js:605-631 | only non-empty URLs on `pbs.twimg.com` contribute; a parsed URL gives origin and path with `.format`, as is when the path has an image extension, or with `.jpg`; an unparseable one gives exactly `split('?')[0]`: the prefix of the URL up to its first `?`, or all of it |
| EarliestScript.NormalisedUrl | twitter-desloppifier.js:605-631 | only a non-empty URL on `pbs.twimg.com` contributes, and a parsed one begins with its origin and path |
| EarliestScript.ExtractMediaLinks | twitter-desloppifier.js:602-634 | the result has no duplicates and holds exactly the normalised URLs of the elements |
| EarliestScript.ExtractMediaLinksFirstOrder | twitter-desloppifier.js:602-634 | the links keep first-occurrence order: every element producing a later link comes after an element producing each earlier link |
| EarliestScript.LaterDuplicateIgnored | twitter-desloppifier.js:604-632 | an element whose URL was already produced leaves the list unchanged |
| EarliestScript.MatchingOptions | twitter-desloppifier.js:342-362 | the options are exactly those of the models whose text contains the filter, ignoring case, and only the selected model's are marked |
| EarliestScript.UpdateModelSelector | twitter-desloppifier.js:335-372 | the matching options come first; the selected model always has a marked option, and no other option is marked |
| EarliestScript.SelectedAppendedIffFiltered | twitter-desloppifier.js:364-371 | the selected model's own option is appended exactly when no model with its id passes the filter |
| RatingEngine.ShownScore | src/ratingEngine.js:7 | the score read from the element is always an integer or `NaN`, never `null` or `undefined` |
| RatingEngine.FilterSingleTweet | src/ratingEngine.js:6-17 | a pending tweet is never hidden; any other tweet is hidden exactly when its score does not parse or is below the threshold |
| RatingEngine.FilterWrittenScore | src/ratingEngine.js:7-47 | a tweet whose score, below `1e21` in size, was written with `toString` is hidden exactly when that score is below the threshold |
| RatingEngine.FilterMissingScore | src/ratingEngine.js:7 | a tweet without a score counts as 0, so it is hidden exactly when the threshold is positive |
| RatingEngine.ApplyTweetCachedRating | src/ratingEngine.js:27-55 | a rating is applied exactly when the author is listed or the id is cached; a listed author gets score 10 marked blacklisted and rated; otherwise a cached id gets its score and description marked cached and rated; with neither, the element is untouched |
| RatingEngine.CachedRatingFilters | src/ratingEngine.js:42-51 | after a cached rating below `1e21` in size is applied, the tweet is hidden exactly when the cached score is below the threshold |
| RatingEngine.ScheduleTweetProcessing | src/ratingEngine.js:272-304 | the four outcomes are exclusive and decided in order: listed author, then cached id, then already processed, else queued; only a queued id joins `processedTweets`, and a queued tweet is marked pending |
| RatingEngine.QueuedAtMostOnce | src/ratingEngine.js:293-298 | once an id has been queued, scheduling it again never queues it a second time, whatever the cache and list then hold |
| RatingEngine.ProcessedOnlyGrows | src/ratingEngine.js:293-298 | scheduling never removes an id from `processedTweets` and adds at most the tweet's own id |
| RatingEngine.DelayedProcessTweet | src/ratingEngine.js:95-264 | a listed author is rated 10 as `Blacklisted user`; the run ends in the `catch` exactly when the author is not listed and the id is not cached, and there a tweet without a score attribute is rated 5 with status `error` and `error processing tweet`, while one with a score is left as it was |
| RatingEngine.CaughtTweetScoredFive | src/ratingEngine.js:255-262 | a tweet neither listed nor cached and without a score is hidden afterwards exactly when the threshold is above 5 |
| RatingEngine.ListedAuthorShown | src/ratingEngine.js:95-107 | a listed author's tweet is never hidden afterwards for any threshold up to 10 |
| RatingEngine.Without | src/ratingEngine.js:137 | the filter keeps exactly the elements of the first list that are not in the second, in order |
| RatingEngine.ContextText | src/ratingEngine.js:144-168 | the context these lines would build always begins with the tweet's id, author handle and text |
| RatingEngine.QuotedAuthorNotFilledIn | src/ratingEngine.js:163 | whenever there is quoted text, the context carries the literal `@${quotedHandle}` instead of the quoted author's handle |
| Handles.AddHandle | src/ui/handleManager.js:7-17 | an empty cleaned handle or one already listed (compared exactly) is rejected and nothing is stored; otherwise it is appended at the end and the list is stored one handle per line |
| Handles.CleanHandle | src/ui/handleManager.js:8 | the handle is trimmed and one leading `@` removed, without trimming again |
| Handles.AddKeepsNoDuplicates | src/ui/handleManager.js:9-13 | adding keeps a list without duplicates free of them |
| Handles.FirstIndex | src/ui/handleManager.js:24 | `indexOf` gives the first position of the handle, and nothing exactly when it is absent |
| Handles.RemoveHandle | src/ui/handleManager.js:23-33 | an absent handle changes nothing and stores nothing; otherwise exactly one occurrence is removed and the list is stored |
| Handles.RemoveFirstOccurrence | src/ui/handleManager.js:24-26 | the removed occurrence is the first one, and the handles before and after it keep their order |
| Handles.RemoveFromDistinct | src/ui/handleManager.js:23-33 | on a list without duplicates a removed handle is gone for good and the list stays duplicate-free |
| Handles.AddFromInputIsAdd | src/ui/handleManager.js:38-45 | adding through the input field, which trims and skips empty text, does exactly what `addHandleToBlacklist` does with the raw text |
| Handles.AddFromInput | src/ui/handleManager.js:38-45 | blank input changes nothing; otherwise the list is kept or grows by one handle at the end, and a grown list is stored one handle per line |
| Handles.BlacklistIgnoresCaseAndSpace | src/ratingEngine.js:72-76 | the lookup of a handle that is not blank gives the same answer for its trimmed and its lower-cased form |
| Handles.IsUserBlacklisted | src/ratingEngine.js:72-76 | an empty handle or an empty list never matches, and a non-empty handle listed as written always does |
| Handles.AddedHandleIsBlacklisted | src/ratingEngine.js:72-76 | a handle that was added, or was already listed, is then recognised by the lookup |
| Tweets.StateValuesAreTheStates | src/models/Tweet.js:4-11 | the six state strings are exactly the values of the six states |
| Tweets.NewTweet | src/models/Tweet.js:25-56 | a new tweet is pending with no rating or error, keeps the given fields, defaults missing media to `[]`, copies them as its own media, and is stamped with the current time |
| Tweets.SetState | src/models/Tweet.js:179-185 | a known state value replaces the state and changes nothing else; any other value leaves the tweet as it was |
| Tweets.SetRating | src/models/Tweet.js:191-196 | the rating is always stored; the state becomes rated exactly when the rating has a score that is neither `null` nor `undefined`; nothing else changes |
| Tweets.SetError | src/models/Tweet.js:202-205 | the stored error is always an `Error` with the given message, and the state becomes error; nothing else changes |
| Tweets.SetParent | src/models/Tweet.js:161-164 | the parent id is the parent's id, or `null` without a parent; nothing else changes |
| Tweets.SetQuote | src/models/Tweet.js:170-173 | the quote id is the quoted tweet's id, or `null` without one; nothing else changes |
| Tweets.ShouldBeFiltered | src/models/Tweet.js:332-347 | ads and known ad authors are always filtered; any other tweet is filtered only when its author is not listed, it is not pending or streaming, and its score is below the threshold; conversely such a tweet of an unlisted author, not pending or streaming, is filtered exactly when it has a set score below the threshold |
| Tweets.FilteredByScore | src/models/Tweet.js:332-347 | a non-ad tweet of an unlisted author that is not pending or streaming, whether rated, cached, in error or blacklisted, is filtered exactly when it has a set score below the threshold |
| Tweets.ToObject | src/models/Tweet.js:278-299 | `toJSON` keeps the id, author and text, writes a rating exactly when there is one, and writes an error exactly when it is an `Error` |
| Tweets.FromObject | src/models/Tweet.js:62-87 | hydration defaults missing media to `[]`, a missing or empty state to pending, a missing or zero timestamp to the current time, missing own media to the media, and an empty quoted id to `null` |
| Tweets.ObjectRoundTrip | src/models/Tweet.js:62-306 | `fromJSON(toJSON(t))` keeps the identity, text, media, ad flag, state, timestamp, thread context, engagement and quoted-tweet fields when the state, timestamp and quoted id are not falsy |
| Tweets.ObjectRoundTripRating | src/models/Tweet.js:71-289 | the rating comes back as the rating's own round trip leaves it |
| Tweets.ErrorLostOnSecondRoundTrip | src/models/Tweet.js:68-285 | an error comes back from one round trip only as a plain string, which a second round trip drops because a string has no `message` |
| Tweets.UniqueThreadMedia | src/models/Tweet.js:232-233 | the kept thread URLs are exactly those that are neither the tweet's own media nor the quoted tweet's, each kept as many times as the thread lists it |
| Tweets.UniqueThreadMediaInOrder | src/models/Tweet.js:232-233 | the kept URLs keep the thread's order |
| Tweets.ThreadMediaSection | src/models/Tweet.js:231-238 | the thread-media section is written exactly when the thread has media that are not already shown |
| ScoreIndicator.NewIndicator | src/ui/ScoreIndicator.js:8-94 | a new indicator belongs to its tweet, is pending with a `null` score, is neither pinned nor visible, and scrolls automatically |
| ScoreIndicator.Update | src/ui/ScoreIndicator.js:1674-1687 | a call in which no field differs from the stored one leaves the indicator exactly as it was |
| ScoreIndicator.UpdateFields | src/ui/ScoreIndicator.js:1676-1699 | each field given to `update` is stored and each omitted one is kept; a `null` score without a status change keeps the score; the id, pin, visibility and histories never change |
| ScoreIndicator.UpdateScoreRule | src/ui/ScoreIndicator.js:1691-1695 | on a status or score change, pending and error take the given score, streaming keeps the old score over `null`, and every other status takes a non-`null` score |
| ScoreIndicator.UpdateAutoScroll | src/ui/ScoreIndicator.js:1702-1711 | a status change turns auto-scroll on exactly for pending and streaming; without one it is left alone |
| ScoreIndicator.UpdateIdempotent | src/ui/ScoreIndicator.js:1674-1700 | repeating an `update` with the same arguments changes nothing more |
| ScoreIndicator.IndicatorLook | src/ui/ScoreIndicator.js:518-573 | an auto-scored author's badge shows the score or `?`; otherwise pending, error and manual show their symbols, streaming shows the score or a spinner, and the rated statuses show the score as text |
| ScoreIndicator.LookClassIdentifiesStatus | src/ui/ScoreIndicator.js:531-566 | each status has its own badge class, so the class tells the status |
| ScoreIndicator.Show | src/ui/ScoreIndicator.js:1724-1736 | the tooltip becomes visible and its pinning is unchanged |
| ScoreIndicator.SetPinned | src/ui/ScoreIndicator.js:1760-1777 | `pin` and `unpin` set the pinning and leave the visibility alone |
| ScoreIndicator.Hide | src/ui/ScoreIndicator.js:1739-1748 | a pinned tooltip is left exactly as it is; an unpinned one becomes hidden |
| ScoreIndicator.Toggle | src/ui/ScoreIndicator.js:1750-1758 | afterwards the tooltip is visible unless it was visible and unpinned, and the pin is unchanged |
| ScoreIndicator.ToggleTwice | src/ui/ScoreIndicator.js:1724-1758 | two toggles give an unpinned tooltip back unchanged and leave a pinned one shown |
| ScoreIndicator.FirstPending | src/ui/ScoreIndicator.js:1542 | `findIndex` gives the first turn still pending for the question, and nothing exactly when no turn is |
| ScoreIndicator.AnswerPending | src/ui/ScoreIndicator.js:1541-1552 | only the first turn pending for the question gets the answer and reasoning; every other turn stays, and without one nothing changes |
| ScoreIndicator.ReviewHistory | src/ui/ScoreIndicator.js:1950-1968 | the history holds four messages: the review prompt, the tweet with its images when the model accepts them, the reply, and a system message with the follow-up prompt, whose instructions are spliced in by `JsString.ReplaceFirst` |
| ScoreIndicator.ReviewScore | src/ui/ScoreIndicator.js:1941-1945 | the score is the tagged `<SCORE>` token's value, and `null` exactly when there is none |
| ScoreIndicator.InitialReview | src/ui/ScoreIndicator.js:1938-1969 | the status is rated exactly when the reply has a tagged score and error otherwise, with a `null` score; the description, questions and history come from the reply; id, pin and visibility stay |
| ScoreIndicator.FollowUpPromptInstructions | src/ui/ScoreIndicator.js:1957-1960 | the first placeholder in the follow-up prompt is replaced by the user's instructions, or the default when they have none, with their `$` patterns expanded; instructions without a dollar sign, the default among them, go in exactly as typed |
| JsString.BeforeFirst | twitter-desloppifier.js:629 | `s.split(sep)[0]` is a prefix of `s` without the separator |
| JsString.BeforeFirstStops | twitter-desloppifier.js:629 | `s.split(sep)[0]` is all of `s` or ends just before the first separator |
| JsString.ReplaceFirst | src/ui/ScoreIndicator.js:1957-1960 | with no occurrence the text is unchanged; otherwise the first occurrence of the pattern, and only it, is replaced by the replacement with its `$` patterns expanded against the text before and after it |
| JsString.ReplaceFirstWithoutDollar | src/ui/ScoreIndicator.js:1957-1960 | a replacement without a dollar sign is spliced in literally at the first occurrence |
| JsString.SubstitutionWithoutDollar | src/ui/ScoreIndicator.js:1957-1960 | a replacement without a dollar sign expands to itself |
| JsString.SubstitutionOfEscaped | src/ui/ScoreIndicator.js:1957-1960 | doubling every dollar sign makes the expansion give back the text unchanged |
| JsString.ReplaceExpandsDollars | src/ui/ScoreIndicator.js:1957-1960 | `Hide $$ and $& posts` goes in as `Hide $ and ` + the placeholder + ` posts` |
| ScoreIndicator.RegistryGet | src/ui/ScoreIndicator.js:2269-2298 | an empty id gives `null`; a registered id gives its indicator and changes nothing; an unknown id gives a new indicator registered under the article's id when an article is given, and `null` otherwise |
| ScoreIndicator.RegistryGetKeepsExisting | src/ui/ScoreIndicator.js:2269-2298 | `get` never removes an entry, adds at most one, and leaves the registry alone for a registered id |
| ScoreIndicator.RegistryRemove | src/ui/ScoreIndicator.js:2319-2323 | only the given id is removed; every other entry stays as it was |
| DomScraper.FirstText | src/domScraper.js:9-13 | the trimmed text of the first element whose text is not blank, and `''` exactly when every element is blank |
| DomScraper.GetElementText | src/domScraper.js:6-14 | no elements give `''`; otherwise the first non-blank trimmed text of the list; the result is always trimmed |
| DomScraper.GetTweetText | src/domScraper.js:20-32 | the trimmed text of the first text element outside the quote, `''` when there is none; without a quote, the first element's text |
| DomScraper.TweetTextSkipsQuoted | src/domScraper.js:24-29 | text elements inside the quote before the first own element are skipped, and that element's text is taken |
| DomScraper.NextStatusMatch | src/domScraper.js:42 | the leftmost position where `/status/` is followed by a digit, and nothing exactly when there is none |
| DomScraper.GetTweetID | src/domScraper.js:38-49 | a missing permalink or one without `/status/` gives the fresh id; a `/status/<digits>` match gives a non-empty digit string; `/status/` without digits gives the rest of the link from `status/` |
| DomScraper.TweetIdOfPermalink | src/domScraper.js:41-45 | a permalink whose first `/status/` is followed by the id's digits yields exactly those digits, whatever follows them |
| DomScraper.MainHandle | src/domScraper.js:59-65 | a handle is found exactly when the link's `href` starts with `/`, and it is the `href` without that `/` |
| DomScraper.LastIndexOf | src/domScraper.js:76 | `lastIndexOf` finds a position holding the character with none after it, and nothing exactly when the character does not occur |
| DomScraper.AvatarHandle | src/domScraper.js:74-82 | the avatar gives a handle exactly when its test id has a `-` that is not the last character; the handle is what follows the last `-` |
| DomScraper.AvatarHandleOfTestId | src/domScraper.js:70-82 | the avatar test id of a handle without `-` reads back as that handle |
| DomScraper.LinkHandle | src/domScraper.js:84-92 | a link gives a handle only when it starts with `/` and its first path segment is non-empty and followed by `/status/` and a digit; the handle is that segment |
| DomScraper.LinkHandleOfStatusLink | src/domScraper.js:84-92 | a status link `/user/status/<digits>…` reads back as `user` |
| DomScraper.PushOther | src/domScraper.js:79-80 | a quoted handle is appended only when it is present and differs from the author's handle |
| DomScraper.GetUserHandles | src/domScraper.js:56-98 | never empty and at most three handles; `['']` when the author's handle is missing; otherwise it comes first and no later handle equals it; later handles exist only with a quote avatar and come from the avatar or the status link |
| DomScraper.HandlesOfQuotingTweet | src/domScraper.js:67-92 | a tweet quoting another author lists the author, then the quoted author twice, once from the avatar and once from the link |
| DomScraper.AnyAdLabel | src/domScraper.js:418-422 | true exactly when some span's trimmed text is `Ad` and it has no child elements |
| DomScraper.IsAd | src/domScraper.js:414-424 | a missing article is no ad; otherwise an ad exactly when one of its spans is a child-less `Ad` label |
| UserScript.CachedStatus | TweetFilter-AI.user.js:3242-3258 | a cached score shows as `streaming` exactly for a streaming record, as `cached` exactly for a finished record loaded from storage, and as `rated` otherwise |
| UserScript.ApplyCachedRating | TweetFilter-AI.user.js:3211-3274 | applied exactly when the author is listed or a score (even `NaN`) is stored; a listed author gets 10 and `blacklisted`; a stored score is written with its status and description; a finished record without a score is deleted and the cache saved; otherwise nothing changes |
| UserScript.ApplyCachedRatingCleans | TweetFilter-AI.user.js:3227-3270 | afterwards the only scoreless record left for the tweet is one still streaming, and a second call changes the cache no further |
| UserScript.AppliedScoreFilters | TweetFilter-AI.user.js:3236-3262 | a stored number below `1e21` in size, written this way, hides the tweet exactly when it is below the threshold |
| UserScript.ProcessingFailed | TweetFilter-AI.user.js:3551-3568 | a tweet without a score attribute gets 5, `error` and `error processing tweet`; one that has a score is left alone |
| UserScript.FinishProcessing | TweetFilter-AI.user.js:3569-3576 | a failed run removes the tweet from `processedTweets` and changes nothing else; a successful run keeps the set |
| UserScript.FailedTweetIsScheduledAgain | TweetFilter-AI.user.js:3569-3576 | after a failed run, scheduling the same unlisted, uncached tweet again queues it |
| UserScript.Insert | TweetFilter-AI.user.js:3682 | inserting into a newest-first list keeps it newest first and adds exactly the one entry |
| UserScript.SortByTsDesc | TweetFilter-AI.user.js:3682 | the result is newest first, with missing timestamps as 0, and is a permutation of the input |
| UserScript.PruneRelationships | TweetFilter-AI.user.js:3676-3685 | at most 1000 relationships are kept as they are; more are cut to 500 of them |
| UserScript.PruneKeepsNewest | TweetFilter-AI.user.js:3680-3684 | no dropped relationship is newer than a kept one |
| UserScript.BuildReplyChain | TweetFilter-AI.user.js:3697-3726 | an empty id or non-positive depth gives no links; otherwise the chain starts at the tweet, has at most `maxDepth` links, each backed by a stored `replyTo` with its authors, each link starting where the previous ended; a chain shorter than `maxDepth` stops at a tweet with no stored parent |
| UserScript.FindFirst | TweetFilter-AI.user.js:4167 | the index of the first cell (or reply document) with the id, and none exactly when no such element follows the start |
| UserScript.AssignReply | TweetFilter-AI.user.js:4161-4184 | a reply document keeps its cell's author and id, and is the root exactly when its id is the root's |
| UserScript.AssignReplies | TweetFilter-AI.user.js:4161-4190 | one reply document per cell, in page order |
| UserScript.ThirdPass | TweetFilter-AI.user.js:4192-4205 | every document keeps its cell's id and author, and either keeps its second-pass target or is redirected to the parent stored for its id |
| UserScript.ThirdPassOnDistinctIds | TweetFilter-AI.user.js:4192-4205 | with distinct ids, a document is redirected exactly when the second pass gave it no target, it is not the root, and a parent is stored for its id |
| UserScript.RepliesPointIntoThread | TweetFilter-AI.user.js:4161-4176 | after the second pass, the root replies to nothing; every reply target is the root cell or the cell just above; a cell marked as a reply to the root points at it exactly when the root is on the page |
| UserScript.MediaBefore | TweetFilter-AI.user.js:4316-4323 | a URL is gathered exactly when it is among the media or quoted media of the first `n` documents |
| UserScript.MediaBeforeIsFlatten | TweetFilter-AI.user.js:4316-4323 | the gathered list is the concatenation, document by document, of each document's media and then its quoted media, order and repeats kept |
| UserScript.PreviousMediaUrls | TweetFilter-AI.user.js:4310-4327 | exactly the media of the documents before the first one for the tweet, as the in-order concatenation of their media and quoted media with repeats kept; nothing when the tweet is first or absent |
| UserScript.PreviousMediaExcludesLater | TweetFilter-AI.user.js:4312-4324 | a URL that appears only at or after the tweet's own document is not gathered |

## Left out

- Network I/O: `getCompletion`, the streaming reader, model lists, image descriptions, generation metadata and follow-up answers are not modelled; every request's outcome is an input, one per attempt.
- Timers: `setTimeout` waits, the spacing between API calls, processing delays and stream time-outs are dropped; backoff waits are kept as numbers of milliseconds.
- Clock and randomness: `Date.now()` is a parameter `now`, and the random fallback tweet id of `getTweetID` is a parameter `freshId`.
- DOM and rendering: elements are reduced to the strings and attributes the functions read; tooltip layout, HTML formatting, scrolling, settings panels and the statistics badge are not modelled.
- Storage: `GM_*`/`chrome.storage` are not modelled; operations return the new state and whether they would save, and a stored value that fails to parse is an input `None`.
- `new URL` in `extractMediaLinks` is a facade: each element supplies what parsing its URL yields (or that it throws).
- `modelSupportsImages` is a parameter of `AsyncRetry.MessageParts`.
- Strings: `toLowerCase` is modelled for ASCII letters only, and `charCodeAt` is the character's code point, which differs from the UTF-16 code unit outside the Basic Multilingual Plane.
- Scores.ParseIntOfIntToString: stated only for integers below `1e21` in size, and `RatingEngine.FilterWrittenScore`, `RatingEngine.CachedRatingFilters` and `UserScript.AppliedScoreFilters` carry the same bound. Scores are JavaScript doubles, which hold integers exactly only up to 2^53, and from `1e21` on `String` writes them in exponent form (`"1e+21"`), which `parseInt` reads as 1. The model's scores are unbounded integers.
- Scores that are not integers (a JavaScript number with a fraction) are not modelled; `parseInt` only ever yields integers or `NaN`.
- `Tweet.fromDOM` is not modelled: the constructor at `src/models/Tweet.js:27` never reaches it.
- `getFullContext` (`src/ratingEngine.js:326`) is not modelled: it serves the conversation-thread path and calls the network for image descriptions. `RatingEngine.ContextText` models the inline context of `delayedProcessTweet` (lines 144-168), with image descriptions off.
- RatingEngine.DelayedProcessTweet: the `catch` path's score indicator and log are not modelled; the rest of `delayedProcessTweet` after line 137 is unreachable in `src/ratingEngine.js` and is not modelled as a path.
- `src/twitter-desloppifier-lite.js` is not part of this model: the template literal opened at its line 1630 is closed at 1635, which leaves the prompt text from line 1636 on outside any string, so the file does not parse and none of its functions can run.
- The follow-up, metadata and scroll elements that `ScoreIndicator` creates are not modelled; only the state fields it keeps are.
- Stored records are `CacheEntry.Entry` values with the named properties only. The source's `{ ...existingEntry }` in `set` (`src/backends/TweetCache.js:73-74`) and `{...ratingData, fromStorage: true}` when loading (`TweetFilter-AI.user.js:2171-2174`) keep any other property a stored object carries, such as the `error` assigned directly at `src/api/api.js:446`. The model does not carry such properties.
- `dist/` holds build copies of `src/` files and is not part of this model.
- ScoreIndicator.Show: the tooltip and the pin button are taken to exist, as the constructor creates them; the hide that `unpin` defers to a timer when the mouse is elsewhere is not modelled.
- ScoreIndicator.Update: metadata is compared with map equality where the source compares `JSON.stringify` texts, which also depend on key order.
- Api.Loop: an attempt past the end of the given outcomes is taken to throw with an empty message; a caller wanting a particular outcome supplies it.
- AsyncRetry.ApiJsRate: a thrown attempt counts as a failed one, although `getCompletion` in `src/api.js` never rejects, so no such attempt arises there.
- AsyncRetry.LoopOutcomes: `pendingRequests` is stated only to end where it started, not at each step of the loop.
- CallbackRetry.RateWithCallbacks: the wait that `attemptRating` inserts when the previous call was too recent is not modelled, so an attempt always goes ahead when it is scheduled.
- UserScript.PruneRelationships: entries with equal timestamps are kept in their key order, so which of them survive the cut matches the source only when the input order is the source's `Object.entries` order.
- Tweets.ObjectRoundTrip: stated only for tweets whose state, timestamp and quoted id are not the falsy `''`, `0` and `''`, which `fromJSON` replaces with defaults; the rating and the error are covered by `Tweets.ObjectRoundTripRating` and `Tweets.ErrorLostOnSecondRoundTrip`.
- Api.RateWithOpenRouter: returns the rating only. The cache writes around its loop are stated by `Api.CacheBeforeAttempts` and `Api.CacheAfterAttempts`. The writes of a streamed attempt are stated by `Api.StreamWithCache` when the stream completes and by `Api.StreamFailure` when it fails; `Api.RateTweet` states each non-streamed attempt's result. The `error` property the stream's error handler assigns is not one a record carries, so it is not modelled.
- Api.CacheAfterAttempts: takes the cache as the attempts left it as an input rather than threading it through the loop. The `error` and `tweetContent` properties of the source's updates are not properties `set` copies, so no error flag is stored by these writes.

=== FILE: api.dfy ===
/**
  The rating request pipeline of `src/api/api.js`: how `rateTweet` and `rateTweetStreaming`
  read a score from a completion, the `pendingRequests` counter, and the retry loop of
  `rateTweetWithOpenRouter`. The network is not modelled: every attempt's outcome is an
  input, one per attempt, and the waits between attempts are kept as numbers of milliseconds.
 */
module Api {
  import opened Wrappers
  import opened JsString
  import opened Scores
  import opened ResponseParsing
  import opened ScoreIndicator
  import opened CacheEntry
  import opened Messages
  import BackendCache

  // ---------------------------------------------------------------------------------------
  // Reading the score of a completion

  /** A score is truthy in JavaScript when it is a number other than `0`. */
  predicate Truthy(s: Score) {
    s.Num? && s.value != 0
  }

  /** The last `SCORE_n` token of a text as a score, `null` when there is none. */
  function LastScoreOf(content: string): (s: Score)
    ensures s.Null? <==> forall j :: 0 <= j ==> !ScoreTokenAt(content, j)
    ensures s.Num? ==> s.value >= 0
  {
    match LastScore(content)
    case Some(n) => Num(n)
    case None => Null
  }

  /**
    The score `rateTweet` writes to the cache: a truthy score already cached wins; otherwise
    the last `SCORE_n` of the reply, or `null`.
   */
  function RateTweetScore(existing: Score, content: string): (s: Score)
    ensures Truthy(existing) ==> s == existing
    ensures !Truthy(existing) ==> (s.Null? <==> forall j :: 0 <= j ==> !ScoreTokenAt(content, j))
  {
    if Truthy(existing) then existing else LastScoreOf(content)
  }

  /** Of several `SCORE_n` tokens the last one decides the score. */
  lemma LastTokenDecides(existing: Score, content: string, i: nat)
    requires !Truthy(existing)
    requires ScoreTokenAt(content, i)
    requires forall j :: i < j ==> !ScoreTokenAt(content, j)
    ensures RateTweetScore(existing, content) == Num(TokenValue(content, i))
  {
    var s := RateTweetScore(existing, content);
    assert s.Num?;
    var k :| ScoreTokenAt(content, k) && s.value == TokenValue(content, k)
             && forall j :: k < j ==> !ScoreTokenAt(content, j);
    assert k == i;
  }

  /** What one attempt of the retry loop gets back: a reply object, or a thrown error. */
  datatype Reply = Reply(error: bool, content: string, reasoning: string) | Threw(message: string)

  /**
    The completion `getCompletion` hands to `rateTweet`: its `error` flag is a boolean, and
    `""` is a missing or falsy text.
   */
  datatype Completion = Completion(error: bool, message: Option<ChatMessage>)
  datatype ChatMessage = ChatMessage(content: string, reasoning: string)

  /**
    The key `rateTweet` reads and writes in the tweet cache. It takes `request.tweetId`, but
    the request body built for it carries no `tweetId`, so the property looked up and stored
    is `undefined`, which JavaScript turns into the key `"undefined"`.
   */
  const RequestKey: string := "undefined"

  /** `tweetCache.get(tweetId)?.score` for the key `rateTweet` uses. */
  function ExistingScore(cache: BackendCache.Cache): (s: Score)
    ensures RequestKey !in cache ==> s.Undefined?
    ensures RequestKey in cache ==> s == cache[RequestKey].score
  {
    match BackendCache.Get(cache, RequestKey)
    case Some(e) => e.score
    case None => Undefined
  }

  /** The update `rateTweet` hands to `tweetCache.set`; `tweetContent` is not a property `set` copies. */
  function RateTweetUpdate(score: Score, content: string): Entry {
    EmptyEntry.(score := score, description := Some(content), streaming := Some(false))
  }

  /**
    The content of a failed `rateTweet` reply, `result.error || "Unknown error"`. With the flag
    set this is the boolean `true`, which reaches the retry loop's `new Error(...)` as the
    message `"true"`.
   */
  function FailedCompletionText(error: bool): string {
    if error then "true" else "Unknown error"
  }

  /** `rateTweet`: the reply it returns, and the tweet cache after it. */
  datatype RateTweetOutcome = RateTweetOutcome(reply: Reply, cache: BackendCache.Cache)

  function RateTweet(cache: BackendCache.Cache, c: Completion, now: int): (r: RateTweetOutcome)
    ensures r.reply.Reply?
    ensures forall k :: k != RequestKey ==> (k in r.cache <==> k in cache)
    ensures forall k :: k != RequestKey && k in cache ==> r.cache[k] == cache[k]
    ensures !c.error && c.message.Some? ==>
      && !r.reply.error && r.reply.content == c.message.value.content
      && RequestKey in r.cache
      && r.cache[RequestKey].score == RateTweetScore(ExistingScore(cache), c.message.value.content)
      && r.cache[RequestKey].description == Some(c.message.value.content)
      && r.cache[RequestKey].streaming == Some(false)
    ensures !(!c.error && c.message.Some?) ==> r.reply.error && r.reply.content != [] && r.cache == cache
    ensures c.error ==> r.reply.content == "true"
  {
    if !c.error && c.message.Some? then
      var m := c.message.value;
      var score := RateTweetScore(ExistingScore(cache), m.content);
      BackendCache.SetIsPartialMerge(cache, RequestKey, RateTweetUpdate(score, m.content), now);
      RateTweetOutcome(Reply(false, m.content, m.reasoning), BackendCache.Set(cache, RequestKey, RateTweetUpdate(score, m.content), now))
    else
      RateTweetOutcome(Reply(true, FailedCompletionText(c.error), ""), cache)
  }

  /**
    What the cache holds for any real tweet id never affects `rateTweet`: the reply and the
    record it writes are the same whatever is stored under that id.
   */
  lemma RateTweetIgnoresTweetRecord(cache: BackendCache.Cache, id: string, e: Entry, c: Completion, now: int)
    requires id != RequestKey
    ensures RateTweet(cache[id := e], c, now).reply == RateTweet(cache, c, now).reply
    ensures RequestKey in RateTweet(cache, c, now).cache
            ==> RateTweet(cache[id := e], c, now).cache[RequestKey] == RateTweet(cache, c, now).cache[RequestKey]
  {
  }

  // ---------------------------------------------------------------------------------------
  // rateTweetStreaming

  /** The text, reasoning and score a streamed completion has accumulated so far. */
  datatype StreamState = StreamState(content: string, reasoning: string, score: Score)

  /** The state before the first chunk: the cached description and reasoning, and `score || null`. */
  function StartStream(cachedDescription: string, cachedReasoning: string, cachedScore: Score): (st: StreamState)
    ensures st.score.Null? || Truthy(st.score)
    ensures Truthy(cachedScore) ==> st.score == cachedScore
  {
    StreamState(cachedDescription, cachedReasoning, if Truthy(cachedScore) then cachedScore else Null)
  }

  /**
    One chunk (and, the same way, the final result): a non-empty chunk text replaces the
    accumulated text, and the last `SCORE_n` of the accumulated text, when there is one,
    replaces the score.
   */
  function StreamStep(st: StreamState, chunk: ChatMessage): (r: StreamState)
    ensures r.content == if chunk.content != "" then chunk.content else st.content
    ensures LastScore(r.content).Some? ==> r.score == Num(LastScore(r.content).value)
    ensures LastScore(r.content).None? ==> r.score == st.score
  {
    var content := if chunk.content != "" then chunk.content else st.content;
    var reasoning := if chunk.reasoning != "" then chunk.reasoning else st.reasoning;
    StreamState(content, reasoning, match LastScore(content) case Some(n) => Num(n) case None => st.score)
  }

  /** The state after the chunks, in order: the text is the starting one or a non-empty chunk's. */
  function StreamChunks(st: StreamState, chunks: seq<ChatMessage>): (r: StreamState)
    ensures chunks == [] ==> r == st
    ensures r.content == st.content || exists i | 0 <= i < |chunks| :: chunks[i].content != "" && r.content == chunks[i].content
    decreases |chunks|
  {
    if chunks == [] then st
    else
      var r := StreamChunks(StreamStep(st, chunks[0]), chunks[1..]);
      assert forall i | 0 <= i < |chunks| - 1 :: chunks[1..][i] == chunks[i + 1];
      r
  }

  /** The texts the stream has accumulated after each chunk, in order. */
  function Accumulated(st: StreamState, chunks: seq<ChatMessage>): (texts: seq<string>)
    ensures |texts| == |chunks|
    decreases |chunks|
  {
    if chunks == [] then []
    else var next := StreamStep(st, chunks[0]); [next.content] + Accumulated(next, chunks[1..])
  }

  const NoScoreSuffix: string := "\n[No score detected - Error]"

  /** What `rateTweetStreaming` resolves with. */
  datatype StreamResult = StreamResult(score: Score, content: string, reasoning: string, error: bool)

  /**
    The final handler: one more step with the final result; a stream that still has no score
    ends in error with score 5 and a note appended to its text.
   */
  function FinishStream(st: StreamState, final: ChatMessage): (r: StreamResult)
    ensures r.error ==> r.score == Num(5) && EndsWith(r.content, NoScoreSuffix)
    ensures !r.error ==> r.score.IsSet()
  {
    var last := StreamStep(st, final);
    if !last.score.IsSet() then StreamResult(Num(5), last.content + NoScoreSuffix, last.reasoning, true)
    else StreamResult(last.score, last.content, last.reasoning, false)
  }

  /** `rateTweetStreaming` from the cached record's fields, the chunks and the final result. */
  function RateTweetStreaming(cachedDescription: string, cachedReasoning: string, cachedScore: Score,
                              chunks: seq<ChatMessage>, final: ChatMessage): (r: StreamResult)
    ensures r.error ==> r.score == Num(5) && EndsWith(r.content, NoScoreSuffix)
    ensures !r.error ==> r.score.IsSet()
  {
    FinishStream(StreamChunks(StartStream(cachedDescription, cachedReasoning, cachedScore), chunks), final)
  }

  /** A stream's score, once it has one, is never lost again. */
  lemma {:induction false} StreamScoreStaysSet(st: StreamState, chunks: seq<ChatMessage>)
    requires st.score.Num?
    ensures StreamChunks(st, chunks).score.Num?
    decreases |chunks|
  {
    if chunks != [] {
      StreamScoreStaysSet(StreamStep(st, chunks[0]), chunks[1..]);
    }
  }

  /**
    Without a score the stream keeps `null` exactly as long as none of the texts it has
    accumulated holds a `SCORE_n` token.
   */
  /** No text of `texts` holds a `SCORE_n` token. */
  predicate NoneScored(texts: seq<string>) {
    forall k :: 0 <= k < |texts| ==> LastScore(texts[k]).None?
  }

  lemma NoneScoredCons(text: string, rest: seq<string>)
    ensures NoneScored([text] + rest) <==> LastScore(text).None? && NoneScored(rest)
  {
    var texts := [text] + rest;
    if NoneScored(texts) {
      assert texts[0] == text;
      forall k | 0 <= k < |rest|
        ensures LastScore(rest[k]).None?
      {
        assert rest[k] == texts[k + 1];
      }
    }
    if LastScore(text).None? && NoneScored(rest) {
      forall k | 0 <= k < |texts|
        ensures LastScore(texts[k]).None?
      {
        if k > 0 {
          assert texts[k] == rest[k - 1];
        }
      }
    }
  }

  lemma {:induction false} StreamNullUntilToken(st: StreamState, chunks: seq<ChatMessage>)
    requires st.score.Null?
    ensures StreamChunks(st, chunks).score.Null? <==> NoneScored(Accumulated(st, chunks))
    decreases |chunks|
  {
    if chunks != [] {
      var next := StreamStep(st, chunks[0]);
      var rest := Accumulated(next, chunks[1..]);
      assert Accumulated(st, chunks) == [next.content] + rest;
      NoneScoredCons(next.content, rest);
      if LastScore(next.content).Some? {
        StreamScoreStaysSet(next, chunks[1..]);
      } else {
        StreamNullUntilToken(next, chunks[1..]);
      }
    }
  }

  /**
    The streamed rating ends in error exactly when no score was cached and no text the stream
    accumulated, the final one included, holds a `SCORE_n` token.
   */
  lemma StreamErrorIffNoToken(cachedDescription: string, cachedReasoning: string, cachedScore: Score,
                              chunks: seq<ChatMessage>, final: ChatMessage)
    ensures RateTweetStreaming(cachedDescription, cachedReasoning, cachedScore, chunks, final).error
      <==> !Truthy(cachedScore) && NoneScored(Accumulated(StartStream(cachedDescription, cachedReasoning, cachedScore), chunks + [final]))
  {
    var st := StartStream(cachedDescription, cachedReasoning, cachedScore);
    var all := chunks + [final];
    var end := StreamChunks(st, all);
    StreamChunksAppend(st, chunks, final);
    assert RateTweetStreaming(cachedDescription, cachedReasoning, cachedScore, chunks, final).error <==> !end.score.IsSet();
    if Truthy(cachedScore) {
      StreamScoreStaysSet(st, all);
    } else {
      StreamNullUntilToken(st, all);
      StreamScoreNeverUndefined(st, all);
    }
  }

  /** Starting from `null` the stream's score is `null` or a number, never `undefined` or `NaN`. */
  lemma {:induction false} StreamScoreNeverUndefined(st: StreamState, chunks: seq<ChatMessage>)
    requires st.score.Null? || st.score.Num?
    ensures StreamChunks(st, chunks).score.Null? || StreamChunks(st, chunks).score.Num?
    decreases |chunks|
  {
    if chunks != [] {
      StreamScoreNeverUndefined(StreamStep(st, chunks[0]), chunks[1..]);
    }
  }

  /** Folding over `chunks + [final]` is folding over `chunks` and then taking the final step. */
  lemma {:induction false} StreamChunksAppend(st: StreamState, chunks: seq<ChatMessage>, final: ChatMessage)
    ensures StreamChunks(st, chunks + [final]) == StreamStep(StreamChunks(st, chunks), final)
    decreases |chunks|
  {
    if chunks == [] {
      assert [final][1..] == [];
    } else {
      assert (chunks + [final])[1..] == chunks[1..] + [final];
      StreamChunksAppend(StreamStep(st, chunks[0]), chunks[1..], final);
    }
  }

  /** When the final text holds a score token, the stream is rated with the last one. */
  lemma StreamFinalTokenDecides(st: StreamState, final: ChatMessage, i: nat)
    requires var text := if final.content != "" then final.content else st.content;
      ScoreTokenAt(text, i) && forall j :: i < j ==> !ScoreTokenAt(text, j)
    ensures var text := if final.content != "" then final.content else st.content;
      FinishStream(st, final) == StreamResult(Num(TokenValue(text, i)), text, StreamStep(st, final).reasoning, false)
  {
    var text := if final.content != "" then final.content else st.content;
    LastTokenDecides(Null, text, i);
  }

  /** The reply the retry loop sees from a finished stream. */
  function StreamReply(r: StreamResult): (reply: Reply)
    ensures reply.Reply? && reply.error == r.error && reply.content == r.content
  {
    Reply(r.error, r.content, r.reasoning)
  }

  // ---------------------------------------------------------------------------------------
  // pendingRequests

  /** `cleanupRequest`: `pendingRequests = Math.max(0, pendingRequests - 1)`. */
  function Release(pending: int): (r: int)
    ensures r >= 0
    ensures pending >= 1 ==> r == pending - 1
    ensures pending <= 1 ==> r == 0
  {
    if pending - 1 > 0 then pending - 1 else 0
  }

  // ---------------------------------------------------------------------------------------
  // The tweet cache around a stream

  /** `{ generationId: data.id }` when the final data carries an id, otherwise `null`. */
  function GenerationMetadata(generationId: Option<string>): (m: Option<Metadata>)
    ensures m.Some? <==> generationId.Some? && generationId.value != ""
  {
    match generationId
    case Some(g) => if g != "" then Some(map["generationId" := MetaText(g)]) else None
    case None => None
  }

  /**
    The placeholder `rateTweetStreaming` writes before streaming, only when no record with a
    score is stored for the tweet; `tweetContent` is not a property `set` copies.
   */
  function StreamPlaceholder(cache: BackendCache.Cache, tweetId: string, now: int): (c: BackendCache.Cache)
    ensures tweetId in cache && cache[tweetId].score.IsSet() ==> c == cache
    ensures !(tweetId in cache && cache[tweetId].score.IsSet()) ==>
      && tweetId in c && c[tweetId].score.Null? && c[tweetId].streaming == Some(true)
      && c[tweetId].description == Some("") && c[tweetId].reasoning == Some("")
    ensures forall k :: k != tweetId ==> (k in c <==> k in cache) && (k in cache ==> c[k] == cache[k])
  {
    if tweetId in cache && cache[tweetId].score.IsSet() then cache
    else
      var u := EmptyEntry.(streaming := Some(true), timestamp := Some(now), description := Some(""),
                           reasoning := Some(""), questions := Some([]), lastAnswer := Some(""), score := Null);
      BackendCache.SetIsPartialMerge(cache, tweetId, u, now);
      BackendCache.Set(cache, tweetId, u, now)
  }

  /**
    The chunk callback's writes: when a record is stored for the tweet, its description,
    reasoning and score are overwritten in place with the stream's, and it is marked streaming.
   */
  function ChunkWrites(cache: BackendCache.Cache, tweetId: string, st: StreamState, chunks: seq<ChatMessage>): (c: BackendCache.Cache)
    ensures forall k :: (k in c <==> k in cache)
    ensures forall k :: k != tweetId && k in cache ==> c[k] == cache[k]
    ensures tweetId in cache && chunks != [] ==>
      var end := StreamChunks(st, chunks);
      && c[tweetId].score == end.score && c[tweetId].description == Some(end.content)
      && c[tweetId].reasoning == Some(end.reasoning) && c[tweetId].streaming == Some(true)
    ensures chunks == [] ==> c == cache
    decreases |chunks|
  {
    if chunks == [] then cache
    else
      var next := StreamStep(st, chunks[0]);
      var c1 := if tweetId in cache
        then cache[tweetId := cache[tweetId].(description := Some(next.content), reasoning := Some(next.reasoning),
                                              score := next.score, streaming := Some(true))]
        else cache;
      ChunkWrites(c1, tweetId, next, chunks[1..])
  }

  const StreamErrorPrefix: string := "Stream Error: "

  /**
    The stream's error callback: when a record is stored for the tweet, it is changed in place
    to no longer streaming, score 5 and the description `Stream Error: <message>`, and the
    promise rejects. The `error` property it also assigns is not one a record carries here.
   */
  function StreamFailure(cache: BackendCache.Cache, tweetId: string, message: string): (c: BackendCache.Cache)
    ensures tweetId !in cache ==> c == cache
    ensures tweetId in cache ==>
      && tweetId in c && c[tweetId].streaming == Some(false) && c[tweetId].score == Num(5)
      && c[tweetId].description == Some(StreamErrorPrefix + message)
      && c[tweetId].(streaming := cache[tweetId].streaming, score := cache[tweetId].score,
                     description := cache[tweetId].description) == cache[tweetId]
    ensures forall k :: k != tweetId ==> (k in c <==> k in cache) && (k in cache ==> c[k] == cache[k])
  {
    if tweetId in cache then
      cache[tweetId := cache[tweetId].(streaming := Some(false), score := Num(5),
                                       description := Some(StreamErrorPrefix + message))]
    else cache
  }

  /**
    A failed stream leaves a truthy score 5 behind: a later streamed attempt for the tweet
    writes no placeholder over it and starts from 5, so it can no longer end in error.
   */
  lemma FailedStreamKeepsFive(cache: BackendCache.Cache, tweetId: string, message: string, now: int,
                              chunks: seq<ChatMessage>, final: ChatMessage)
    requires tweetId in cache
    ensures var c := StreamFailure(cache, tweetId, message);
      && StreamPlaceholder(c, tweetId, now) == c
      && StartStream(c[tweetId].description.GetOr(""), c[tweetId].reasoning.GetOr(""), c[tweetId].score).score == Num(5)
      && !RateTweetStreaming(c[tweetId].description.GetOr(""), c[tweetId].reasoning.GetOr(""), c[tweetId].score, chunks, final).error
  {
    var c := StreamFailure(cache, tweetId, message);
    var st := StartStream(c[tweetId].description.GetOr(""), c[tweetId].reasoning.GetOr(""), c[tweetId].score);
    StreamScoreStaysSet(st, chunks + [final]);
    StreamChunksAppend(st, chunks, final);
  }

  /** A stream's result together with the tweet cache after it. */
  datatype StreamCall = StreamCall(result: StreamResult, cache: BackendCache.Cache)

  /**
    `rateTweetStreaming` with the tweet cache: the stream starts from the record stored
    before the placeholder, and the final handler writes the score, text and reasoning it
    resolves with, marked as no longer streaming. Its `error: "No score detected"` is not a
    property `set` copies, so no error flag reaches the cache; the score 5 does.
   */
  function StreamWithCache(cache: BackendCache.Cache, tweetId: string, chunks: seq<ChatMessage>, final: ChatMessage,
                           generationId: Option<string>, now: int): (r: StreamCall)
    ensures var e := BackendCache.Get(cache, tweetId);
      r.result == RateTweetStreaming(if e.Some? then e.value.description.GetOr("") else "",
                                     if e.Some? then e.value.reasoning.GetOr("") else "",
                                     if e.Some? then e.value.score else Undefined, chunks, final)
    ensures tweetId in r.cache
    ensures r.cache[tweetId].score == r.result.score && r.cache[tweetId].description == Some(r.result.content)
    ensures r.cache[tweetId].reasoning == Some(r.result.reasoning) && r.cache[tweetId].streaming == Some(false)
    ensures r.cache[tweetId].timestamp == Some(now)
    ensures r.result.error ==> r.cache[tweetId].score == Num(5) && EndsWith(r.cache[tweetId].description.value, NoScoreSuffix)
    ensures forall k :: k != tweetId ==> (k in r.cache <==> k in cache) && (k in cache ==> r.cache[k] == cache[k])
  {
    var e := BackendCache.Get(cache, tweetId);
    var st0 := StartStream(if e.Some? then e.value.description.GetOr("") else "",
                           if e.Some? then e.value.reasoning.GetOr("") else "",
                           if e.Some? then e.value.score else Undefined);
    var c1 := ChunkWrites(StreamPlaceholder(cache, tweetId, now), tweetId, st0, chunks);
    var res := FinishStream(StreamChunks(st0, chunks), final);
    var u := EmptyEntry.(score := res.score, description := Some(res.content), reasoning := Some(res.reasoning),
                         streaming := Some(false), timestamp := Some(now), metadata := GenerationMetadata(generationId));
    BackendCache.SetIsPartialMerge(c1, tweetId, u, now);
    BackendCache.SetTimestamp(c1, tweetId, u, now);
    StreamCall(res, BackendCache.Set(c1, tweetId, u, now))
  }

  // ---------------------------------------------------------------------------------------
  // rateTweetWithOpenRouter

  /** The environment of one call: the registry found an indicator, and the author's ad status. */
  datatype Call = Call(indicatorFound: bool, adAuthor: bool, maxRetries: int)

  /**
    How the call ends: with a result object, or with a rejected promise (the ad-author branch
    reads `currentInstructions` before its `const` declaration and throws).
   */
  datatype Completed = Resolved(result: RateResult) | Rejected

  /**
    The result object, plus what the loop did on the way: the attempts made, the waits
    between them, and `pendingRequests` at the end.
   */
  datatype RateResult = RateResult(score: Score, content: string, error: bool,
                                   attempts: nat, backoffs: seq<int>, pending: int)

  const FailurePrefix: string := "Failed to get valid rating after multiple attempts: "
  const NoContentMessage: string := "Failed to get valid rating content after multiple attempts"
  const UnexpectedFailure: string := "Unexpected failure in rating process."
  const NoIndicator: string := "Failed to initialize UI components for rating."

  /** The wait after failed attempt number `attempt` (counted from 1): `attempt² · 1000` ms. */
  function Backoff(attempt: int): int {
    attempt * attempt * 1000
  }

  /** The outcome of attempt `k` (counted from 0); an attempt with no outcome given fails with no message. */
  function OutcomeAt(outcomes: seq<Reply>, k: nat): Reply {
    if k < |outcomes| then outcomes[k] else Threw("")
  }

  /** `!result.error && result.content`. */
  predicate Succeeds(r: Reply) {
    r.Reply? && !r.error && r.content != ""
  }

  /** The text of the error a failed final attempt ends with. */
  function FailureMessage(r: Reply): string {
    match r
    case Reply(_, content, _) => if content != "" then content else NoContentMessage
    case Threw(message) => message
  }

  /** The waits after failed attempts `from` up to `to - 1` (counted from 1). */
  function Backoffs(from: int, to: int): (w: seq<int>)
    ensures |w| == if from <= to then to - from else 0
    ensures forall j :: 0 <= j < |w| ==> w[j] == Backoff(from + j)
  {
    if from <= to then seq(to - from, j => Backoff(from + j)) else []
  }

  /**
    The loop from attempt `k + 1` on, with `pending` requests and the waits so far. A reply
    releases its request inside the `try`; a failed final reply then throws inside that same
    `try`, so the `catch` releases once more.
   */
  function Loop(outcomes: seq<Reply>, maxRetries: int, k: nat, pending: int, backoffs: seq<int>): (r: RateResult)
    requires k < maxRetries
    ensures k < r.attempts <= maxRetries
    ensures r.backoffs == backoffs + Backoffs(k + 1, r.attempts)
    ensures forall j :: k <= j < r.attempts - 1 ==> !Succeeds(OutcomeAt(outcomes, j))
    ensures !r.error ==> Succeeds(OutcomeAt(outcomes, r.attempts - 1))
    ensures !r.error ==> r.content == OutcomeAt(outcomes, r.attempts - 1).content && r.score == ReviewScore(r.content)
    ensures r.error ==> r.attempts == maxRetries && !Succeeds(OutcomeAt(outcomes, maxRetries - 1))
    ensures r.error ==> r.score == Num(5) && r.content == FailurePrefix + FailureMessage(OutcomeAt(outcomes, maxRetries - 1))
    decreases maxRetries - k
  {
    var attempt := k + 1;
    var out := OutcomeAt(outcomes, k);
    var released := Release(pending + 1);
    if Succeeds(out) then
      RateResult(ReviewScore(out.content), out.content, false, attempt, backoffs, released)
    else if attempt < maxRetries then
      var r := Loop(outcomes, maxRetries, k + 1, released, backoffs + [Backoff(attempt)]);
      assert [Backoff(attempt)] + Backoffs(k + 2, r.attempts) == Backoffs(k + 1, r.attempts);
      r
    else
      var final := if out.Reply? then Release(released) else released;
      RateResult(Num(5), FailurePrefix + FailureMessage(out), true, attempt, backoffs, final)
  }

  /**
    `rateTweetWithOpenRouter`: no indicator gives an immediate error; an ad author rejects;
    otherwise up to `maxRetries` attempts, and with no attempt allowed at all the
    "unexpected failure" fallback.
   */
  function RateWithOpenRouter(call: Call, outcomes: seq<Reply>, pending: int): (c: Completed)
    ensures !call.indicatorFound ==> c == Resolved(RateResult(Num(5), NoIndicator, true, 0, [], pending))
    ensures call.indicatorFound && call.adAuthor ==> c.Rejected?
    ensures call.indicatorFound && !call.adAuthor ==> c.Resolved?
    ensures c.Resolved? ==> c.result.attempts <= if call.maxRetries > 0 then call.maxRetries else 0
    ensures c.Resolved? && c.result.error ==> c.result.score == Num(5)
  {
    if !call.indicatorFound then Resolved(RateResult(Num(5), NoIndicator, true, 0, [], pending))
    else if call.adAuthor then Rejected
    else if call.maxRetries <= 0 then Resolved(RateResult(Num(5), UnexpectedFailure, true, 0, [], Release(pending)))
    else Resolved(Loop(outcomes, call.maxRetries, 0, pending, []))
  }

  /**
    The rating succeeds exactly when one of the first `maxRetries` attempts succeeds; it then
    stops at the first such attempt and takes its score from that reply's `<SCORE>` block.
   */
  lemma RetrySucceedsAtFirstSuccess(call: Call, outcomes: seq<Reply>, pending: int)
    requires call.indicatorFound && !call.adAuthor
    ensures var r := RateWithOpenRouter(call, outcomes, pending).result;
      !r.error <==> exists j :: 0 <= j < call.maxRetries && Succeeds(OutcomeAt(outcomes, j))
    ensures var r := RateWithOpenRouter(call, outcomes, pending).result;
      !r.error ==> && 1 <= r.attempts
                   && Succeeds(OutcomeAt(outcomes, r.attempts - 1))
                   && (forall j :: 0 <= j < r.attempts - 1 ==> !Succeeds(OutcomeAt(outcomes, j)))
                   && r.score == ReviewScore(OutcomeAt(outcomes, r.attempts - 1).content)
  {
    var r := RateWithOpenRouter(call, outcomes, pending).result;
    if call.maxRetries > 0 && r.error {
      assert forall j :: 0 <= j < call.maxRetries ==> !Succeeds(OutcomeAt(outcomes, j)) by {
        forall j | 0 <= j < call.maxRetries
          ensures !Succeeds(OutcomeAt(outcomes, j))
        {
          if j < r.attempts - 1 {
          } else {
            assert j == call.maxRetries - 1;
          }
        }
      }
    }
  }

  /**
    Every failed attempt but the last is followed by a wait of `attempt² · 1000` ms; when all
    attempts fail the result is score 5 with `error` set, after exactly `maxRetries` attempts.
   */
  lemma RetryBackoffs(call: Call, outcomes: seq<Reply>, pending: int)
    requires call.indicatorFound && !call.adAuthor && call.maxRetries > 0
    ensures var r := RateWithOpenRouter(call, outcomes, pending).result;
      && |r.backoffs| == r.attempts - 1
      && (forall j :: 0 <= j < |r.backoffs| ==> r.backoffs[j] == (j + 1) * (j + 1) * 1000)
    ensures var r := RateWithOpenRouter(call, outcomes, pending).result;
      r.error ==> r.attempts == call.maxRetries && r.score == Num(5)
  {
  }

  /**
    `pendingRequests` never goes negative. Every attempt takes one request and gives it back;
    a final attempt that returned a failed reply gives back one more (clamped at 0), as does
    the fallback that runs without any attempt.
   */
  lemma {:induction false} LoopPending(outcomes: seq<Reply>, maxRetries: int, k: nat, pending: int, backoffs: seq<int>)
    requires k < maxRetries && pending >= 0
    ensures var r := Loop(outcomes, maxRetries, k, pending, backoffs);
      r.pending == if r.error && OutcomeAt(outcomes, maxRetries - 1).Reply? then Release(pending) else pending
    decreases maxRetries - k
  {
    var out := OutcomeAt(outcomes, k);
    assert Release(pending + 1) == pending;
    if !Succeeds(out) && k + 1 < maxRetries {
      LoopPending(outcomes, maxRetries, k + 1, pending, backoffs + [Backoff(k + 1)]);
    }
  }

  lemma PendingNeverNegative(call: Call, outcomes: seq<Reply>, pending: int)
    requires pending >= 0
    ensures RateWithOpenRouter(call, outcomes, pending).Resolved? ==>
      RateWithOpenRouter(call, outcomes, pending).result.pending >= 0
  {
    if call.indicatorFound && !call.adAuthor && call.maxRetries > 0 {
      LoopPending(outcomes, call.maxRetries, 0, pending, []);
    }
  }

  // ---------------------------------------------------------------------------------------
  // The tweet cache around the attempts

  /** The tweet `rateTweetWithOpenRouter` rates, as its review and its cache records see it. */
  datatype Job = Job(tweetId: string, tweetText: string, mediaUrls: seq<string>, reviewSystemPrompt: string,
                     followUpSystemPrompt: string, userInstructions: string, modelSupportsImages: bool)

  /** The input `updateInitialReviewAndBuildHistory` is given for a reply text. */
  function ReviewOf(job: Job, content: string): ReviewInput {
    ReviewInput(job.tweetText, job.mediaUrls, content, job.reviewSystemPrompt, job.followUpSystemPrompt,
                job.userInstructions, job.modelSupportsImages)
  }

  /** The reply text the indicator is given once the last attempt has failed. */
  function FailureResponse(errorContent: string): string {
    "<ANALYSIS>" + errorContent + "</ANALYSIS><SCORE>SCORE_5</SCORE><FOLLOW_UP_QUESTIONS>Q_1. N/A\\nQ_2. N/A\\nQ_3. N/A</FOLLOW_UP_QUESTIONS>"
  }

  /**
    The cache before the first attempt: an indicator was found and the call did not reject,
    so the placeholder marking the tweet as streaming, with its media, is written;
    `tweetContent` is not a property `set` copies.
   */
  function CacheBeforeAttempts(call: Call, job: Job, cache: BackendCache.Cache, now: int): (c: BackendCache.Cache)
    ensures !call.indicatorFound || call.adAuthor ==> c == cache
    ensures call.indicatorFound && !call.adAuthor ==>
      && job.tweetId in c && c[job.tweetId].streaming == Some(true) && c[job.tweetId].mediaUrls == Some(job.mediaUrls)
      && c[job.tweetId].score == BackendCache.Get(cache, job.tweetId).GetOr(EmptyEntry).score
    ensures forall k :: k != job.tweetId ==> (k in c <==> k in cache) && (k in cache ==> c[k] == cache[k])
  {
    if !call.indicatorFound || call.adAuthor then cache
    else
      var u := EmptyEntry.(streaming := Some(true), timestamp := Some(now), mediaUrls := Some(job.mediaUrls));
      BackendCache.SetIsPartialMerge(cache, job.tweetId, u, now);
      BackendCache.Set(cache, job.tweetId, u, now)
  }

  /**
    The record written when the loop ends: on success the reviewed reply (the indicator's
    score, description, questions and history, the reply's reasoning); after the last
    failure score 5 with the error text as description. The `error: true` of the failure
    record and `tweetContent` are not properties `set` copies.
   */
  function FinalUpdate(job: Job, r: RateResult, reasoning: string, generationId: Option<string>, now: int): (u: Entry)
    ensures u.streaming == Some(false) && u.timestamp == Some(now) && u.mediaUrls == Some(job.mediaUrls)
    ensures u.lastAnswer == Some("") && u.qaConversationHistory.Some?
    ensures !r.error ==> && u.score == ReviewScore(r.content) && u.description == Some(AnalysisOrWhole(r.content))
                         && u.questions == Some(ExtractFollowUpQuestions(r.content)) && u.reasoning == Some(reasoning)
    ensures r.error ==> && u.score == Num(5) && u.description == Some(r.content)
                        && u.questions == Some([]) && u.reasoning == Some("")
  {
    if !r.error then
      EmptyEntry.(score := ReviewScore(r.content), description := Some(AnalysisOrWhole(r.content)),
                  reasoning := Some(reasoning), questions := Some(ExtractFollowUpQuestions(r.content)),
                  lastAnswer := Some(""), mediaUrls := Some(job.mediaUrls), streaming := Some(false),
                  timestamp := Some(now), metadata := GenerationMetadata(generationId),
                  qaConversationHistory := Some(ReviewHistory(ReviewOf(job, r.content))))
    else
      EmptyEntry.(score := Num(5), description := Some(r.content), reasoning := Some(""), questions := Some([]),
                  lastAnswer := Some(""), mediaUrls := Some(job.mediaUrls), streaming := Some(false),
                  timestamp := Some(now),
                  qaConversationHistory := Some(ReviewHistory(ReviewOf(job, FailureResponse(r.content)))))
  }

  /** The final write of a finished loop with result `r` over the cache `mid`. */
  function WriteFinal(job: Job, r: RateResult, reasoning: string, mid: BackendCache.Cache,
                      generationId: Option<string>, now: int): (c: BackendCache.Cache)
    ensures forall k :: k != job.tweetId ==> (k in c <==> k in mid) && (k in mid ==> c[k] == mid[k])
    ensures job.tweetId in c
    ensures var e := c[job.tweetId];
      && e.streaming == Some(false) && e.timestamp == Some(now) && e.mediaUrls == Some(job.mediaUrls) && e.lastAnswer == Some("")
      && e.qaConversationHistory == FinalUpdate(job, r, reasoning, generationId, now).qaConversationHistory
      && (!r.error ==> && e.score == ReviewScore(r.content) && e.description == Some(AnalysisOrWhole(r.content))
                       && e.questions == Some(ExtractFollowUpQuestions(r.content)) && e.reasoning == Some(reasoning))
      && (r.error ==> e.score == Num(5) && e.description == Some(r.content) && e.questions == Some([]) && e.reasoning == Some(""))
  {
    var u := FinalUpdate(job, r, reasoning, generationId, now);
    BackendCache.SetCarried(mid, job.tweetId, u, now);
    BackendCache.Set(mid, job.tweetId, u, now)
  }

  /**
    The cache after `rateTweetWithOpenRouter`, given `mid`, the cache as the attempts left it
    (their own writes are those of `RateTweet` or `StreamWithCache`). A loop that ran writes
    its final record for the tweet; without an indicator, on the rejecting branch, or with no
    attempt allowed, nothing more is written. `generationId` is the id in the successful
    reply's data, when it has one.
   */
  function CacheAfterAttempts(call: Call, outcomes: seq<Reply>, pending: int, job: Job, mid: BackendCache.Cache,
                              generationId: Option<string>, now: int): (c: BackendCache.Cache)
    ensures !call.indicatorFound || call.adAuthor || call.maxRetries <= 0 ==> c == mid
    ensures call.indicatorFound && !call.adAuthor && call.maxRetries > 0 ==> job.tweetId in c
    ensures forall k :: k != job.tweetId ==> (k in c <==> k in mid) && (k in mid ==> c[k] == mid[k])
  {
    if !call.indicatorFound || call.adAuthor || call.maxRetries <= 0 then mid
    else
      var r := RateWithOpenRouter(call, outcomes, pending).result;
      var reasoning := if !r.error then OutcomeAt(outcomes, r.attempts - 1).reasoning else "";
      WriteFinal(job, r, reasoning, mid, generationId, now)
  }

  /**
    A loop that ran leaves the tweet's record no longer streaming, with its media: on success
    the reviewed reply's score, description, questions and reasoning; after the last failure
    score 5, no questions, and the failure text naming the last attempt's error.
   */
  lemma FinalRecordOfAttempts(call: Call, outcomes: seq<Reply>, pending: int, job: Job, mid: BackendCache.Cache,
                              generationId: Option<string>, now: int)
    requires call.indicatorFound && !call.adAuthor && call.maxRetries > 0
    ensures var c := CacheAfterAttempts(call, outcomes, pending, job, mid, generationId, now);
      var r := RateWithOpenRouter(call, outcomes, pending).result;
      && job.tweetId in c
      && c[job.tweetId].streaming == Some(false) && c[job.tweetId].timestamp == Some(now)
      && c[job.tweetId].mediaUrls == Some(job.mediaUrls) && c[job.tweetId].lastAnswer == Some("")
      && (!r.error ==>
            && c[job.tweetId].score == r.score
            && c[job.tweetId].description == Some(AnalysisOrWhole(r.content))
            && c[job.tweetId].questions == Some(ExtractFollowUpQuestions(r.content))
            && c[job.tweetId].reasoning == Some(OutcomeAt(outcomes, r.attempts - 1).reasoning))
      && (r.error ==>
            && c[job.tweetId].score == Num(5)
            && c[job.tweetId].description == Some(FailurePrefix + FailureMessage(OutcomeAt(outcomes, call.maxRetries - 1)))
            && c[job.tweetId].questions == Some([]) && c[job.tweetId].reasoning == Some(""))
  {
    var r := Loop(outcomes, call.maxRetries, 0, pending, []);
    assert RateWithOpenRouter(call, outcomes, pending).result == r;
  }

  /**
    Whatever the attempts left in the cache, the final record's score, description,
    questions and reasoning are the ones the call resolved with: a failed rating is stored
    as a 5, which later passes are read back from the cache.
   */
  lemma FinalRecordIgnoresMid(call: Call, outcomes: seq<Reply>, pending: int, job: Job, mid1: BackendCache.Cache,
                              mid2: BackendCache.Cache, generationId: Option<string>, now: int)
    requires call.indicatorFound && !call.adAuthor && call.maxRetries > 0
    ensures var c1 := CacheAfterAttempts(call, outcomes, pending, job, mid1, generationId, now)[job.tweetId];
      var c2 := CacheAfterAttempts(call, outcomes, pending, job, mid2, generationId, now)[job.tweetId];
      c1.score == c2.score && c1.description == c2.description && c1.questions == c2.questions
      && c1.reasoning == c2.reasoning && c1.streaming == c2.streaming && c1.qaConversationHistory == c2.qaConversationHistory
  {
    var r := RateWithOpenRouter(call, outcomes, pending).result;
    var reasoning := if !r.error then OutcomeAt(outcomes, r.attempts - 1).reasoning else "";
    WriteFinalIgnoresMid(job, r, reasoning, mid1, mid2, generationId, now);
  }

  /** The final write sets each field it reports from the result alone. */
  lemma WriteFinalIgnoresMid(job: Job, r: RateResult, reasoning: string, mid1: BackendCache.Cache,
                             mid2: BackendCache.Cache, generationId: Option<string>, now: int)
    ensures var c1 := WriteFinal(job, r, reasoning, mid1, generationId, now)[job.tweetId];
      var c2 := WriteFinal(job, r, reasoning, mid2, generationId, now)[job.tweetId];
      c1.score == c2.score && c1.description == c2.description && c1.questions == c2.questions
      && c1.reasoning == c2.reasoning && c1.streaming == c2.streaming && c1.qaConversationHistory == c2.qaConversationHistory
  {
  }
}

=== FILE: async_retry.dfy ===
/**
  The `async` retry loops of `rateTweetWithOpenRouter` in the combined script
  (`TweetFilter-AI.user.js`) and in `src/api.js`. Both make up to `maxRetries` attempts,
  wait `attempt² · 1000` ms after each failed attempt but the last, and fall back to score 5
  with `error` set. They differ in the pattern a reply's score is read with: the script takes
  the first `SCORE_n`, `src/api.js` the first match of the lenient `/\SCORE_(\d+)/`. Only
  `src/api.js` caches the score it finds. The requests themselves are a sequence of replies,
  one per attempt; an attempt past the end of the sequence throws.
 */
module AsyncRetry {
  import opened Wrappers
  import opened JsString
  import opened ResponseParsing
  import Api

  /** The pattern a reply's score is read with. */
  datatype Pattern = FirstStrict | FirstLenient

  /** Where the pattern matches at `i`; both capture the digits starting at `i + 6`. */
  predicate PatternAt(p: Pattern, s: string, i: int) {
    if p == FirstStrict then ScoreTokenAt(s, i) else LenientTokenAt(s, i)
  }

  /** The value of the first match at or after `from`, found by trying each position in turn. */
  function MatchFrom(p: Pattern, s: string, from: nat): (r: Option<nat>)
    ensures r.Some? <==> exists i | from <= i && i + 6 < |s| :: PatternAt(p, s, i)
    decreases |s| - from
  {
    if from + 6 >= |s| then None
    else if PatternAt(p, s, from) then Some(DigitsValue(s[from + 6..DigitRunEnd(s, from + 6)]))
    else MatchFrom(p, s, from + 1)
  }

  /** The score the pattern reads from a reply, as the parsers define it. */
  function PatternScore(p: Pattern, s: string): Option<nat> {
    if p == FirstStrict then FirstScore(s) else LenientScore(s)
  }

  lemma {:induction false} MatchFromIsNext(p: Pattern, s: string, from: nat)
    ensures p == FirstStrict ==>
      MatchFrom(p, s, from) == match NextScoreToken(s, from) case None => None case Some(i) => Some(TokenValue(s, i))
    ensures p == FirstLenient ==>
      MatchFrom(p, s, from) == match NextLenientToken(s, from) case None => None
                               case Some(i) => Some(DigitsValue(s[i + 6..DigitRunEnd(s, i + 6)]))
    decreases |s| - from
  {
    if from + 6 < |s| && !PatternAt(p, s, from) {
      MatchFromIsNext(p, s, from + 1);
    }
  }

  /** Trying each position in turn finds what `content.match(pattern)` finds. */
  lemma MatchIsPatternScore(p: Pattern, s: string)
    ensures MatchFrom(p, s, 0) == PatternScore(p, s)
  {
    MatchFromIsNext(p, s, 0);
  }

  /** An attempt succeeds when the reply has no error, has content, and the pattern matches that content. */
  predicate Succeeds(p: Pattern, r: Api.Reply) {
    Api.Succeeds(r) && MatchFrom(p, r.content, 0).Some?
  }

  /** The result object, with the attempts made, the waits between them and `pendingRequests` at the end. */
  datatype RetryResult = RetryResult(score: int, content: string, error: bool, attempts: nat, backoffs: seq<int>, pending: int)

  const AllAttemptsFailed: string := "Failed to get valid rating after multiple attempts"

  /**
    The loop from attempt `k + 1` on. Every attempt takes a request and gives it back; every
    failed attempt before the last, whether its reply had no score or the request threw, is
    followed by a wait.
   */
  function Loop(p: Pattern, outcomes: seq<Api.Reply>, maxRetries: int, k: nat, backoffs: seq<int>, pending: int): (r: RetryResult)
    requires k < maxRetries
    ensures k < r.attempts <= maxRetries
    ensures r.backoffs == backoffs + Api.Backoffs(k + 1, r.attempts)
    ensures r.error ==> r.attempts == maxRetries && r.score == 5 && r.content == AllAttemptsFailed
    decreases maxRetries - k
  {
    var attempt := k + 1;
    var out := Api.OutcomeAt(outcomes, k);
    var released := (pending + 1) - 1;
    if Succeeds(p, out) then
      RetryResult(MatchFrom(p, out.content, 0).value, out.content, false, attempt, backoffs, released)
    else if attempt < maxRetries then
      var r := Loop(p, outcomes, maxRetries, k + 1, backoffs + [Api.Backoff(attempt)], released);
      assert [Api.Backoff(attempt)] + Api.Backoffs(k + 2, r.attempts) == Api.Backoffs(k + 1, r.attempts);
      r
    else RetryResult(5, AllAttemptsFailed, true, attempt, backoffs, released)
  }

  /** The attempts before the last one failed; the loop ends at a success or after a failed final attempt; `pendingRequests` is back where it started. */
  lemma {:induction false} LoopOutcomes(p: Pattern, outcomes: seq<Api.Reply>, maxRetries: int, k: nat, backoffs: seq<int>, pending: int)
    requires k < maxRetries
    ensures var r := Loop(p, outcomes, maxRetries, k, backoffs, pending);
      forall j :: k <= j < r.attempts - 1 ==> !Succeeds(p, Api.OutcomeAt(outcomes, j))
    ensures var r := Loop(p, outcomes, maxRetries, k, backoffs, pending);
      !r.error ==> && Succeeds(p, Api.OutcomeAt(outcomes, r.attempts - 1))
                   && r.content == Api.OutcomeAt(outcomes, r.attempts - 1).content
                   && r.score >= 0 && MatchFrom(p, r.content, 0) == Some(r.score as nat)
    ensures var r := Loop(p, outcomes, maxRetries, k, backoffs, pending);
      r.error ==> !Succeeds(p, Api.OutcomeAt(outcomes, maxRetries - 1))
    ensures Loop(p, outcomes, maxRetries, k, backoffs, pending).pending == pending
    decreases maxRetries - k
  {
    var out := Api.OutcomeAt(outcomes, k);
    if !Succeeds(p, out) && k + 1 < maxRetries {
      LoopOutcomes(p, outcomes, maxRetries, k + 1, backoffs + [Api.Backoff(k + 1)], pending);
    }
  }

  /** `rateTweetWithOpenRouter`: up to `maxRetries` attempts, then score 5 with `error` set. */
  function Rate(p: Pattern, outcomes: seq<Api.Reply>, maxRetries: int, pending: int): (r: RetryResult)
    ensures r.attempts <= if maxRetries > 0 then maxRetries else 0
    ensures r.error ==> r.score == 5 && r.content == AllAttemptsFailed
    ensures |r.backoffs| == if r.attempts > 0 then r.attempts - 1 else 0
    ensures forall j | 0 <= j < |r.backoffs| :: r.backoffs[j] == (j + 1) * (j + 1) * 1000
  {
    if maxRetries <= 0 then RetryResult(5, AllAttemptsFailed, true, 0, [], pending)
    else Loop(p, outcomes, maxRetries, 0, [], pending)
  }

  /**
    The rating succeeds exactly when one of the first `maxRetries` attempts has a reply the
    pattern matches; it stops at the first such attempt and takes the first match's value.
    Either way `pendingRequests` ends where it started.
   */
  lemma RateFirstSuccess(p: Pattern, outcomes: seq<Api.Reply>, maxRetries: int, pending: int)
    ensures var r := Rate(p, outcomes, maxRetries, pending);
      !r.error <==> exists j :: 0 <= j < maxRetries && Succeeds(p, Api.OutcomeAt(outcomes, j))
    ensures var r := Rate(p, outcomes, maxRetries, pending);
      !r.error ==> && 1 <= r.attempts
                   && (forall j :: 0 <= j < r.attempts - 1 ==> !Succeeds(p, Api.OutcomeAt(outcomes, j)))
                   && Api.OutcomeAt(outcomes, r.attempts - 1).Reply?
                   && r.score >= 0 && PatternScore(p, Api.OutcomeAt(outcomes, r.attempts - 1).content) == Some(r.score as nat)
    ensures Rate(p, outcomes, maxRetries, pending).pending == pending
  {
    var r := Rate(p, outcomes, maxRetries, pending);
    if maxRetries > 0 {
      LoopOutcomes(p, outcomes, maxRetries, 0, [], pending);
      if !r.error {
        MatchIsPatternScore(p, Api.OutcomeAt(outcomes, r.attempts - 1).content);
      }
    }
    if maxRetries > 0 && r.error {
      assert forall j :: 0 <= j < maxRetries ==> !Succeeds(p, Api.OutcomeAt(outcomes, j)) by {
        forall j | 0 <= j < maxRetries
          ensures !Succeeds(p, Api.OutcomeAt(outcomes, j))
        {
          if j >= r.attempts - 1 {
            assert j == maxRetries - 1;
          }
        }
      }
    }
  }

  /** When several `SCORE_n` tokens occur, the combined script takes the first one, unlike `rateTweet` which takes the last. */
  lemma ScriptTakesFirstToken()
    ensures Rate(FirstStrict, [Api.Reply(false, "SCORE_2 SCORE_9", "")], 1, 0).score == 2
  {
    var s := "SCORE_2 SCORE_9";
    assert PatternAt(FirstStrict, s, 0) by {
      assert s[0..|ScoreMarker|] == ScoreMarker;
    }
    assert DigitRunEnd(s, 6) == 7;
    assert s[6..7] == "2";
    assert DigitsValue("2") == 2 by {
      assert "2"[..0] == "";
    }
  }

  /** The lenient pattern of `src/api.js` also reads a score from a word that is not `SCORE`. */
  lemma LenientRateAcceptsOtherWords()
    ensures !Rate(FirstLenient, [Api.Reply(false, "XCORE_7", "")], 1, 0).error
    ensures Rate(FirstStrict, [Api.Reply(false, "XCORE_7", "")], 1, 0).error
  {
    LenientAcceptsOtherWords();
    MatchIsPatternScore(FirstLenient, "XCORE_7");
    MatchIsPatternScore(FirstStrict, "XCORE_7");
  }

  // ---------------------------------------------------------------------------------------
  // src/api.js

  /** What `src/api.js` stores under the tweet id when a rating succeeds. */
  datatype ScoreRecord = ScoreRecord(tweetContent: string, score: int, description: string)

  datatype ApiJsRated = ApiJsRated(result: RetryResult, cache: map<string, ScoreRecord>)

  /**
    `rateTweetWithOpenRouter` of `src/api.js`: the lenient loop; a success also stores the
    tweet's text, the score and the reply under the tweet id, and a failure stores nothing.
   */
  function ApiJsRate(outcomes: seq<Api.Reply>, maxRetries: int, pending: int,
                     tweetId: string, tweetText: string, cache: map<string, ScoreRecord>): (r: ApiJsRated)
    ensures r.result == Rate(FirstLenient, outcomes, maxRetries, pending)
    ensures r.result.error ==> r.cache == cache
    ensures !r.result.error ==> r.cache == cache[tweetId := ScoreRecord(tweetText, r.result.score, r.result.content)]
    ensures forall id | id != tweetId :: (id in r.cache <==> id in cache) && (id in cache ==> r.cache[id] == cache[id])
  {
    var res := Rate(FirstLenient, outcomes, maxRetries, pending);
    if res.error then ApiJsRated(res, cache)
    else ApiJsRated(res, cache[tweetId := ScoreRecord(tweetText, res.score, res.content)])
  }

  /** One part of the user message: the prompt text or an image. */
  datatype Part = Text(text: string) | ImageUrl(url: string)

  /**
    The user message of `src/api.js`: the prompt, then one image part per media URL, in order,
    when there are media and the model accepts images (`modelSupportsImages`, a parameter here).
   */
  function MessageParts(prompt: string, mediaUrls: seq<string>, supportsImages: bool): (parts: seq<Part>)
    ensures |parts| >= 1 && parts[0] == Text(prompt)
    ensures |mediaUrls| > 0 && supportsImages ==>
      |parts| == 1 + |mediaUrls| && forall i | 0 <= i < |mediaUrls| :: parts[i + 1] == ImageUrl(mediaUrls[i])
    ensures !(|mediaUrls| > 0 && supportsImages) ==> parts == [Text(prompt)]
  {
    if |mediaUrls| > 0 && supportsImages then [Text(prompt)] + seq(|mediaUrls|, i requires 0 <= i < |mediaUrls| => ImageUrl(mediaUrls[i]))
    else [Text(prompt)]
  }
}

=== FILE: backend_cache.dfy ===
/**
  The rating cache of the modular script (`src/backends/TweetCache.js`): tweet id → record,
  where `set` merges a partial update into the stored record field by field. Persistence is
  left to the caller: every operation here returns the new map.
 */
module BackendCache {
  import opened Wrappers
  import opened Scores
  import opened Messages
  import opened CacheCleanup
  import opened CacheEntry

  type Cache = map<string, Entry>

  /** The metadata a record receives when neither it nor the update carries any: six `null`s. */
  const DefaultMetadata: Metadata :=
    map["model" := MetaNull, "promptTokens" := MetaNull, "completionTokens" := MetaNull,
        "latency" := MetaNull, "mediaInputs" := MetaNull, "price" := MetaNull]

  /** `has(id)`: a record is stored under `id`. */
  predicate Has(c: Cache, id: string) {
    id in c
  }

  /** `get(id)`: the stored record, or `null`; a record is an object and so never falsy. */
  function Get(c: Cache, id: string): (r: Option<Entry>)
    ensures r.Some? <==> Has(c, id)
    ensures Has(c, id) ==> r == Some(c[id])
  {
    if id in c then Some(c[id]) else None
  }

  /** `if (update.f !== undefined) entry.f = update.f`. */
  function Override<T>(current: Option<T>, update: Option<T>): Option<T> {
    if update.Some? then update else current
  }

  /** Every property `set` guarantees is present afterwards (all but the score). */
  predicate Complete(e: Entry) {
    && e.fullContext.Some? && e.description.Some? && e.reasoning.Some? && e.questions.Some?
    && e.lastAnswer.Some? && e.mediaUrls.Some? && e.timestamp.Some? && e.streaming.Some?
    && e.blacklisted.Some? && e.fromStorage.Some? && e.metadata.Some?
    && e.qaConversationHistory.Some? && e.authorHandle.Some? && e.individualTweetText.Some?
    && e.individualMediaUrls.Some?
  }

  /** The merged `metadata`: the update's keys win over the stored ones; defaults when neither has any. */
  function MergeMetadata(current: Option<Metadata>, update: Option<Metadata>): Option<Metadata> {
    if update.Some? then Some(current.GetOr(map[]) + update.value)
    else if current.None? then Some(DefaultMetadata)
    else current
  }

  /** `individualTweetText`: replaced only when the stored text is empty or the new one is longer. */
  function MergeText(current: Option<string>, update: Option<string>): string {
    var text := current.GetOr("");
    if update.Some? && (text == "" || |update.value| > |text|) then update.value else text
  }

  /** `individualMediaUrls`: replaced only when the stored list is empty or the new one is longer. */
  function MergeUrls(current: Option<seq<string>>, update: Option<seq<string>>): seq<string> {
    var urls := current.GetOr([]);
    if update.Some? && (|urls| == 0 || |update.value| > |urls|) then update.value else urls
  }

  /** The record `set` stores: the stored record `e` (or `{}`) with the update `u` merged in at time `now`. */
  function Merge(e: Entry, u: Entry, now: int): Entry {
    Entry(
      score := if u.score.Undefined? then e.score else u.score,
      fullContext := Some(Override(e.fullContext, u.fullContext).GetOr("")),
      description := Some(Override(e.description, u.description).GetOr("")),
      reasoning := Some(Override(e.reasoning, u.reasoning).GetOr("")),
      questions := Some(Override(e.questions, u.questions).GetOr([])),
      lastAnswer := Some(Override(e.lastAnswer, u.lastAnswer).GetOr("")),
      mediaUrls := Some(Override(e.mediaUrls, u.mediaUrls).GetOr([])),
      timestamp := Some(Override(e.timestamp, u.timestamp).GetOr(now)),
      streaming := Some(Override(e.streaming, u.streaming).GetOr(false)),
      blacklisted := Some(Override(e.blacklisted, u.blacklisted).GetOr(false)),
      fromStorage := Some(Override(e.fromStorage, u.fromStorage).GetOr(false)),
      metadata := MergeMetadata(e.metadata, u.metadata),
      qaConversationHistory := Some(Override(e.qaConversationHistory, u.qaConversationHistory).GetOr([])),
      authorHandle := Some(Override(e.authorHandle, u.authorHandle).GetOr("")),
      individualTweetText := Some(MergeText(e.individualTweetText, u.individualTweetText)),
      individualMediaUrls := Some(MergeUrls(e.individualMediaUrls, u.individualMediaUrls)))
  }

  /** `set(id, update)` with the clock reading `now`. */
  function Set(c: Cache, id: string, u: Entry, now: int): (r: Cache)
    ensures id in r && Complete(r[id])
    ensures forall k :: k != id ==> (k in r <==> k in c)
    ensures forall k :: k != id && k in c ==> r[k] == c[k]
  {
    c[id := Merge(Get(c, id).GetOr(EmptyEntry), u, now)]
  }

  /**
    Fields the update carries replace the stored ones; fields it leaves out keep the stored
    value, and fall back to their default only when the stored record lacks them too.
   */
  lemma SetIsPartialMerge(c: Cache, id: string, u: Entry, now: int)
    ensures var r := Set(c, id, u, now)[id];
      && (u.score.Undefined? ==> r.score == Get(c, id).GetOr(EmptyEntry).score)
      && (!u.score.Undefined? ==> r.score == u.score)
      && (u.description.Some? ==> r.description == u.description)
      && (u.description.None? && id in c && c[id].description.Some? ==> r.description == c[id].description)
      && (u.description.None? && (id !in c || c[id].description.None?) ==> r.description == Some(""))
      && (u.reasoning.Some? ==> r.reasoning == u.reasoning)
      && (u.reasoning.None? && id in c && c[id].reasoning.Some? ==> r.reasoning == c[id].reasoning)
      && (u.questions.Some? ==> r.questions == u.questions)
      && (u.questions.None? && id in c && c[id].questions.Some? ==> r.questions == c[id].questions)
      && (u.streaming.Some? ==> r.streaming == u.streaming)
      && (u.streaming.None? && id in c && c[id].streaming.Some? ==> r.streaming == c[id].streaming)
      && (u.streaming.None? && (id !in c || c[id].streaming.None?) ==> r.streaming == Some(false))
      && (u.qaConversationHistory.Some? ==> r.qaConversationHistory == u.qaConversationHistory)
      && (u.qaConversationHistory.None? && id in c && c[id].qaConversationHistory.Some?
          ==> r.qaConversationHistory == c[id].qaConversationHistory)
      && (u.authorHandle.Some? ==> r.authorHandle == u.authorHandle)
      && (u.fullContext.Some? ==> r.fullContext == u.fullContext)
      && (u.fullContext.None? && id in c && c[id].fullContext.Some? ==> r.fullContext == c[id].fullContext)
      && (u.fullContext.None? && (id !in c || c[id].fullContext.None?) ==> r.fullContext == Some(""))
      && (u.lastAnswer.Some? ==> r.lastAnswer == u.lastAnswer)
      && (u.lastAnswer.None? && id in c && c[id].lastAnswer.Some? ==> r.lastAnswer == c[id].lastAnswer)
      && (u.lastAnswer.None? && (id !in c || c[id].lastAnswer.None?) ==> r.lastAnswer == Some(""))
      && (u.mediaUrls.Some? ==> r.mediaUrls == u.mediaUrls)
      && (u.mediaUrls.None? && id in c && c[id].mediaUrls.Some? ==> r.mediaUrls == c[id].mediaUrls)
      && (u.mediaUrls.None? && (id !in c || c[id].mediaUrls.None?) ==> r.mediaUrls == Some([]))
      && (u.blacklisted.Some? ==> r.blacklisted == u.blacklisted)
      && (u.blacklisted.None? && id in c && c[id].blacklisted.Some? ==> r.blacklisted == c[id].blacklisted)
      && (u.blacklisted.None? && (id !in c || c[id].blacklisted.None?) ==> r.blacklisted == Some(false))
      && (u.fromStorage.Some? ==> r.fromStorage == u.fromStorage)
      && (u.fromStorage.None? && id in c && c[id].fromStorage.Some? ==> r.fromStorage == c[id].fromStorage)
      && (u.fromStorage.None? && (id !in c || c[id].fromStorage.None?) ==> r.fromStorage == Some(false))
      && (u.authorHandle.None? && id in c && c[id].authorHandle.Some? ==> r.authorHandle == c[id].authorHandle)
      && (u.authorHandle.None? && (id !in c || c[id].authorHandle.None?) ==> r.authorHandle == Some(""))
      && (u.reasoning.None? && (id !in c || c[id].reasoning.None?) ==> r.reasoning == Some(""))
      && (u.questions.None? && (id !in c || c[id].questions.None?) ==> r.questions == Some([]))
      && (u.qaConversationHistory.None? && (id !in c || c[id].qaConversationHistory.None?) ==> r.qaConversationHistory == Some([]))
  {
  }

  /** Every property an update carries is stored as given, whatever the stored record held. */
  lemma SetCarried(c: Cache, id: string, u: Entry, now: int)
    ensures var r := Set(c, id, u, now)[id];
      && (!u.score.Undefined? ==> r.score == u.score)
      && (u.description.Some? ==> r.description == u.description)
      && (u.reasoning.Some? ==> r.reasoning == u.reasoning)
      && (u.questions.Some? ==> r.questions == u.questions)
      && (u.lastAnswer.Some? ==> r.lastAnswer == u.lastAnswer)
      && (u.mediaUrls.Some? ==> r.mediaUrls == u.mediaUrls)
      && (u.timestamp.Some? ==> r.timestamp == u.timestamp)
      && (u.streaming.Some? ==> r.streaming == u.streaming)
      && (u.qaConversationHistory.Some? ==> r.qaConversationHistory == u.qaConversationHistory)
  {
  }

  /** The timestamp is the update's, else the stored one, else the clock's. */
  lemma SetTimestamp(c: Cache, id: string, u: Entry, now: int)
    ensures var t := Set(c, id, u, now)[id].timestamp;
      && (u.timestamp.Some? ==> t == u.timestamp)
      && (u.timestamp.None? && id in c && c[id].timestamp.Some? ==> t == c[id].timestamp)
      && (u.timestamp.None? && (id !in c || c[id].timestamp.None?) ==> t == Some(now))
  {
  }

  /** A record created by `set` has no score unless the update gives one. */
  lemma NewRecordScore(c: Cache, id: string, u: Entry, now: int)
    requires id !in c
    ensures Set(c, id, u, now)[id].score == u.score
    ensures Set(c, id, u, now)[id].fromStorage == Some(u.fromStorage.GetOr(false))
  {
  }

  /**
    `individualTweetText` and `individualMediaUrls` never get shorter: each is the stored value
    or the update's, and the update's only when the stored one is empty or shorter.
   */
  lemma SetNeverShortens(c: Cache, id: string, u: Entry, now: int)
    requires id in c
    ensures var r := Set(c, id, u, now)[id];
      && |r.individualTweetText.value| >= |c[id].individualTweetText.GetOr("")|
      && |r.individualMediaUrls.value| >= |c[id].individualMediaUrls.GetOr([])|
      && (r.individualTweetText.value == c[id].individualTweetText.GetOr("")
          || Some(r.individualTweetText.value) == u.individualTweetText)
      && (r.individualMediaUrls.value == c[id].individualMediaUrls.GetOr([])
          || Some(r.individualMediaUrls.value) == u.individualMediaUrls)
  {
  }

  /** An update with a longer text always replaces the stored text. */
  lemma LongerTextReplaces(c: Cache, id: string, u: Entry, now: int)
    requires u.individualTweetText.Some?
    requires |u.individualTweetText.value| > |Get(c, id).GetOr(EmptyEntry).individualTweetText.GetOr("")|
    ensures Set(c, id, u, now)[id].individualTweetText == u.individualTweetText
  {
  }

  /** Metadata is merged key by key: the update's keys win, the stored keys it lacks survive. */
  lemma SetMergesMetadata(c: Cache, id: string, u: Entry, now: int)
    requires u.metadata.Some?
    ensures var m := Set(c, id, u, now)[id].metadata.value;
      && (forall k :: k in u.metadata.value ==> k in m && m[k] == u.metadata.value[k])
      && (id in c && c[id].metadata.Some? ==>
            forall k :: k in c[id].metadata.value && k !in u.metadata.value ==>
              k in m && m[k] == c[id].metadata.value[k])
      && (forall k :: k in m ==> k in u.metadata.value || (id in c && c[id].metadata.Some? && k in c[id].metadata.value))
  {
  }

  /** Without metadata in the update, stored metadata stays and a record without any gets the six `null`s. */
  lemma SetKeepsMetadata(c: Cache, id: string, u: Entry, now: int)
    requires u.metadata.None?
    ensures id in c && c[id].metadata.Some? ==> Set(c, id, u, now)[id].metadata == c[id].metadata
    ensures id !in c || c[id].metadata.None? ==> Set(c, id, u, now)[id].metadata == Some(DefaultMetadata)
  {
  }

  /** Applying the same update twice stores the same record as applying it once. */
  lemma {:induction false} SetIdempotent(c: Cache, id: string, u: Entry, now: int, later: int)
    ensures Set(Set(c, id, u, now), id, u, later) == Set(c, id, u, now)
  {
    var e := Get(c, id).GetOr(EmptyEntry);
    var once := Merge(e, u, now);
    var twice := Merge(once, u, later);
    if u.metadata.Some? {
      assert twice.metadata.value == once.metadata.value;
    }
    assert twice == once;
  }

  /** `delete(id)`: only `id` goes; deleting an absent id changes nothing. */
  function Delete(c: Cache, id: string): (r: Cache)
    ensures !Has(r, id)
    ensures forall k :: k != id ==> (Has(r, k) <==> Has(c, k)) && (Has(c, k) ==> r[k] == c[k])
    ensures !Has(c, id) ==> r == c
  {
    c - {id}
  }

  /** `clear()`. */
  function Clear(c: Cache): (r: Cache)
    ensures forall k :: !Has(r, k)
    ensures Size(r) == 0
  {
    map[]
  }

  /** The `size` getter: the number of stored ids. */
  function Size(c: Cache): (n: nat)
    ensures n == |c.Keys|
    ensures n == 0 <==> c == map[]
  {
    |c|
  }

  /** After `set`, `get` returns the record and `has` holds; after `delete`, neither. */
  lemma GetAfterSetAndDelete(c: Cache, id: string, u: Entry, now: int)
    ensures Has(Set(c, id, u, now), id) && Get(Set(c, id, u, now), id).Some?
    ensures Get(Delete(c, id), id) == None
    ensures Size(Set(c, id, u, now)) == if Has(c, id) then Size(c) else Size(c) + 1
  {
  }

  /** Whether the backend cleanup deletes a record, and under which count. */
  function BackendVerdict(e: Entry): Verdict {
    if !e.score.IsSet() then
      if IsStreaming(e) then DropStreaming else DropUnscored
    else if !e.streaming.GetOr(false) && !e.blacklisted.GetOr(false)
            && |e.qaConversationHistory.GetOr([])| < 3 then
      DropMissingHistory
    else Keep
  }

  /**
    What every record left by the cleanup satisfies: it has a score, and unless it is still
    streaming or belongs to an auto-scored author it carries at least three history messages.
   */
  predicate Retained(e: Entry) {
    && e.score.IsSet()
    && (e.streaming.GetOr(false) || e.blacklisted.GetOr(false) || |e.qaConversationHistory.GetOr([])| >= 3)
  }

  lemma VerdictKeepsRetained(e: Entry)
    ensures BackendVerdict(e) == Keep <==> Retained(e)
  {
  }

  /**
    `cleanup()`: delete every record that fails `Retained`, count the deletions by reason, and
    report whether a save was scheduled (only when something was deleted).
   */
  method Cleanup(c: Cache) returns (kept: Cache, stats: Stats, saved: bool)
    ensures forall k :: k in kept ==> k in c && kept[k] == c[k] && Retained(kept[k])
    ensures forall k :: k in c && Retained(c[k]) ==> k in kept
    ensures stats.beforeCount == Size(c) && stats.afterCount == Size(kept)
    ensures stats.deletedCount == stats.streamingDeletedCount + stats.undefinedScoreCount + stats.missingQaHistoryCount
    ensures stats.afterCount == stats.beforeCount - stats.deletedCount
    ensures stats.streamingDeletedCount == |set k | k in c && !c[k].score.IsSet() && IsStreaming(c[k])|
    ensures stats.undefinedScoreCount == |set k | k in c && !c[k].score.IsSet() && !IsStreaming(c[k])|
    ensures stats.missingQaHistoryCount == |set k | k in c && c[k].score.IsSet() && !Retained(c[k])|
    ensures saved <==> stats.deletedCount > 0
  {
    kept, stats := CacheCleanup.Cleanup(c, BackendVerdict);
    forall k | k in kept
      ensures Retained(kept[k])
    {
      VerdictKeepsRetained(kept[k]);
    }
    forall k | k in c && Retained(c[k])
      ensures k in kept
    {
      VerdictKeepsRetained(c[k]);
    }
    assert Bucket(c, BackendVerdict, DropStreaming) == set k | k in c && !c[k].score.IsSet() && IsStreaming(c[k]);
    assert Bucket(c, BackendVerdict, DropUnscored) == set k | k in c && !c[k].score.IsSet() && !IsStreaming(c[k]);
    assert Bucket(c, BackendVerdict, DropMissingHistory) == set k | k in c && c[k].score.IsSet() && !Retained(c[k]);
    saved := stats.deletedCount > 0;
  }

  /** A second cleanup finds nothing to delete. */
  lemma CleanupIdempotent(c: Cache)
    ensures var kept := Survivors(c, BackendVerdict);
      && Survivors(kept, BackendVerdict) == kept
      && |Bucket(kept, BackendVerdict, DropStreaming)| == 0
      && |Bucket(kept, BackendVerdict, DropUnscored)| == 0
      && |Bucket(kept, BackendVerdict, DropMissingHistory)| == 0
  {
    SurvivorsAreClean(c, BackendVerdict);
  }

  /**
    `loadFromStorage()`: the parsed map with every record marked `fromStorage`, or an empty
    cache when the stored text does not parse (`None`).
   */
  function LoadFromStorage(parsed: Option<Cache>): (r: Cache)
    ensures parsed.None? ==> r == map[]
    ensures parsed.Some? ==> r.Keys == parsed.value.Keys
    ensures parsed.Some? ==> forall k :: k in r ==>
      r[k].fromStorage == Some(true) && r[k].(fromStorage := parsed.value[k].fromStorage) == parsed.value[k]
  {
    match parsed
    case None => map[]
    case Some(m) => map k | k in m :: m[k].(fromStorage := Some(true))
  }
}

=== FILE: cache_cleanup.dfy ===
/**
  The cleanup pass the rating caches share (`TweetCache.cleanup` in both cache classes and
  `cleanupInvalidCacheEntries`): walk the id → record map once, delete every record a
  classifier rejects, count the deletions per reason, and report the sizes before and after.
 */
module CacheCleanup {

  /** Why a record is deleted, or that it is kept. */
  datatype Verdict = Keep | DropStreaming | DropUnscored | DropMissingHistory

  /** The statistics object the cleanups return. */
  datatype Stats = Stats(
    beforeCount: nat,
    afterCount: nat,
    deletedCount: nat,
    streamingDeletedCount: nat,
    undefinedScoreCount: nat,
    missingQaHistoryCount: nat)

  /** The records a cleanup keeps. */
  function Survivors<K, V>(m: map<K, V>, verdict: V -> Verdict): map<K, V> {
    map k | k in m && verdict(m[k]) == Keep :: m[k]
  }

  /** The ids of the records the classifier sorts into `v`. */
  function Bucket<K, V>(m: map<K, V>, verdict: V -> Verdict, v: Verdict): set<K> {
    set k | k in m && verdict(m[k]) == v
  }

  /** What the loop has established once the ids in `done` are walked. */
  ghost predicate Walked<K, V>(m: map<K, V>, verdict: V -> Verdict, done: set<K>, kept: map<K, V>,
                               streaming: nat, unscored: nat, missing: nat)
  {
    && done <= m.Keys
    && kept == (map k | k in m && (k !in done || verdict(m[k]) == Keep) :: m[k])
    && streaming == |BucketWithin(m, verdict, DropStreaming, done)|
    && unscored == |BucketWithin(m, verdict, DropUnscored, done)|
    && missing == |BucketWithin(m, verdict, DropMissingHistory, done)|
  }

  /**
    The loop of the cleanups. Deleting from the map while `for…in` walks it does not change
    what is visited later, and each record's fate depends on that record alone, so the order of
    the walk does not matter; the model takes the ids in an arbitrary order.
   */
  method Cleanup<K, V>(m: map<K, V>, verdict: V -> Verdict) returns (kept: map<K, V>, stats: Stats)
    ensures kept == Survivors(m, verdict)
    ensures stats.beforeCount == |m| && stats.afterCount == |kept|
    ensures stats.streamingDeletedCount == |Bucket(m, verdict, DropStreaming)|
    ensures stats.undefinedScoreCount == |Bucket(m, verdict, DropUnscored)|
    ensures stats.missingQaHistoryCount == |Bucket(m, verdict, DropMissingHistory)|
    ensures stats.deletedCount == stats.streamingDeletedCount + stats.undefinedScoreCount + stats.missingQaHistoryCount
    ensures stats.afterCount == stats.beforeCount - stats.deletedCount
  {
    var beforeCount := |m|;
    kept := m;
    var todo := m.Keys;
    ghost var done: set<K> := {};
    var deleted, streaming, unscored, missing := 0, 0, 0, 0;
    WalkStarts(m, verdict);
    while todo != {}
      invariant todo == m.Keys - done
      invariant Walked(m, verdict, done, kept, streaming, unscored, missing)
      invariant deleted == streaming + unscored + missing
      decreases |todo|
    {
      var id :| id in todo;
      var v := verdict(m[id]);
      WalkSteps(m, verdict, done, kept, streaming, unscored, missing, id);
      if v != Keep {
        kept := kept - {id};
        deleted := deleted + 1;
        match v
        case DropStreaming => streaming := streaming + 1;
        case DropUnscored => unscored := unscored + 1;
        case DropMissingHistory => missing := missing + 1;
      }
      todo := todo - {id};
      done := done + {id};
    }
    WalkEnds(m, verdict, done, kept, streaming, unscored, missing);
    stats := Stats(beforeCount, |kept|, deleted, streaming, unscored, missing);
  }

  lemma WalkStarts<K, V>(m: map<K, V>, verdict: V -> Verdict)
    ensures Walked(m, verdict, {}, m, 0, 0, 0)
  {
    assert BucketWithin(m, verdict, DropStreaming, {}) == {};
    assert BucketWithin(m, verdict, DropUnscored, {}) == {};
    assert BucketWithin(m, verdict, DropMissingHistory, {}) == {};
  }

  lemma WalkSteps<K, V>(m: map<K, V>, verdict: V -> Verdict, done: set<K>, kept: map<K, V>,
                        streaming: nat, unscored: nat, missing: nat, id: K)
    requires Walked(m, verdict, done, kept, streaming, unscored, missing)
    requires id in m && id !in done
    ensures var v := verdict(m[id]);
      Walked(m, verdict, done + {id},
             if v == Keep then kept else kept - {id},
             if v == DropStreaming then streaming + 1 else streaming,
             if v == DropUnscored then unscored + 1 else unscored,
             if v == DropMissingHistory then missing + 1 else missing)
  {
    var v := verdict(m[id]);
    var kept' := if v == Keep then kept else kept - {id};
    assert kept' == (map k | k in m && (k !in done + {id} || verdict(m[k]) == Keep) :: m[k]) by {
      KeptStep(m, verdict, done, id);
    }
    assert |BucketWithin(m, verdict, DropStreaming, done + {id})|
        == if v == DropStreaming then streaming + 1 else streaming by {
      CountStep(m, verdict, DropStreaming, done, id);
    }
    assert |BucketWithin(m, verdict, DropUnscored, done + {id})|
        == if v == DropUnscored then unscored + 1 else unscored by {
      CountStep(m, verdict, DropUnscored, done, id);
    }
    assert |BucketWithin(m, verdict, DropMissingHistory, done + {id})|
        == if v == DropMissingHistory then missing + 1 else missing by {
      CountStep(m, verdict, DropMissingHistory, done, id);
    }
  }

  lemma KeptStep<K, V>(m: map<K, V>, verdict: V -> Verdict, done: set<K>, id: K)
    requires id in m && id !in done
    ensures var before := map k | k in m && (k !in done || verdict(m[k]) == Keep) :: m[k];
      (map k | k in m && (k !in done + {id} || verdict(m[k]) == Keep) :: m[k])
      == if verdict(m[id]) == Keep then before else before - {id}
  {
  }

  lemma CountStep<K, V>(m: map<K, V>, verdict: V -> Verdict, v: Verdict, done: set<K>, id: K)
    requires id in m && id !in done
    ensures |BucketWithin(m, verdict, v, done + {id})|
         == |BucketWithin(m, verdict, v, done)| + (if verdict(m[id]) == v then 1 else 0)
  {
    BucketStep(m, verdict, v, done, id);
  }

  lemma WalkEnds<K, V>(m: map<K, V>, verdict: V -> Verdict, done: set<K>, kept: map<K, V>,
                       streaming: nat, unscored: nat, missing: nat)
    requires Walked(m, verdict, done, kept, streaming, unscored, missing) && done == m.Keys
    ensures kept == Survivors(m, verdict)
    ensures streaming == |Bucket(m, verdict, DropStreaming)|
    ensures unscored == |Bucket(m, verdict, DropUnscored)|
    ensures missing == |Bucket(m, verdict, DropMissingHistory)|
    ensures |kept| + streaming + unscored + missing == |m|
  {
    assert BucketWithin(m, verdict, DropStreaming, done) == Bucket(m, verdict, DropStreaming);
    assert BucketWithin(m, verdict, DropUnscored, done) == Bucket(m, verdict, DropUnscored);
    assert BucketWithin(m, verdict, DropMissingHistory, done) == Bucket(m, verdict, DropMissingHistory);
    PartitionSizes(m, verdict);
  }

  /** Every id is kept or lands in exactly one deletion bucket. */
  lemma PartitionSizes<K, V>(m: map<K, V>, verdict: V -> Verdict)
    ensures |m| == |Survivors(m, verdict)| + |Bucket(m, verdict, DropStreaming)|
                   + |Bucket(m, verdict, DropUnscored)| + |Bucket(m, verdict, DropMissingHistory)|
  {
    var s := Survivors(m, verdict).Keys;
    var b1, b2, b3 := Bucket(m, verdict, DropStreaming), Bucket(m, verdict, DropUnscored), Bucket(m, verdict, DropMissingHistory);
    assert m.Keys == s + b1 + b2 + b3 by {
      forall k | k in m.Keys
        ensures k in s + b1 + b2 + b3
      {
        match verdict(m[k])
        case Keep => assert k in s;
        case DropStreaming => assert k in b1;
        case DropUnscored => assert k in b2;
        case DropMissingHistory => assert k in b3;
      }
    }
    DisjointUnionSize(s, b1);
    DisjointUnionSize(s + b1, b2);
    DisjointUnionSize(s + b1 + b2, b3);
  }

  lemma DisjointUnionSize<T>(a: set<T>, b: set<T>)
    requires a !! b
    ensures |a + b| == |a| + |b|
  {
  }

  /** The ids among `ks` whose records the classifier sorts into `v`. */
  function BucketWithin<K, V>(m: map<K, V>, verdict: V -> Verdict, v: Verdict, ks: set<K>): set<K> {
    set k | k in ks && k in m && verdict(m[k]) == v
  }

  lemma BucketStep<K, V>(m: map<K, V>, verdict: V -> Verdict, v: Verdict, ks: set<K>, id: K)
    requires id in m && id !in ks
    ensures BucketWithin(m, verdict, v, ks + {id})
         == BucketWithin(m, verdict, v, ks) + (if verdict(m[id]) == v then {id} else {})
    ensures id !in BucketWithin(m, verdict, v, ks)
  {
  }

  /** After a cleanup no record the classifier rejects is left, and a second pass changes nothing. */
  lemma SurvivorsAreClean<K, V>(m: map<K, V>, verdict: V -> Verdict)
    ensures forall k :: k in Survivors(m, verdict) ==> verdict(Survivors(m, verdict)[k]) == Keep
    ensures Survivors(Survivors(m, verdict), verdict) == Survivors(m, verdict)
    ensures forall v :: v != Keep ==> Bucket(Survivors(m, verdict), verdict, v) == {}
  {
  }

  /** A record the classifier keeps is neither removed nor changed. */
  lemma KeptRecordsUnchanged<K, V>(m: map<K, V>, verdict: V -> Verdict, k: K)
    requires k in m && verdict(m[k]) == Keep
    ensures k in Survivors(m, verdict) && Survivors(m, verdict)[k] == m[k]
  {
  }
}

=== FILE: cache_entry.dfy ===
/**
  The record the rating caches keep per tweet id. It is a plain JavaScript object whose
  properties may be missing, so every property except the score is an `Option` (`None` is an
  absent or `undefined` property); the score keeps its own `undefined`/`null` cases.
  The same shape serves as the partial update handed to the caches' `set`.
 */
module CacheEntry {
  import opened Wrappers
  import opened Scores
  import opened Messages
  import opened CacheCleanup

  datatype Entry = Entry(
    score: Score,
    fullContext: Option<string>,
    description: Option<string>,
    reasoning: Option<string>,
    questions: Option<seq<string>>,
    lastAnswer: Option<string>,
    mediaUrls: Option<seq<string>>,
    timestamp: Option<int>,
    streaming: Option<bool>,
    blacklisted: Option<bool>,
    fromStorage: Option<bool>,
    metadata: Option<Metadata>,
    qaConversationHistory: Option<seq<Message>>,
    authorHandle: Option<string>,
    individualTweetText: Option<string>,
    individualMediaUrls: Option<seq<string>>)

  /** `{}`: an object with no properties. */
  const EmptyEntry := Entry(Undefined, None, None, None, None, None, None, None, None, None, None, None, None, None, None, None)

  /** `entry.streaming === true`. */
  predicate IsStreaming(e: Entry) {
    e.streaming == Some(true)
  }

  /**
    The rule of the score-only cleanups (`TweetCache.cleanup` of the helper cache and
    `cleanupInvalidCacheEntries`): a record without a score is deleted and counted as a
    streaming deletion when its `streaming` flag is exactly `true`.
   */
  function ScoreVerdict(e: Entry): (v: Verdict)
    ensures v == Keep <==> e.score.IsSet()
    ensures v != DropMissingHistory
    ensures v == DropStreaming <==> !e.score.IsSet() && IsStreaming(e)
  {
    if e.score.IsSet() then Keep
    else if IsStreaming(e) then DropStreaming
    else DropUnscored
  }
}

=== FILE: cache_helpers.dfy ===
/**
  The combined script's global rating cache `tweetIDRatingCache`: its cleanup
  (`src/helpers/cache-helpers.js`) and the loading of stored ratings at start-up.
 */
module CacheHelpers {
  import opened Wrappers
  import opened Scores
  import opened CacheCleanup
  import opened CacheEntry
  import HelperCache

  type Cache = map<string, Entry>

  /**
    `cleanupInvalidCacheEntries(saveAfterCleanup)`: the score-only cleanup on the global cache;
    it saves only when asked to and when something was deleted.
   */
  method CleanupInvalidCacheEntries(c: Cache, saveAfterCleanup: bool) returns (kept: Cache, stats: Stats, saved: bool)
    ensures forall k :: k in kept ==> k in c && kept[k] == c[k] && kept[k].score.IsSet()
    ensures forall k :: k in c && c[k].score.IsSet() ==> k in kept && kept[k] == c[k]
    ensures stats.beforeCount == |c| && stats.afterCount == |kept|
    ensures stats.deletedCount == stats.streamingDeletedCount + stats.undefinedScoreCount
    ensures stats.afterCount == stats.beforeCount - stats.deletedCount
    ensures stats.streamingDeletedCount == |set k | k in c && !c[k].score.IsSet() && IsStreaming(c[k])|
    ensures stats.undefinedScoreCount == |set k | k in c && !c[k].score.IsSet() && !IsStreaming(c[k])|
    ensures saved <==> saveAfterCleanup && stats.deletedCount > 0
  {
    kept, stats, saved := HelperCache.Cleanup(c, saveAfterCleanup);
  }

  /** A second cleanup deletes nothing: what the first one keeps all has a score. */
  lemma CleanupIdempotent(c: Cache)
    ensures var kept := Survivors(c, ScoreVerdict);
      && Survivors(kept, ScoreVerdict) == kept
      && |Bucket(kept, ScoreVerdict, DropStreaming)| == 0
      && |Bucket(kept, ScoreVerdict, DropUnscored)| == 0
  {
    SurvivorsAreClean(c, ScoreVerdict);
  }

  /**
    Loading at start-up: each stored rating is copied into the cache marked `fromStorage`,
    overriding a record under the same id; text that does not parse (`None`) leaves the cache as it was.
   */
  function LoadStoredRatings(c: Cache, parsed: Option<Cache>): (r: Cache)
    ensures parsed.None? ==> r == c
    ensures parsed.Some? ==> r.Keys == c.Keys + parsed.value.Keys
    ensures parsed.Some? ==> forall k :: k in parsed.value ==>
      r[k].fromStorage == Some(true) && r[k].(fromStorage := parsed.value[k].fromStorage) == parsed.value[k]
    ensures parsed.Some? ==> forall k :: k in c && k !in parsed.value ==> r[k] == c[k]
  {
    match parsed
    case None => c
    case Some(m) => c + map k | k in m :: m[k].(fromStorage := Some(true))
  }
}

=== FILE: callback_retry.dfy ===
/**
  The callback-style `rateTweetWithOpenRouter` of `src/twitter-desloppifier.js` and of the
  earlier `twitter-desloppifier.js`. Each attempt ends in one of the request's callbacks
  (`onload` with a status and a body, `onerror`, `ontimeout`); the callback either schedules
  the next attempt after a wait or resolves the promise. The attempts are given as a
  sequence; an attempt past its end times out.
 */
module CallbackRetry {
  import opened Wrappers
  import opened JsString
  import opened Scores
  import opened ResponseParsing

  /**
    The body of a response: text that is not JSON, or the reply's content (`""` when
    missing) and whether the body carried an `error` that names a rate limit or a quota.
   */
  datatype Body = Unparseable | Parsed(content: string, rateLimitError: bool)

  /** How one attempt ended. */
  datatype Attempt = Http(status: int, body: Body) | NetworkError | Timeout

  function AttemptAt(outcomes: seq<Attempt>, k: nat): Attempt {
    if k < |outcomes| then outcomes[k] else Timeout
  }

  /** Which script's callbacks are modelled. */
  datatype Version = Modular | Earliest

  /** What a callback does: start the next attempt, or resolve the promise with a result. */
  datatype Step = Retry | Resolve(score: int, content: string, error: bool)

  predicate IsOk(status: int) {
    200 <= status < 300
  }

  /** `Math.pow(2, n)`. */
  function Pow2(n: nat): (p: nat)
    ensures p >= 1
  {
    if n == 0 then 1 else 2 * Pow2(n - 1)
  }

  /** The delay between API calls in `twitter-desloppifier.js`, which is also its wait before a retry. */
  const EarliestDelay: int := 2000

  /** The wait before the attempt after `current`: `2^current · 1000` ms, or the fixed call delay in the earliest script. */
  function Wait(v: Version, current: nat): int {
    if v == Modular then Pow2(current) * 1000 else EarliestDelay
  }

  /** Each power is twice the one before it and exceeds its exponent. */
  lemma {:induction false} Pow2Doubles(n: nat)
    ensures n > 0 ==> Pow2(n) == 2 * Pow2(n - 1)
    ensures Pow2(n) > n
  {
    if n > 0 {
      Pow2Doubles(n - 1);
    }
  }

  /** In the modular script each wait is twice the one before it: exponential backoff from one second. */
  lemma WaitDoubles(current: nat)
    ensures Wait(Modular, 0) == 1000
    ensures Wait(Modular, current + 1) == 2 * Wait(Modular, current)
  {
    Pow2Doubles(current + 1);
  }

  const NoContent: string := "No content in OpenRouter response. Please check for rate limits or token quotas."
  const NoScore: string := "No rating score found in response"
  const ParseError: string := "Error parsing response"
  const RequestError: string := "Error making request"
  const TimedOut: string := "Request timed out"
  const EarliestFailure: string := "No content in OpenRouter response"

  /**
    The outcomes `src/twitter-desloppifier.js` retries while attempts remain: a reply without
    content (and without a rate-limit error), status 429 or at least 500, a network error,
    a timeout.
   */
  predicate ModularRetryable(a: Attempt) {
    match a
    case Http(status, body) =>
      if IsOk(status) then body.Parsed? && body.content == "" && !body.rateLimitError
      else status == 429 || status >= 500
    case NetworkError => true
    case Timeout => true
  }

  /** The outcomes `twitter-desloppifier.js` retries: only network errors and timeouts. */
  predicate EarliestRetryable(a: Attempt) {
    a.NetworkError? || a.Timeout?
  }

  predicate Retryable(v: Version, a: Attempt) {
    if v == Modular then ModularRetryable(a) else EarliestRetryable(a)
  }

  /** The score a version reads from a reply: the first match of the lenient `/\SCORE_(\d+)/`, or of `[SCORE: n]`. */
  function ReadScore(v: Version, content: string): Option<nat> {
    if v == Modular then LenientScore(content) else BracketScore(content)
  }

  /** The value of the version's first match at or after `from`, found by trying each position in turn. */
  function ScanFrom(v: Version, s: string, from: nat): Option<nat>
    decreases |s| - from
  {
    if v == Modular then
      if from + 6 >= |s| then None
      else if LenientTokenAt(s, from) then Some(DigitsValue(s[from + 6..DigitRunEnd(s, from + 6)]))
      else ScanFrom(v, s, from + 1)
    else
      if from + 7 > |s| then None
      else if BracketTokenAt(s, from) then Some(BracketValue(s, from))
      else ScanFrom(v, s, from + 1)
  }

  lemma {:induction false} ScanFromIsNext(v: Version, s: string, from: nat)
    ensures v == Modular ==>
      ScanFrom(v, s, from) == match NextLenientToken(s, from) case None => None
                              case Some(i) => Some(DigitsValue(s[i + 6..DigitRunEnd(s, i + 6)]))
    ensures v == Earliest ==>
      ScanFrom(v, s, from) == match NextBracketToken(s, from) case None => None case Some(i) => Some(BracketValue(s, i))
    decreases |s| - from
  {
    if v == Modular && from + 6 < |s| && !LenientTokenAt(s, from) {
      ScanFromIsNext(v, s, from + 1);
    }
    if v == Earliest && from + 7 <= |s| && !BracketTokenAt(s, from) {
      ScanFromIsNext(v, s, from + 1);
    }
  }

  /** Trying each position in turn finds what `content.match(pattern)` finds. */
  lemma ScanIsReadScore(v: Version, s: string)
    ensures ScanFrom(v, s, 0) == ReadScore(v, s)
  {
    ScanFromIsNext(v, s, 0);
  }

  /**
    The modular script's callbacks for attempt `current`. With no content and a rate-limit
    error, the callback assigns to the constant `API_CALL_DELAY_MS`; the `TypeError` this
    throws lands in the `catch` and resolves as a parse error.
   */
  function ModularStep(a: Attempt, current: int, maxAttempts: int): (s: Step)
    ensures s.Retry? ==> current < maxAttempts
    ensures s.Resolve? && !s.error ==> a.Http? && IsOk(a.status) && a.body.Parsed? && s.content == a.body.content != ""
    ensures s.Resolve? && s.error ==> s.score == 5
  {
    match a
    case Http(status, body) =>
      if IsOk(status) then
        match body
        case Unparseable => Resolve(5, ParseError, true)
        case Parsed(content, rateLimitError) =>
          if content == "" then
            if rateLimitError then Resolve(5, ParseError, true)
            else if current < maxAttempts then Retry
            else Resolve(5, NoContent, true)
          else
            match ScanFrom(Modular, content, 0)
            case Some(n) => Resolve(n, content, false)
            case None => Resolve(5, NoScore, true)
      else if (status == 429 || status >= 500) && current < maxAttempts then Retry
      else Resolve(5, "API error: " + IntToString(status), true)
    case NetworkError => if current < maxAttempts then Retry else Resolve(5, RequestError, true)
    case Timeout => if current < maxAttempts then Retry else Resolve(5, TimedOut, true)
  }

  /** The earliest script's callbacks: every failure but a network error or a timeout resolves at once. */
  function EarliestStep(a: Attempt, current: int, maxAttempts: int): (s: Step)
    ensures s.Retry? ==> current < maxAttempts
    ensures s.Resolve? && !s.error ==> a.Http? && IsOk(a.status) && a.body.Parsed? && s.content == a.body.content != ""
    ensures s.Resolve? && s.error ==> s.score == 5
  {
    match a
    case Http(status, body) =>
      if IsOk(status) && body.Parsed? && body.content != "" && ScanFrom(Earliest, body.content, 0).Some? then
        Resolve(ScanFrom(Earliest, body.content, 0).value, body.content, false)
      else Resolve(5, EarliestFailure, true)
    case NetworkError => if current < maxAttempts then Retry else Resolve(5, EarliestFailure, true)
    case Timeout => if current < maxAttempts then Retry else Resolve(5, EarliestFailure, true)
  }

  /**
    One callback: it retries exactly on a retryable outcome while `current < maxAttempts`; a
    result without `error` comes only from a successful response whose content the version's
    pattern reads, and carries that score; every other result is score 5 with `error`.
   */
  function StepOf(v: Version, a: Attempt, current: int, maxAttempts: int): Step {
    if v == Modular then ModularStep(a, current, maxAttempts) else EarliestStep(a, current, maxAttempts)
  }

  /** A successful response the version's pattern reads a score from. */
  predicate Rated(v: Version, a: Attempt) {
    a.Http? && IsOk(a.status) && a.body.Parsed? && a.body.content != "" && ReadScore(v, a.body.content).Some?
  }

  lemma StepFacts(v: Version, a: Attempt, current: int, maxAttempts: int)
    ensures var s := StepOf(v, a, current, maxAttempts);
      && (s.Retry? <==> Retryable(v, a) && current < maxAttempts)
      && (s.Resolve? && !s.error <==> Rated(v, a))
      && (s.Resolve? && !s.error ==> s.score == ReadScore(v, a.body.content).value && s.content == a.body.content)
      && (s.Resolve? && s.error ==> s.score == 5)
  {
    if a.Http? && a.body.Parsed? {
      ScanIsReadScore(v, a.body.content);
    }
  }

  /** The result the promise resolves with, with the attempts made, the waits before retries and `pendingRequests` at the end. */
  datatype CallbackResult = CallbackResult(score: int, content: string, error: bool, attempts: nat, backoffs: seq<int>, pending: int)

  /**
    `attemptRating(start + k)` and the attempts it leads to. Each attempt takes a request and
    its callback gives it back. The first attempt is made whatever `start` is.
   */
  function Attempts(v: Version, outcomes: seq<Attempt>, start: nat, maxAttempts: int, k: nat, backoffs: seq<int>, pending: int): (r: CallbackResult)
    ensures k < r.attempts
    ensures start + k >= maxAttempts ==> r.attempts == k + 1
    ensures start + k < maxAttempts ==> start + r.attempts <= maxAttempts + 1
    ensures |r.backoffs| == |backoffs| + r.attempts - k - 1 && r.backoffs[..|backoffs|] == backoffs
    ensures forall j | |backoffs| <= j < |r.backoffs| :: r.backoffs[j] == Wait(v, start + k + j - |backoffs|)
    ensures StepOf(v, AttemptAt(outcomes, r.attempts - 1), start + r.attempts - 1, maxAttempts) == Resolve(r.score, r.content, r.error)
    ensures r.pending == pending
    decreases if start + k < maxAttempts then maxAttempts - start - k else 0
  {
    var current := start + k;
    var released := (pending + 1) - 1;
    StepFacts(v, AttemptAt(outcomes, k), current, maxAttempts);
    match StepOf(v, AttemptAt(outcomes, k), current, maxAttempts)
    case Retry =>
      Attempts(v, outcomes, start, maxAttempts, k + 1, backoffs + [Wait(v, current)], released)
    case Resolve(score, content, error) =>
      CallbackResult(score, content, error, k + 1, backoffs, released)
  }

  /** Every attempt before the last was retried: its outcome was retryable and attempts remained. */
  lemma {:induction false} RetriedOnlyWhenRetryable(v: Version, outcomes: seq<Attempt>, start: nat, maxAttempts: int, k: nat,
                                                    backoffs: seq<int>, pending: int)
    ensures var r := Attempts(v, outcomes, start, maxAttempts, k, backoffs, pending);
      forall j | k <= j < r.attempts - 1 :: Retryable(v, AttemptAt(outcomes, j)) && start + j < maxAttempts
    decreases if start + k < maxAttempts then maxAttempts - start - k else 0
  {
    StepFacts(v, AttemptAt(outcomes, k), start + k, maxAttempts);
    if StepOf(v, AttemptAt(outcomes, k), start + k, maxAttempts).Retry? {
      RetriedOnlyWhenRetryable(v, outcomes, start, maxAttempts, k + 1, backoffs + [Wait(v, start + k)], (pending + 1) - 1);
    }
  }

  /** `rateTweetWithOpenRouter(…, attempt, maxAttempts)`; the scripts call it with the defaults 1 and 3. */
  function RateWithCallbacks(v: Version, outcomes: seq<Attempt>, attempt: nat, maxAttempts: int, pending: int): (r: CallbackResult)
    ensures 1 <= r.attempts
    ensures r.attempts <= if attempt < maxAttempts then maxAttempts - attempt + 1 else 1
    ensures |r.backoffs| == r.attempts - 1
    ensures forall j | 0 <= j < |r.backoffs| :: r.backoffs[j] == Wait(v, attempt + j)
    ensures r.error ==> r.score == 5
    ensures r.pending == pending
  {
    Attempts(v, outcomes, attempt, maxAttempts, 0, [], pending)
  }

  /**
    With the defaults, a success is a successful response whose content the pattern reads,
    on the first attempt that did not retry; the attempts before it all had retryable outcomes.
   */
  lemma DefaultRating(v: Version, outcomes: seq<Attempt>, pending: int)
    ensures var r := RateWithCallbacks(v, outcomes, 1, 3, pending);
      && r.attempts <= 3
      && (forall j | 0 <= j < r.attempts - 1 :: Retryable(v, AttemptAt(outcomes, j)))
      && (!r.error <==> var a := AttemptAt(outcomes, r.attempts - 1);
            a.Http? && IsOk(a.status) && a.body.Parsed? && a.body.content != "" && ReadScore(v, a.body.content).Some?)
    ensures v == Modular ==> RateWithCallbacks(v, outcomes, 1, 3, pending).backoffs <= [2000, 4000]
  {
    RetriedOnlyWhenRetryable(v, outcomes, 1, 3, 0, [], pending);
    var r := RateWithCallbacks(v, outcomes, 1, 3, pending);
    StepFacts(v, AttemptAt(outcomes, r.attempts - 1), r.attempts, 3);
    if v == Modular {
      assert Wait(v, 1) == 2000 && Wait(v, 2) == 4000;
    }
  }

  /**
    In the modular script a reply without content whose body names a rate limit is not
    retried: the assignment to the constant throws, and the attempt resolves as a parse error
    even when attempts remain.
   */
  lemma RateLimitIsNotRetried(outcomes: seq<Attempt>, pending: int)
    requires outcomes != [] && outcomes[0] == Http(200, Parsed("", true))
    ensures RateWithCallbacks(Modular, outcomes, 1, 3, pending) == CallbackResult(5, ParseError, true, 1, [], pending)
  {
  }

  /** A status that is neither a success, 429 nor a server error resolves at once in the modular script. */
  lemma ClientErrorIsNotRetried(outcomes: seq<Attempt>, status: int, pending: int)
    requires !IsOk(status) && status != 429 && status < 500
    requires outcomes != [] && outcomes[0].Http? && outcomes[0].status == status
    ensures var r := RateWithCallbacks(Modular, outcomes, 1, 3, pending);
      r.attempts == 1 && r.error && r.content == "API error: " + IntToString(status)
  {
  }

  /** A reply that has content but no score token is not retried, in either script. */
  lemma MissingScoreIsNotRetried(v: Version, outcomes: seq<Attempt>, pending: int)
    requires outcomes != [] && outcomes[0].Http? && IsOk(outcomes[0].status)
    requires outcomes[0].body.Parsed? && outcomes[0].body.content != "" && ReadScore(v, outcomes[0].body.content).None?
    ensures var r := RateWithCallbacks(v, outcomes, 1, 3, pending);
      r.attempts == 1 && r.error && r.score == 5
  {
    StepFacts(v, outcomes[0], 1, 3);
  }

  /** What a success stores under the tweet id: the modular script also keeps the tweet's text. */
  datatype Stored = Stored(tweetContent: Option<string>, score: int, description: string)

  /** The cache after the rating: a success stores its score and the reply under the tweet id; a failure stores nothing. */
  function CacheAfter(v: Version, r: CallbackResult, tweetId: string, tweetText: string, cache: map<string, Stored>): (c: map<string, Stored>)
    ensures r.error ==> c == cache
    ensures !r.error ==> tweetId in c && c[tweetId].score == r.score && c[tweetId].description == r.content
    ensures !r.error ==> (c[tweetId].tweetContent.Some? <==> v == Modular)
    ensures forall id | id != tweetId :: (id in c <==> id in cache) && (id in cache ==> c[id] == cache[id])
  {
    if r.error then cache
    else cache[tweetId := Stored(if v == Modular then Some(tweetText) else None, r.score, r.content)]
  }
}

=== FILE: dom_scraper.dfy ===
/**
  Reading a tweet from the page (`src/domScraper.js`). The tweet's `<article>` element is
  reduced to a read-only facade holding the strings and attributes that the selectors
  reach; the functions are the string logic applied to them.
 */
module DomScraper {
  import opened Wrappers
  import opened JsString

  /** An element matched by the tweet-text selector, and whether the quote container holds it. */
  datatype TextElement = TextElement(text: string, insideQuote: bool)

  /** The quote container (`div[role="link"][tabindex="0"]`) as `getUserHandles` reads it. */
  datatype QuoteBox = QuoteBox(
    avatarTestId: Option<string>,     // `data-testid` of the quoted author's avatar container, if there is one
    quotedLinkHref: Option<string>)   // `href` of the first link to a `/status/` page inside the box

  /** A span under `div[dir="ltr"]`, with its text and its number of child elements. */
  datatype Span = Span(text: string, children: nat)

  datatype Article = Article(
    textElements: seq<TextElement>,
    quote: Option<QuoteBox>,
    permalinkHref: Option<string>,    // `href` of the parent of the permalink `<time>`
    handleHref: Option<string>,       // `href` attribute of the author link
    ltrSpans: seq<Span>)

  // ---------------------------------------------------------------------------------------
  // getElementText

  /** An element whose `textContent?.trim()` is falsy: it is missing, has no text, or only white space. */
  predicate Blank(t: Option<string>) {
    t.None? || Trim(t.value) == []
  }

  /** Index of the first element at or after `from` whose text is not blank. */
  function FirstNonBlank(texts: seq<Option<string>>, from: nat): (r: Option<nat>)
    ensures r.Some? ==> from <= r.value < |texts| && !Blank(texts[r.value])
    ensures r.Some? ==> forall j | from <= j < r.value :: Blank(texts[j])
    ensures r.None? ==> forall j | from <= j < |texts| :: Blank(texts[j])
    decreases |texts| - from
  {
    if from >= |texts| then None
    else if !Blank(texts[from]) then Some(from)
    else FirstNonBlank(texts, from + 1)
  }

  /** The first element of the list with non-blank text gives the trimmed text; `''` if there is none. */
  function FirstText(texts: seq<Option<string>>): (r: string)
    ensures r == [] <==> forall i | 0 <= i < |texts| :: Blank(texts[i])
    ensures r != [] ==> exists i | 0 <= i < |texts| ::
      && texts[i].Some? && r == Trim(texts[i].value)
      && forall j | 0 <= j < i :: Blank(texts[j])
    ensures IsTrimmed(r)
  {
    match FirstNonBlank(texts, 0)
    case None => []
    case Some(i) => TrimIdempotent(texts[i].value); Trim(texts[i].value)
  }

  /**
    `getElementText`: no elements give `''`; a single element is a list of one; otherwise the
    first non-blank trimmed text.
   */
  function GetElementText(elements: Option<seq<Option<string>>>): (r: string)
    ensures elements.None? ==> r == []
    ensures elements.Some? ==> r == FirstText(elements.value)
    ensures IsTrimmed(r)
  {
    if elements.None? then [] else FirstText(elements.value)
  }

  // ---------------------------------------------------------------------------------------
  // getTweetText

  /** A text element that belongs to the tweet itself rather than to the quoted tweet. */
  predicate OwnText(a: Article, e: TextElement) {
    a.quote.None? || !e.insideQuote
  }

  /** Index of the first text element at or after `from` that belongs to the tweet itself. */
  function FirstOwnText(a: Article, from: nat): (r: Option<nat>)
    ensures r.Some? ==> from <= r.value < |a.textElements| && OwnText(a, a.textElements[r.value])
    ensures r.Some? ==> forall j | from <= j < r.value :: !OwnText(a, a.textElements[j])
    ensures r.None? ==> forall j | from <= j < |a.textElements| :: !OwnText(a, a.textElements[j])
    decreases |a.textElements| - from
  {
    if from >= |a.textElements| then None
    else if OwnText(a, a.textElements[from]) then Some(from)
    else FirstOwnText(a, from + 1)
  }

  /**
    `getTweetText`: the trimmed text of the first tweet-text element outside the quoted tweet
    (even when that text is empty), or `''` when every one is inside it.
   */
  function GetTweetText(a: Article): (r: string)
    ensures IsTrimmed(r)
    ensures (forall i | 0 <= i < |a.textElements| :: !OwnText(a, a.textElements[i])) ==> r == []
    ensures a.quote.None? && a.textElements != [] ==> r == Trim(a.textElements[0].text)
  {
    match FirstOwnText(a, 0)
    case None => []
    case Some(i) => TrimIdempotent(a.textElements[i].text); Trim(a.textElements[i].text)
  }

  /** Text inside a quoted tweet is never taken for the tweet's own text when the tweet has text of its own first. */
  lemma TweetTextSkipsQuoted(a: Article, k: nat)
    requires k < |a.textElements| && OwnText(a, a.textElements[k])
    requires forall j | 0 <= j < k :: !OwnText(a, a.textElements[j])
    ensures GetTweetText(a) == Trim(a.textElements[k].text)
  {
    var i := FirstOwnText(a, 0).value;
    assert i == k;
  }

  // ---------------------------------------------------------------------------------------
  // getTweetID

  const StatusPath: string := "/status/"

  /** Where `/\/status\/(\d+)/` can match: `/status/` followed by at least one digit. */
  predicate StatusMatchAt(s: string, i: int) {
    OccursAt(s, StatusPath, i) && i + |StatusPath| < |s| && IsDigit(s[i + |StatusPath|])
  }

  function NextStatusMatch(s: string, from: nat): (r: Option<nat>)
    ensures r.Some? ==> from <= r.value && StatusMatchAt(s, r.value)
    ensures r.Some? ==> forall j :: from <= j < r.value ==> !StatusMatchAt(s, j)
    ensures r.None? ==> forall j :: from <= j ==> !StatusMatchAt(s, j)
    decreases |s| - from
  {
    if from + |StatusPath| >= |s| then None
    else if StatusMatchAt(s, from) then Some(from)
    else NextStatusMatch(s, from + 1)
  }

  /** The digits the capture group takes: all of them, as `\d+` is greedy. */
  function StatusDigits(s: string, i: nat): (d: string)
    requires StatusMatchAt(s, i)
    ensures d != [] && AllDigits(d)
  {
    s[i + |StatusPath|..DigitRunEnd(s, i + |StatusPath|)]
  }

  /**
    `getTweetID`: the digits of the leftmost `/status/<digits>` of the permalink; when
    `/status/` occurs but no digits follow, the rest of the link from `status/`; with no
    permalink or no `/status/`, a fresh id (made from a random number and the clock, here
    the parameter `freshId`).
   */
  function GetTweetID(href: Option<string>, freshId: string): (id: string)
    ensures href.None? || !Contains(href.value, StatusPath) ==> id == freshId
    ensures href.Some? && NextStatusMatch(href.value, 0).Some? ==> id != [] && AllDigits(id)
    ensures href.Some? && Contains(href.value, StatusPath) && NextStatusMatch(href.value, 0).None? ==>
      StartsWith(id, "status/") && IsSuffixOf(id, href.value)
  {
    if href.None? || !Contains(href.value, StatusPath) then freshId
    else
      var s := href.value;
      match NextStatusMatch(s, 0)
      case Some(i) => StatusDigits(s, i)
      case None =>
        var k := IndexOf(s, StatusPath).value;
        assert s[k + 1..] == s[k..][1..];
        assert s[k + 1..][..7] == StatusPath[1..];
        s[k + 1..]
  }

  predicate IsSuffixOf(t: string, s: string) {
    |t| <= |s| && s[|s| - |t|..] == t
  }

  /** A slice of a string's prefix is the same slice of the string. */
  lemma PrefixSlice(s: string, p: string, a: nat, b: nat)
    requires StartsWith(s, p) && a <= b <= |p|
    ensures s[a..b] == p[a..b]
  {
    forall i | a <= i < b ensures s[i] == p[i] {
      assert s[..|p|][i] == p[i];
    }
  }

  lemma NoStatusMatchBefore(prefix: string, s: string, j: nat)
    requires !Contains(prefix + "/status", StatusPath)
    requires StartsWith(s, prefix + "/status") && j < |prefix|
    ensures !StatusMatchAt(s, j)
  {
    var p := prefix + "/status";
    if OccursAt(s, StatusPath, j) {
      var n := |StatusPath|;
      assert n == 8 && |p| == |prefix| + 7;
      PrefixSlice(s, p, j, j + n);
      assert OccursAt(p, StatusPath, j);
    }
  }

  lemma NextStatusMatchIs(s: string, from: nat, k: nat)
    requires from <= k && StatusMatchAt(s, k)
    requires forall j | from <= j < k :: !StatusMatchAt(s, j)
    ensures NextStatusMatch(s, from) == Some(k)
    decreases k - from
  {
    if from < k {
      NextStatusMatchIs(s, from + 1, k);
    }
  }

  /**
    A permalink whose first `/status/` is followed by the digits of the tweet's id yields
    exactly those digits, whatever follows them.
   */
  lemma TweetIdOfPermalink(prefix: string, digits: string, rest: string, freshId: string)
    requires !Contains(prefix + "/status", StatusPath)
    requires digits != [] && AllDigits(digits)
    requires rest == [] || !IsDigit(rest[0])
    ensures GetTweetID(Some(prefix + StatusPath + digits + rest), freshId) == digits
  {
    var s := prefix + StatusPath + digits + rest;
    var k := |prefix|;
    var d := k + |StatusPath|;
    var e := d + |digits|;
    assert s[k..d] == StatusPath;
    assert s[d..e] == digits;
    assert s[d] == digits[0];
    assert StatusMatchAt(s, k);
    assert Contains(s, StatusPath);
    assert StartsWith(s, prefix + "/status") by {
      assert s[..|prefix + "/status"|] == prefix + "/status";
    }
    forall j | 0 <= j < k ensures !StatusMatchAt(s, j) {
      NoStatusMatchBefore(prefix, s, j);
    }
    NextStatusMatchIs(s, 0, k);
    assert e == |s| || !IsDigit(s[e]) by {
      if e < |s| { assert s[e] == rest[0]; }
    }
    DigitRunFrom(s, d, e);
  }

  // ---------------------------------------------------------------------------------------
  // getUserHandles

  /** The author's handle: the link's `href` without its leading `/`, only when it starts with one. */
  function MainHandle(a: Article): (h: Option<string>)
    ensures h.Some? <==> a.handleHref.Some? && StartsWith(a.handleHref.value, "/")
    ensures h.Some? ==> a.handleHref.value == "/" + h.value
  {
    match a.handleHref
    case Some(href) =>
      if href != [] && href[0] == '/' then Some(href[1..]) else None
    case None => None
  }

  /** `s.lastIndexOf(c)` restricted to `s[..end]`, with `None` for -1. */
  function LastIndexBefore(s: string, c: char, end: nat): (r: Option<nat>)
    requires end <= |s|
    ensures r.Some? ==> r.value < end && s[r.value] == c && forall j | r.value < j < end :: s[j] != c
    ensures r.None? ==> forall j | 0 <= j < end :: s[j] != c
  {
    if end == 0 then None
    else if s[end - 1] == c then Some(end - 1)
    else LastIndexBefore(s, c, end - 1)
  }

  lemma LastIndexBeforeIs(s: string, c: char, end: nat, k: nat)
    requires k < end <= |s| && s[k] == c
    requires forall j | k < j < end :: s[j] != c
    ensures LastIndexBefore(s, c, end) == Some(k)
  {
    if end - 1 != k {
      LastIndexBeforeIs(s, c, end - 1, k);
    }
  }

  function LastIndexOf(s: string, c: char): (r: Option<nat>)
    ensures r.Some? ==> r.value < |s| && s[r.value] == c && c !in s[r.value + 1..]
    ensures r.None? ==> c !in s
  {
    LastIndexBefore(s, c, |s|)
  }

  /** The handle after the last `-` of the avatar's `data-testid`, when something follows it. */
  function AvatarHandle(testId: string): (h: Option<string>)
    ensures h.Some? ==> h.value != [] && '-' !in h.value && IsSuffixOf("-" + h.value, testId)
    ensures h.None? <==> '-' !in testId || testId[|testId| - 1] == '-'
  {
    match LastIndexOf(testId, '-')
    case None => None
    case Some(k) =>
      if k < |testId| - 1 then
        assert testId[k..] == "-" + testId[k + 1..];
        Some(testId[k + 1..])
      else None
  }

  /** The avatar of `@h` carries `UserAvatar-Container-h`; a handle without `-` is read back. */
  lemma AvatarHandleOfTestId(h: string)
    requires h != [] && '-' !in h
    ensures AvatarHandle("UserAvatar-Container-" + h) == Some(h)
  {
    var t := "UserAvatar-Container-" + h;
    var k := |"UserAvatar-Container-"| - 1;
    assert t[k] == '-' && t[k + 1..] == h;
    forall j | k < j < |t| ensures t[j] != '-' {
      assert t[j] == h[j - k - 1];
    }
    LastIndexBeforeIs(t, '-', |t|, k);
  }

  /** `/^\/([^/]+)\/status\/\d+/`: the first path segment of a status link, when the second is `status` followed by digits. */
  function LinkHandle(href: string): (h: Option<string>)
    ensures h.Some? ==> h.value != [] && '/' !in h.value && StartsWith(href, "/" + h.value) && StatusMatchAt(href, |h.value| + 1)
  {
    if href == [] || href[0] != '/' then None
    else
      match IndexOfFrom(href, "/", 1)
      case None => None
      case Some(j) =>
        if j > 1 && StatusMatchAt(href, j) then
          assert forall c | c in href[1..j] :: c != '/' by {
            forall c | c in href[1..j] ensures c != '/' {
              var m :| 1 <= m < j && href[m] == c;
              assert !OccursAt(href, "/", m);
            }
          }
          assert href[..j] == "/" + href[1..j];
          Some(href[1..j])
        else None
  }

  /** A link `/user/status/<digits>…` gives back `user`. */
  lemma LinkHandleOfStatusLink(user: string, digits: string, rest: string)
    requires user != [] && '/' !in user
    requires digits != [] && AllDigits(digits)
    ensures LinkHandle("/" + user + StatusPath + digits + rest) == Some(user)
  {
    var s := "/" + user + StatusPath + digits + rest;
    var j := |user| + 1;
    assert s[j..j + 1] == "/";
    forall m | 1 <= m < j ensures !OccursAt(s, "/", m) {
      assert s[m] == user[m - 1];
    }
    IndexOfFromIs(s, "/", 1, j);
    assert s[j..j + |StatusPath|] == StatusPath;
    assert s[j + |StatusPath|] == digits[0];
    assert s[1..j] == user;
  }

  /** Appends a quoted author's handle when there is one and it is not the main author's. */
  function PushOther(handles: seq<string>, h: Option<string>): (r: seq<string>)
    requires handles != []
    ensures r == handles || (h.Some? && h.value != handles[0] && r == handles + [h.value])
  {
    if h.Some? && h.value != handles[0] then handles + [h.value] else handles
  }

  /**
    `getUserHandles`: the author's handle first, then the quoted author's handle as the
    avatar and the status link give it (each only when it differs from the author's); `['']`
    when the author's handle is not found. Quoted handles are looked for only when the author's
    handle was found and the quote has an avatar.
   */
  function GetUserHandles(a: Article): (handles: seq<string>)
    ensures 1 <= |handles| <= 3
    ensures MainHandle(a).None? ==> handles == [""]
    ensures MainHandle(a).Some? ==> handles[0] == MainHandle(a).value
    ensures forall i | 1 <= i < |handles| :: handles[i] != handles[0]
    ensures |handles| > 1 ==> a.quote.Some? && a.quote.value.avatarTestId.Some?
    ensures forall i | 1 <= i < |handles| ::
      handles[i] != [] && (Some(handles[i]) == AvatarHandle(a.quote.value.avatarTestId.value)
                           || (a.quote.value.quotedLinkHref.Some? && Some(handles[i]) == LinkHandle(a.quote.value.quotedLinkHref.value)))
  {
    match MainHandle(a)
    case None => [""]
    case Some(m) =>
      if a.quote.Some? && a.quote.value.avatarTestId.Some? then
        var q := a.quote.value;
        var withAvatar := PushOther([m], AvatarHandle(q.avatarTestId.value));
        match q.quotedLinkHref
        case Some(l) => PushOther(withAvatar, LinkHandle(l))
        case None => withAvatar
      else [m]
  }

  /** A tweet quoting another author, with the usual avatar and link, lists both handles in order. */
  lemma HandlesOfQuotingTweet(a: Article, main: string, quoted: string, digits: string, rest: string)
    requires a.handleHref == Some("/" + main)
    requires quoted != [] && '-' !in quoted && '/' !in quoted && quoted != main
    requires digits != [] && AllDigits(digits)
    requires a.quote == Some(QuoteBox(Some("UserAvatar-Container-" + quoted), Some("/" + quoted + StatusPath + digits + rest)))
    ensures GetUserHandles(a) == [main, quoted, quoted]
  {
    assert ("/" + main)[1..] == main;
    AvatarHandleOfTestId(quoted);
    LinkHandleOfStatusLink(quoted, digits, rest);
  }

  // ---------------------------------------------------------------------------------------
  // isAd

  /** A span that marks a promoted tweet: its trimmed text is exactly `Ad` and it has no child elements. */
  predicate AdLabel(s: Span) {
    Trim(s.text) == "Ad" && s.children == 0
  }

  function AnyAdLabel(spans: seq<Span>): (r: bool)
    ensures r <==> exists i | 0 <= i < |spans| :: AdLabel(spans[i])
  {
    if spans == [] then false
    else if AdLabel(spans[0]) then true
    else
      var r := AnyAdLabel(spans[1..]);
      assert forall i | 1 <= i < |spans| :: spans[i] == spans[1..][i - 1];
      r
  }

  /** `isAd`: a missing article is no ad; otherwise an ad exactly when one of its spans is an `Ad` label. */
  function IsAd(a: Option<Article>): (r: bool)
    ensures r <==> a.Some? && exists i | 0 <= i < |a.value.ltrSpans| :: AdLabel(a.value.ltrSpans[i])
  {
    a.Some? && AnyAdLabel(a.value.ltrSpans)
  }
}

=== FILE: earliest_script.dfy ===
/**
  Two pieces of `twitter-desloppifier.js` that stand on their own: the normalisation of a
  tweet's media URLs in `extractMediaLinks`, and the option list `updateModelSelector` builds.
  The page is a facade: each media element gives its tag, its URL attribute and what
  `new URL` makes of it; each model gives its id and the text its option shows.
 */
module EarliestScript {
  import opened Wrappers
  import opened JsString

  // ---------------------------------------------------------------------------------------
  // extractMediaLinks

  /** What `new URL(rawUrl)` yields: its origin, its path, and its `format` parameter (`""` when absent). */
  datatype UrlParts = UrlParts(origin: string, pathname: string, format: string)

  datatype Tag = Img | Video

  /**
    A media element: an `img` gives its `src`, a `video` its `poster`; `parsed` is `None`
    when `new URL` throws.
   */
  datatype MediaEl = MediaEl(tag: Tag, rawUrl: string, parsed: Option<UrlParts>)

  const MediaHost: string := "pbs.twimg.com"

  const ImageExtensions: seq<string> := [".jpg", ".jpeg", ".png", ".gif", ".webp"]

  /** `/\.(jpg|jpeg|png|gif|webp)$/i`: the path ends with an image extension, in any case. */
  predicate HasImageExtension(pathname: string) {
    exists e | e in ImageExtensions :: EndsWith(ToLower(pathname), e)
  }

  /**
    The URL one element contributes, or `None` when it is skipped. A `format` parameter is
    appended as an extension; a path with an image extension is kept; any other image or video
    poster gets `.jpg`. A URL that does not parse is cut at its first `?`.
   */
  function NormalisedUrl(el: MediaEl): (u: Option<string>)
    ensures u.Some? ==> el.rawUrl != [] && Contains(el.rawUrl, MediaHost)
    ensures u.Some? && el.parsed.Some? ==> StartsWith(u.value, el.parsed.value.origin + el.parsed.value.pathname)
  {
    if el.rawUrl == [] || !Contains(el.rawUrl, MediaHost) then None
    else match el.parsed
      case None => Some(BeforeFirst(el.rawUrl, '?'))
      case Some(u) =>
        var base := u.origin + u.pathname;
        if u.format != "" then Some(base + "." + u.format)
        else if HasImageExtension(u.pathname) then Some(base)
        else Some(base + ".jpg")
  }

  /** Only elements on the media host contribute, and each does so in one of the four ways above. */
  lemma NormalisedUrlCases(el: MediaEl)
    ensures NormalisedUrl(el).Some? <==> el.rawUrl != [] && Contains(el.rawUrl, MediaHost)
    ensures NormalisedUrl(el).Some? && el.parsed.Some? ==>
      var u := el.parsed.value;
      var r := NormalisedUrl(el).value;
      && StartsWith(r, u.origin + u.pathname)
      && (u.format != "" ==> r == u.origin + u.pathname + "." + u.format)
      && (u.format == "" && HasImageExtension(u.pathname) ==> r == u.origin + u.pathname)
      && (u.format == "" && !HasImageExtension(u.pathname) ==> r == u.origin + u.pathname + ".jpg")
    ensures NormalisedUrl(el).Some? && el.parsed.None? ==>
      var r := NormalisedUrl(el).value;
      && r == BeforeFirst(el.rawUrl, '?')
      && StartsWith(el.rawUrl, r) && '?' !in r
      && (r == el.rawUrl || el.rawUrl[|r|] == '?')
  {
    BeforeFirstStops(el.rawUrl, '?');
    if NormalisedUrl(el).Some? && el.parsed.Some? {
      var u := el.parsed.value;
      var r := NormalisedUrl(el).value;
      var base := u.origin + u.pathname;
      if u.format != "" {
        assert r == base + ("." + u.format);
      } else if !HasImageExtension(u.pathname) {
        assert r == base + ".jpg";
      }
    }
  }

  /** Adds a URL to the insertion-ordered set. */
  function AddLink(links: seq<string>, u: Option<string>): seq<string> {
    if u.None? || u.value in links then links else links + [u.value]
  }

  predicate NoDuplicates(xs: seq<string>) {
    forall i, j | 0 <= i < j < |xs| :: xs[i] != xs[j]
  }

  /**
    `extractMediaLinks`: the distinct normalised URLs of the elements, in the order they are
    first produced.
   */
  function ExtractMediaLinks(els: seq<MediaEl>): (links: seq<string>)
    ensures NoDuplicates(links)
    ensures |links| <= |els|
    ensures forall u :: u in links <==> exists i | 0 <= i < |els| :: NormalisedUrl(els[i]) == Some(u)
  {
    if els == [] then []
    else
      var prev := ExtractMediaLinks(els[..|els| - 1]);
      var last := NormalisedUrl(els[|els| - 1]);
      assert forall i | 0 <= i < |els| - 1 :: els[..|els| - 1][i] == els[i];
      AddLink(prev, last)
  }

  /**
    The links keep first-occurrence order: wherever an element produces a later link, some
    earlier element has already produced every link listed before it.
   */
  lemma {:induction false} ExtractMediaLinksFirstOrder(els: seq<MediaEl>, i: int, j: int, k: int)
    requires 0 <= i < j < |ExtractMediaLinks(els)|
    requires 0 <= k < |els| && NormalisedUrl(els[k]) == Some(ExtractMediaLinks(els)[j])
    ensures exists m | 0 <= m < k :: NormalisedUrl(els[m]) == Some(ExtractMediaLinks(els)[i])
    decreases |els|, 1
  {
    var n := |els| - 1;
    assert ExtractMediaLinks(els) == AddLink(ExtractMediaLinks(els[..n]), NormalisedUrl(els[n]));
    if j < |ExtractMediaLinks(els[..n])| {
      FirstOrderOfEarlierPair(els, i, j, k);
    } else {
      FirstOrderOfNewLink(els, i, j, k);
    }
  }

  /** The pair was already listed before the last element: induction on the shorter list. */
  lemma {:induction false} FirstOrderOfEarlierPair(els: seq<MediaEl>, i: int, j: int, k: int)
    requires 0 <= k < |els|
    requires 0 <= i < j < |ExtractMediaLinks(els[..|els| - 1])|
    requires NormalisedUrl(els[k]) == Some(ExtractMediaLinks(els)[j])
    ensures exists m | 0 <= m < k :: NormalisedUrl(els[m]) == Some(ExtractMediaLinks(els)[i])
    decreases |els|, 0
  {
    var n := |els| - 1;
    var prev := els[..n];
    var prevLinks := ExtractMediaLinks(prev);
    assert ExtractMediaLinks(els) == AddLink(prevLinks, NormalisedUrl(els[n]));
    assert ExtractMediaLinks(els)[i] == prevLinks[i] && ExtractMediaLinks(els)[j] == prevLinks[j];
    var k' := if k == n then ProducerOf(prev, prevLinks[j]) else k;
    assert NormalisedUrl(prev[k']) == Some(prevLinks[j]);
    ExtractMediaLinksFirstOrder(prev, i, j, k');
    ShiftProducer(els, n, k', prevLinks[i]);
  }

  /** An element that produced a listed link. */
  ghost function ProducerOf(els: seq<MediaEl>, u: string): (k: nat)
    requires u in ExtractMediaLinks(els)
    ensures k < |els| && NormalisedUrl(els[k]) == Some(u)
  {
    var k :| 0 <= k < |els| && NormalisedUrl(els[k]) == Some(u); k
  }

  /** A producer before `bound` in a prefix is one in the whole list. */
  lemma ShiftProducer(els: seq<MediaEl>, n: int, bound: int, u: string)
    requires 0 <= bound <= n <= |els|
    requires exists m | 0 <= m < bound :: NormalisedUrl(els[..n][m]) == Some(u)
    ensures exists m | 0 <= m < bound :: NormalisedUrl(els[m]) == Some(u)
  {
    var m :| 0 <= m < bound && NormalisedUrl(els[..n][m]) == Some(u);
    assert els[..n][m] == els[m];
  }

  /** The later link is the last element's new one, so nothing before it produced it. */
  lemma {:induction false} FirstOrderOfNewLink(els: seq<MediaEl>, i: int, j: int, k: int)
    requires 0 <= k < |els|
    requires 0 <= i < j < |ExtractMediaLinks(els)|
    requires j >= |ExtractMediaLinks(els[..|els| - 1])|
    requires NormalisedUrl(els[k]) == Some(ExtractMediaLinks(els)[j])
    ensures exists m | 0 <= m < k :: NormalisedUrl(els[m]) == Some(ExtractMediaLinks(els)[i])
  {
    var n := |els| - 1;
    var prev := els[..n];
    var prevLinks := ExtractMediaLinks(prev);
    assert ExtractMediaLinks(els) == AddLink(prevLinks, NormalisedUrl(els[n]));
    assert ExtractMediaLinks(els) == prevLinks + [NormalisedUrl(els[n]).value];
    assert ExtractMediaLinks(els)[i] == prevLinks[i];
    if k < n {
      NewLinkHasNoEarlierProducer(els, j, k);
      assert false;
    }
    var m :| 0 <= m < n && NormalisedUrl(prev[m]) == Some(prevLinks[i]);
    assert NormalisedUrl(els[m]) == Some(ExtractMediaLinks(els)[i]);
  }

  /** The last element's new link is produced by no element before it. */
  lemma NewLinkHasNoEarlierProducer(els: seq<MediaEl>, j: int, k: int)
    requires 0 <= k < |els| - 1
    requires |ExtractMediaLinks(els[..|els| - 1])| <= j < |ExtractMediaLinks(els)|
    ensures NormalisedUrl(els[k]) != Some(ExtractMediaLinks(els)[j])
  {
    var n := |els| - 1;
    var prevLinks := ExtractMediaLinks(els[..n]);
    assert ExtractMediaLinks(els) == AddLink(prevLinks, NormalisedUrl(els[n]));
    assert ExtractMediaLinks(els)[j] !in prevLinks;
    assert els[..n][k] == els[k];
  }

  /** A URL produced again later is not listed twice: the earlier elements already decide its place. */
  lemma {:induction false} LaterDuplicateIgnored(els: seq<MediaEl>, el: MediaEl)
    requires exists i | 0 <= i < |els| :: NormalisedUrl(els[i]) == NormalisedUrl(el)
    ensures ExtractMediaLinks(els + [el]) == ExtractMediaLinks(els)
  {
    assert (els + [el])[..|els|] == els;
    var i :| 0 <= i < |els| && NormalisedUrl(els[i]) == NormalisedUrl(el);
    if NormalisedUrl(el).Some? {
      assert NormalisedUrl(el).value in ExtractMediaLinks(els);
    }
  }

  // ---------------------------------------------------------------------------------------
  // updateModelSelector

  /** A model as the selector sees it: its id and the text its option shows (the id, maybe followed by a price). */
  datatype Model = Model(id: string, displayText: string)

  datatype ModelOption = ModelOption(value: string, text: string, selected: bool)

  /** A model is listed when there is no filter or its text contains the filter, ignoring case. */
  predicate Matches(m: Model, filter: string) {
    filter == "" || Contains(ToLower(m.displayText), ToLower(filter))
  }

  /** The options for the models that pass the filter, in order; the selected model's option is marked. */
  function MatchingOptions(models: seq<Model>, filter: string, selectedModel: string): (opts: seq<ModelOption>)
    ensures |opts| <= |models|
    ensures forall o | o in opts :: exists m | m in models :: Matches(m, filter) && o == ModelOption(m.id, m.displayText, m.id == selectedModel)
    ensures forall m | m in models && Matches(m, filter) :: ModelOption(m.id, m.displayText, m.id == selectedModel) in opts
  {
    if models == [] then []
    else
      var rest := MatchingOptions(models[1..], filter, selectedModel);
      var m := models[0];
      assert forall x | x in models[1..] :: x in models;
      if Matches(m, filter) then [ModelOption(m.id, m.displayText, m.id == selectedModel)] + rest else rest
  }

  /**
    `updateModelSelector`: the matching models' options, then the selected model's own option
    when none of them carries its id.
   */
  function UpdateModelSelector(models: seq<Model>, filter: string, selectedModel: string): (opts: seq<ModelOption>)
    ensures exists o | o in opts :: o.value == selectedModel && o.selected
    ensures forall o | o in opts && o.selected :: o.value == selectedModel
    ensures var matching := MatchingOptions(models, filter, selectedModel);
      && |matching| <= |opts| && opts[..|matching|] == matching
      && (|opts| == |matching| || opts == matching + [ModelOption(selectedModel, selectedModel, true)])
  {
    var matching := MatchingOptions(models, filter, selectedModel);
    if exists o | o in matching :: o.value == selectedModel then matching
    else matching + [ModelOption(selectedModel, selectedModel, true)]
  }

  /** The selected model's option is appended exactly when no model with its id passes the filter. */
  lemma SelectedAppendedIffFiltered(models: seq<Model>, filter: string, selectedModel: string)
    ensures |UpdateModelSelector(models, filter, selectedModel)| == |MatchingOptions(models, filter, selectedModel)| + 1
        <==> forall m | m in models && m.id == selectedModel :: !Matches(m, filter)
  {
    var matching := MatchingOptions(models, filter, selectedModel);
    if exists m | m in models && m.id == selectedModel :: Matches(m, filter) {
      var m :| m in models && m.id == selectedModel && Matches(m, filter);
      assert ModelOption(m.id, m.displayText, true) in matching;
    }
  }
}

=== FILE: handles.dfy ===
/**
  The list of handles whose tweets are rated 10 without asking the model (called the
  blacklist in the scripts, shown to users as the auto-rate list): adding, removing and
  looking up a handle (`src/ui/handleManager.js`, `isUserBlacklisted` in
  `src/ratingEngine.js`, and the same functions in `src/twitter-desloppifier.js`).
 */
module Handles {
  import opened Wrappers
  import opened JsString

  /** The list after an edit, and the text written to storage (`None` when nothing was written). */
  datatype Edit = Edit(handles: seq<string>, stored: Option<string>)

  /** No handle occurs twice. */
  predicate NoDuplicates(hs: seq<string>) {
    forall i, j :: 0 <= i < j < |hs| ==> hs[i] != hs[j]
  }

  /** `handle.trim()`, then one leading `@` removed, without trimming again. */
  function CleanHandle(handle: string): (h: string)
    ensures var t := Trim(handle); h == if t != [] && t[0] == '@' then t[1..] else t
  {
    var t := Trim(handle);
    if t != [] && t[0] == '@' then t[1..] else t
  }

  /**
    `addHandleToBlacklist(handle)`: the cleaned handle is appended unless it is empty or
    already on the list (compared exactly); the list is then stored one handle per line.
   */
  function AddHandle(hs: seq<string>, handle: string): (e: Edit)
    ensures CleanHandle(handle) == [] || CleanHandle(handle) in hs ==> e == Edit(hs, None)
    ensures CleanHandle(handle) != [] && CleanHandle(handle) !in hs ==>
      e.handles == hs + [CleanHandle(handle)] && e.stored == Some(Join(e.handles, "\n"))
  {
    var h := CleanHandle(handle);
    if h == [] || h in hs then Edit(hs, None)
    else var next := hs + [h]; Edit(next, Some(Join(next, "\n")))
  }

  /** Adding keeps the list free of duplicates. */
  lemma AddKeepsNoDuplicates(hs: seq<string>, handle: string)
    requires NoDuplicates(hs)
    ensures NoDuplicates(AddHandle(hs, handle).handles)
  {
    var e := AddHandle(hs, handle);
    var h := CleanHandle(handle);
    if h != [] && h !in hs {
      forall i, j | 0 <= i < j < |e.handles|
        ensures e.handles[i] != e.handles[j]
      {
        if j == |hs| {
          assert e.handles[i] == hs[i];
        } else {
          assert e.handles[i] == hs[i] && e.handles[j] == hs[j];
        }
      }
    }
  }

  /** The index of the first occurrence of `x` (`indexOf`). */
  function FirstIndex(hs: seq<string>, x: string): (r: Option<nat>)
    ensures r.None? <==> x !in hs
    ensures r.Some? ==> r.value < |hs| && hs[r.value] == x && x !in hs[..r.value]
  {
    if hs == [] then None
    else if hs[0] == x then Some(0)
    else match FirstIndex(hs[1..], x)
      case None => None
      case Some(i) =>
        assert hs[..i + 1] == [hs[0]] + hs[1..][..i];
        Some(i + 1)
  }

  /**
    `removeHandleFromBlacklist(handle)`: the first occurrence is spliced out and the list
    stored; a handle that is not there changes nothing.
   */
  function RemoveHandle(hs: seq<string>, handle: string): (e: Edit)
    ensures handle !in hs ==> e == Edit(hs, None)
    ensures handle in hs ==> |e.handles| == |hs| - 1 && e.stored == Some(Join(e.handles, "\n"))
    ensures handle in hs ==> multiset(e.handles) == multiset(hs) - multiset{handle}
  {
    match FirstIndex(hs, handle)
    case None => Edit(hs, None)
    case Some(i) =>
      var next := hs[..i] + hs[i + 1..];
      assert hs == hs[..i] + [hs[i]] + hs[i + 1..];
      Edit(next, Some(Join(next, "\n")))
  }

  /** Only the first occurrence goes; the handles before and after it keep their order. */
  lemma RemoveFirstOccurrence(hs: seq<string>, handle: string, i: nat)
    requires i < |hs| && hs[i] == handle && handle !in hs[..i]
    ensures RemoveHandle(hs, handle).handles == hs[..i] + hs[i + 1..]
  {
    var k := FirstIndex(hs, handle).value;
    assert k == i;
  }

  /** On a list without duplicates, removing a handle removes it for good. */
  lemma RemoveFromDistinct(hs: seq<string>, handle: string)
    requires NoDuplicates(hs)
    ensures handle !in RemoveHandle(hs, handle).handles
    ensures NoDuplicates(RemoveHandle(hs, handle).handles)
  {
    var e := RemoveHandle(hs, handle);
    if handle in hs {
      var i := FirstIndex(hs, handle).value;
      assert e.handles == hs[..i] + hs[i + 1..];
      forall a, b | 0 <= a < b < |e.handles|
        ensures e.handles[a] != e.handles[b]
      {
        var a' := if a < i then a else a + 1;
        var b' := if b < i then b else b + 1;
        assert e.handles[a] == hs[a'] && e.handles[b] == hs[b'];
      }
      forall k | 0 <= k < |e.handles|
        ensures e.handles[k] != handle
      {
        var k' := if k < i then k else k + 1;
        assert e.handles[k] == hs[k'];
      }
    }
  }

  /** `addHandleFromInput`: the field's text, trimmed, is added when it is not empty. */
  function AddFromInput(hs: seq<string>, input: string): (e: Edit)
    ensures Trim(input) == [] ==> e == Edit(hs, None)
    ensures e.stored.None? ==> e.handles == hs
    ensures e.stored.Some? ==> |e.handles| == |hs| + 1 && e.handles[..|hs|] == hs && e.stored == Some(Join(e.handles, "\n"))
  {
    var t := Trim(input);
    if t != [] then AddHandle(hs, t) else Edit(hs, None)
  }

  /** Reading the handle through the input field changes nothing: `add` trims anyway. */
  lemma AddFromInputIsAdd(hs: seq<string>, input: string)
    ensures AddFromInput(hs, input) == AddHandle(hs, input)
  {
    TrimIdempotent(input);
  }

  /** The form `isUserBlacklisted` compares handles in: lower-cased, then trimmed. */
  function Normalize(h: string): string {
    Trim(ToLower(h))
  }

  /** `isUserBlacklisted(handle)`: a non-empty handle whose normal form some listed handle shares. */
  predicate IsUserBlacklisted(handle: string, hs: seq<string>)
    ensures IsUserBlacklisted(handle, hs) ==> handle != [] && hs != []
    ensures handle != [] && handle in hs ==> IsUserBlacklisted(handle, hs)
  {
    handle != [] && exists k :: 0 <= k < |hs| && Normalize(hs[k]) == Normalize(handle)
  }

  /** The lookup ignores case and surrounding white space on both sides. */
  lemma BlacklistIgnoresCaseAndSpace(handle: string, hs: seq<string>)
    requires Trim(handle) != []
    ensures IsUserBlacklisted(handle, hs) <==> IsUserBlacklisted(Trim(handle), hs)
    ensures IsUserBlacklisted(handle, hs) <==> IsUserBlacklisted(ToLower(handle), hs)
  {
    TrimIdempotent(handle);
    ToLowerTrim(handle);
    ToLowerTrim(Trim(handle));
    ToLowerTrim(ToLower(handle));
    ToLowerIdempotent(Trim(handle));
    ToLowerIdempotent(handle);
    assert Normalize(Trim(handle)) == Normalize(handle);
    assert Normalize(ToLower(handle)) == Normalize(handle);
  }

  lemma ToLowerIdempotent(s: string)
    ensures ToLower(ToLower(s)) == ToLower(s)
  {
  }

  /** A handle that was added is then recognised. */
  lemma AddedHandleIsBlacklisted(hs: seq<string>, handle: string)
    requires CleanHandle(handle) != []
    ensures IsUserBlacklisted(CleanHandle(handle), AddHandle(hs, handle).handles)
  {
    var h := CleanHandle(handle);
    var e := AddHandle(hs, handle);
    if h in hs {
      var k :| 0 <= k < |hs| && hs[k] == h;
      assert e.handles[k] == h;
    } else {
      assert e.handles[|hs|] == h;
    }
  }
}

=== FILE: helper_cache.dfy ===
/**
  The rating cache of `src/helpers/TweetCache.js`: tweet id → record, where `set` replaces the
  whole record with a fixed set of six properties. Every write reports whether it saves to
  storage, which it does only when asked to.
 */
module HelperCache {
  import opened Wrappers
  import opened Scores
  import opened CacheCleanup
  import opened CacheEntry

  type Cache = map<string, Entry>

  /** A cache after a write, and whether the write saved it to storage. */
  datatype Written = Written(cache: Cache, saved: bool)

  /** `get(id)`: the stored record, or `null`. */
  function Get(c: Cache, id: string): (r: Option<Entry>)
    ensures r.Some? <==> id in c
    ensures id in c ==> r == Some(c[id])
  {
    if id in c then Some(c[id]) else None
  }

  /**
    The record `set` stores for the rating `u` at time `now`. Missing texts become `''`, missing
    flags `false`, and a missing or zero timestamp the clock's reading.
   */
  function Standardize(u: Entry, now: int): Entry {
    EmptyEntry.(
      score := u.score,
      description := Some(u.description.GetOr("")),
      reasoning := Some(u.reasoning.GetOr("")),
      timestamp := Some(if u.timestamp.Some? && u.timestamp.value != 0 then u.timestamp.value else now),
      streaming := Some(u.streaming.GetOr(false)),
      blacklisted := Some(u.blacklisted.GetOr(false)))
  }

  /** `set(id, rating, saveImmediately)`. */
  function Set(c: Cache, id: string, u: Entry, now: int, saveImmediately: bool): (w: Written)
    ensures w.saved == saveImmediately
    ensures id in w.cache
    ensures w.cache[id].score == u.score
    ensures w.cache[id].description == Some(u.description.GetOr(""))
    ensures w.cache[id].reasoning == Some(u.reasoning.GetOr(""))
    ensures w.cache[id].streaming == Some(u.streaming.GetOr(false))
    ensures w.cache[id].blacklisted == Some(u.blacklisted.GetOr(false))
    ensures u.timestamp.Some? && u.timestamp.value != 0 ==> w.cache[id].timestamp == u.timestamp
    ensures u.timestamp.None? || u.timestamp == Some(0) ==> w.cache[id].timestamp == Some(now)
    ensures w.cache[id].fullContext.None? && w.cache[id].questions.None? && w.cache[id].metadata.None?
      && w.cache[id].qaConversationHistory.None? && w.cache[id].fromStorage.None?
    ensures forall k :: k != id ==> (k in w.cache <==> k in c)
    ensures forall k :: k != id && k in c ==> w.cache[k] == c[k]
  {
    Written(c[id := Standardize(u, now)], saveImmediately)
  }

  /** Nothing of the record stored before survives a `set`: the new record depends on the update alone. */
  lemma SetReplaces(c1: Cache, c2: Cache, id: string, u: Entry, now: int, save: bool)
    ensures Set(c1, id, u, now, save).cache[id] == Set(c2, id, u, now, save).cache[id]
  {
  }

  /** `delete(id, saveImmediately)`: only `id` goes. */
  function Delete(c: Cache, id: string, saveImmediately: bool): (w: Written)
    ensures id !in w.cache && w.saved == saveImmediately
    ensures forall k :: k != id ==> (k in w.cache <==> k in c) && (k in c ==> w.cache[k] == c[k])
  {
    Written(c - {id}, saveImmediately)
  }

  /** `clear(saveImmediately)`. */
  function Clear(c: Cache, saveImmediately: bool): (w: Written)
    ensures |w.cache| == 0 && w.saved == saveImmediately
  {
    Written(map[], saveImmediately)
  }

  /** The `size` getter. */
  function Size(c: Cache): (n: nat)
    ensures n == |c.Keys|
  {
    |c|
  }

  /**
    `cleanup(saveImmediately)`: delete exactly the records without a score, leave the others
    untouched, count the deletions as streaming or not, and save only when asked to and when
    something was deleted.
   */
  method Cleanup(c: Cache, saveImmediately: bool) returns (kept: Cache, stats: Stats, saved: bool)
    ensures forall k :: k in kept <==> k in c && c[k].score.IsSet()
    ensures forall k :: k in kept ==> kept[k] == c[k]
    ensures stats.beforeCount == Size(c) && stats.afterCount == Size(kept)
    ensures stats.deletedCount == stats.streamingDeletedCount + stats.undefinedScoreCount
    ensures stats.missingQaHistoryCount == 0
    ensures stats.afterCount == stats.beforeCount - stats.deletedCount
    ensures stats.streamingDeletedCount == |set k | k in c && !c[k].score.IsSet() && IsStreaming(c[k])|
    ensures stats.undefinedScoreCount == |set k | k in c && !c[k].score.IsSet() && !IsStreaming(c[k])|
    ensures saved <==> saveImmediately && stats.deletedCount > 0
  {
    kept, stats := CacheCleanup.Cleanup(c, ScoreVerdict);
    assert Bucket(c, ScoreVerdict, DropMissingHistory) == {};
    assert Bucket(c, ScoreVerdict, DropStreaming) == set k | k in c && !c[k].score.IsSet() && IsStreaming(c[k]);
    assert Bucket(c, ScoreVerdict, DropUnscored) == set k | k in c && !c[k].score.IsSet() && !IsStreaming(c[k]);
    saved := saveImmediately && stats.deletedCount > 0;
  }

  /** `loadFromStorage()`: the parsed map, or an empty cache when the stored text does not parse. */
  function LoadFromStorage(parsed: Option<Cache>): (c: Cache)
    ensures parsed.None? ==> |c| == 0
    ensures parsed.Some? ==> c == parsed.value
  {
    parsed.GetOr(map[])
  }
}

=== FILE: instructions_history.dfy ===
/**
  The history of scoring instructions (`src/backends/InstructionsHistory.js`): a most-recent-first
  list of at most ten entries, keyed by a 32-bit rolling hash of the trimmed instructions.
 */
module InstructionsHistory {
  import opened Wrappers
  import opened JsString

  const TwoTo31: int := 0x8000_0000
  const TwoTo32: int := 0x1_0000_0000

  /** How many entries `add` keeps. */
  const MaxEntries: nat := 10

  /** `ToInt32`: the value JavaScript's bitwise operators give, `x` wrapped into signed 32 bits. */
  function ToInt32(x: int): (r: int)
    ensures -TwoTo31 <= r < TwoTo31
    ensures (x - r) % TwoTo32 == 0
  {
    var m := x % TwoTo32;
    if m >= TwoTo31 then m - TwoTo32 else m
  }

  /** Two signed 32-bit values that agree modulo 2^32 are equal. */
  lemma Int32Unique(a: int, b: int)
    requires -TwoTo31 <= a < TwoTo31 && -TwoTo31 <= b < TwoTo31
    requires (a - b) % TwoTo32 == 0
    ensures a == b
  {
    var d := a - b;
    assert d == TwoTo32 * (d / TwoTo32);
  }

  lemma DivisibleSum(a: int, b: int)
    requires a % TwoTo32 == 0 && b % TwoTo32 == 0
    ensures (a + b) % TwoTo32 == 0 && (a - b) % TwoTo32 == 0 && (31 * a) % TwoTo32 == 0
  {
    assert a == TwoTo32 * (a / TwoTo32);
    assert b == TwoTo32 * (b / TwoTo32);
    assert a + b == TwoTo32 * (a / TwoTo32 + b / TwoTo32);
    assert a - b == TwoTo32 * (a / TwoTo32 - b / TwoTo32);
    assert 31 * a == TwoTo32 * (31 * (a / TwoTo32));
  }

  /** Values congruent modulo 2^32 wrap to the same signed 32-bit value. */
  lemma ToInt32Congruent(x: int, y: int)
    requires (x - y) % TwoTo32 == 0
    ensures ToInt32(x) == ToInt32(y)
  {
    var rx, ry := ToInt32(x), ToInt32(y);
    DivisibleSum(x - y, x - rx);
    DivisibleSum((x - y) - (x - rx), y - ry);
    assert rx - ry == ((x - y) - (x - rx)) + (y - ry);
    Int32Unique(rx, ry);
  }

  /** One step of `#hashString`: `hash = ((hash << 5) - hash) + char; hash = hash & hash`. */
  function HashStep(h: int, c: char): int {
    ToInt32(ToInt32(h * 32) - h + c as int)
  }

  /** The hash of `s` as a number, folding `HashStep` over its characters from 0. */
  function HashValue(s: string): (h: int)
    ensures -TwoTo31 <= h < TwoTo31
  {
    if s == [] then 0 else HashStep(HashValue(s[..|s| - 1]), s[|s| - 1])
  }

  /** The polynomial the hash approximates: `s[0]·31^(n-1) + … + s[n-1]`, without wrap-around. */
  function Polynomial(s: string): int {
    if s == [] then 0 else 31 * Polynomial(s[..|s| - 1]) + s[|s| - 1] as int
  }

  /** Each step is `31·h + c` wrapped to 32 bits. */
  lemma HashStepIsWrappedPolynomialStep(h: int, c: char)
    ensures HashStep(h, c) == ToInt32(31 * h + c as int)
  {
    var w := ToInt32(h * 32);
    assert (h * 32 - w) % TwoTo32 == 0;
    assert (w - h + c as int) - (31 * h + c as int) == -(h * 32 - w);
    DivisibleSum(0, h * 32 - w);
    ToInt32Congruent(w - h + c as int, 31 * h + c as int);
  }

  /** The rolling hash is the polynomial hash reduced to signed 32 bits. */
  lemma {:induction false} HashValueIsWrappedPolynomial(s: string)
    ensures HashValue(s) == ToInt32(Polynomial(s))
  {
    if s != [] {
      var p, c := s[..|s| - 1], s[|s| - 1];
      HashValueIsWrappedPolynomial(p);
      HashStepIsWrappedPolynomialStep(HashValue(p), c);
      var x := Polynomial(p);
      var r := ToInt32(x);
      DivisibleSum(x - r, 0);
      assert (31 * x + c as int) - (31 * r + c as int) == 31 * (x - r);
      ToInt32Congruent(31 * x + c as int, 31 * r + c as int);
    }
  }

  /** A base-36 digit, `0`–`9` then `a`–`z`. */
  function Digit36(d: nat): (c: char)
    requires d < 36
    ensures c != '-'
  {
    if d < 10 then ('0' as int + d) as char else ('a' as int + d - 10) as char
  }

  /** The value of a base-36 digit, the inverse of `Digit36`. */
  function DigitValue36(c: char): nat {
    if '0' <= c <= '9' then c as int - '0' as int
    else if 'a' <= c <= 'z' then c as int - 'a' as int + 10
    else 0
  }

  /** `n.toString(36)` for a non-negative integer. */
  function NatToBase36(n: nat): (r: string)
    ensures r != [] && r[0] != '-'
  {
    if n < 36 then [Digit36(n)] else NatToBase36(n / 36) + [Digit36(n % 36)]
  }

  /** `n.toString(36)`. */
  function ToBase36(n: int): string {
    if n < 0 then "-" + NatToBase36(-n) else NatToBase36(n)
  }

  /** The number a string of base-36 digits denotes. */
  function Base36Value(s: string): nat {
    if s == [] then 0 else 36 * Base36Value(s[..|s| - 1]) + DigitValue36(s[|s| - 1])
  }

  /** Reading a base-36 rendering back: the reference inverse of `ToBase36`. */
  function ParseBase36(s: string): int {
    if s != [] && s[0] == '-' then -(Base36Value(s[1..]) as int) else Base36Value(s)
  }

  lemma {:induction false} NatToBase36RoundTrip(n: nat)
    ensures Base36Value(NatToBase36(n)) == n
  {
    if n >= 36 {
      NatToBase36RoundTrip(n / 36);
      var r := NatToBase36(n);
      assert r[..|r| - 1] == NatToBase36(n / 36);
    }
  }

  lemma ToBase36RoundTrip(n: int)
    ensures ParseBase36(ToBase36(n)) == n
  {
    if n < 0 {
      NatToBase36RoundTrip(-n);
      assert ToBase36(n)[1..] == NatToBase36(-n);
    } else {
      NatToBase36RoundTrip(n);
    }
  }

  /** `#hashString(s)`: the rolling hash rendered in base 36. */
  function HashString(s: string): (h: string)
    ensures h != [] && (h[0] == '-' <==> HashValue(s) < 0)
  {
    ToBase36(HashValue(s))
  }

  /** Two hash strings are equal exactly when the 32-bit hash values are. */
  lemma HashStringsEqualIffValuesEqual(a: string, b: string)
    ensures HashString(a) == HashString(b) <==> HashValue(a) == HashValue(b)
  {
    ToBase36RoundTrip(HashValue(a));
    ToBase36RoundTrip(HashValue(b));
  }

  datatype HistoryEntry = HistoryEntry(instructions: string, summary: string, timestamp: int, hash: string)

  type History = seq<HistoryEntry>

  /** The history after an operation that may fail, and whether it succeeded. */
  datatype Outcome = Outcome(ok: bool, history: History)

  /** `history.findIndex(entry => entry.hash === hash)`. */
  function FindHash(h: History, hash: string): (r: Option<nat>)
    ensures r.None? <==> forall j :: 0 <= j < |h| ==> h[j].hash != hash
    ensures r.Some? ==> r.value < |h| && h[r.value].hash == hash
    ensures r.Some? ==> forall j :: 0 <= j < r.value ==> h[j].hash != hash
  {
    if h == [] then None
    else if h[0].hash == hash then Some(0)
    else match FindHash(h[1..], hash)
      case None => None
      case Some(i) => Some(i + 1)
  }

  /** No two entries share a hash. */
  predicate DistinctHashes(h: History) {
    forall i, j :: 0 <= i < j < |h| ==> h[i].hash != h[j].hash
  }

  /** `h` without its element `i`: `splice(i, 1)`. */
  function RemoveAt(h: History, i: nat): (r: History)
    requires i < |h|
    ensures |r| == |h| - 1
    ensures forall j :: 0 <= j < i ==> r[j] == h[j]
    ensures forall j :: i <= j < |r| ==> r[j] == h[j + 1]
  {
    h[..i] + h[i + 1..]
  }

  /**
    `add(instructions, summary)` at time `now`. Instructions or a summary that trim to nothing
    fail and change nothing. An entry whose hash matches the trimmed instructions gets the new
    summary and time and moves to the front; otherwise a new entry goes in front and the list is
    cut to ten.
   */
  function Add(h: History, instructions: string, summary: string, now: int): (r: Outcome)
    ensures !r.ok <==> Trim(instructions) == [] || Trim(summary) == []
    ensures !r.ok ==> r.history == h
    ensures r.ok ==> |r.history| > 0 && r.history[0].hash == HashString(Trim(instructions))
                     && r.history[0].timestamp == now
  {
    var t := Trim(instructions);
    if t == [] || Trim(summary) == [] then Outcome(false, h)
    else
      var hash := HashString(t);
      match FindHash(h, hash)
      case Some(i) => Outcome(true, [h[i].(timestamp := now, summary := summary)] + RemoveAt(h, i))
      case None =>
        var grown := [HistoryEntry(t, Trim(summary), now, hash)] + h;
        Outcome(true, if |grown| > MaxEntries then grown[..MaxEntries] else grown)
  }

  /** New instructions: the new entry comes first, followed by the old entries, the oldest dropped past ten. */
  lemma AddNew(h: History, instructions: string, summary: string, now: int)
    requires Trim(instructions) != [] && Trim(summary) != []
    requires forall j :: 0 <= j < |h| ==> h[j].hash != HashString(Trim(instructions))
    ensures var r := Add(h, instructions, summary, now).history;
      && r[0] == HistoryEntry(Trim(instructions), Trim(summary), now, HashString(Trim(instructions)))
      && |r| == (if |h| < MaxEntries then |h| + 1 else MaxEntries)
      && r[1..] == h[..|r| - 1]
  {
  }

  /** Known instructions: that entry moves to the front with the new summary; the rest keep their order. */
  lemma AddExisting(h: History, instructions: string, summary: string, now: int, i: nat)
    requires Trim(instructions) != [] && Trim(summary) != []
    requires i < |h| && h[i].hash == HashString(Trim(instructions))
    requires forall j :: 0 <= j < i ==> h[j].hash != h[i].hash
    ensures var r := Add(h, instructions, summary, now).history;
      && |r| == |h|
      && r[0] == h[i].(timestamp := now, summary := summary)
      && r[1..] == RemoveAt(h, i)
  {
  }

  /** `add` keeps the list within ten entries once it is. */
  lemma AddBounded(h: History, instructions: string, summary: string, now: int)
    requires |h| <= MaxEntries
    ensures |Add(h, instructions, summary, now).history| <= MaxEntries
  {
  }

  /** `add` keeps hashes pairwise distinct. */
  lemma AddKeepsHashesDistinct(h: History, instructions: string, summary: string, now: int)
    requires DistinctHashes(h)
    ensures DistinctHashes(Add(h, instructions, summary, now).history)
  {
    var r := Add(h, instructions, summary, now);
    if r.ok {
      var hash := HashString(Trim(instructions));
      match FindHash(h, hash)
      case Some(i) =>
        var rest := RemoveAt(h, i);
        assert r.history == [h[i].(timestamp := now, summary := summary)] + rest;
        forall a, b | 0 <= a < b < |r.history|
          ensures r.history[a].hash != r.history[b].hash
        {
          var hb := if b - 1 < i then h[b - 1] else h[b];
          assert r.history[b] == hb;
          if a > 0 {
            var ha := if a - 1 < i then h[a - 1] else h[a];
            assert r.history[a] == ha;
          }
        }
      case None =>
        var grown := [HistoryEntry(Trim(instructions), Trim(summary), now, hash)] + h;
        forall a, b | 0 <= a < b < |grown|
          ensures grown[a].hash != grown[b].hash
        {
          assert grown[b] == h[b - 1];
        }
    }
  }

  /** `remove(i)`: an index outside the list fails and changes nothing; otherwise element `i` goes. */
  function Remove(h: History, i: int): (r: Outcome)
    ensures r.ok <==> 0 <= i < |h|
    ensures !r.ok ==> r.history == h
    ensures r.ok ==> |r.history| == |h| - 1
    ensures r.ok ==> forall j :: 0 <= j < i ==> r.history[j] == h[j]
    ensures r.ok ==> forall j :: i <= j < |r.history| ==> r.history[j] == h[j + 1]
  {
    if i < 0 || i >= |h| then Outcome(false, h) else Outcome(true, RemoveAt(h, i))
  }

  /** `get(i)`: the entry, or `null` outside the list. */
  function Get(h: History, i: int): (r: Option<HistoryEntry>)
    ensures r.Some? <==> 0 <= i < |h|
    ensures r.Some? ==> r.value == h[i]
  {
    if 0 <= i < |h| then Some(h[i]) else None
  }

  /** `getAll()`: a copy of the list, in order. */
  function GetAll(h: History): (r: History)
    ensures |r| == |h| && forall j :: 0 <= j < |h| ==> Get(h, j) == Some(r[j])
  {
    h
  }

  /** The `size` getter. */
  function Size(h: History): (n: nat)
    ensures forall i :: 0 <= i < n <==> Get(h, i).Some?
  {
    |h|
  }

  /** `clear()`. */
  function Clear(h: History): (r: History)
    ensures Size(r) == 0
  {
    []
  }

  /** An entry as stored: older versions may lack the hash. */
  datatype StoredEntry = StoredEntry(instructions: string, summary: string, timestamp: int, hash: Option<string>)

  /** The hash a loaded entry ends up with: its own when present and non-empty, else a fresh one. */
  function LoadedHash(e: StoredEntry): string {
    if e.hash.Some? && e.hash.value != "" then e.hash.value else HashString(e.instructions)
  }

  /**
    `loadFromStorage()`: `None` when the stored text does not parse or is not an array, which
    gives an empty history; otherwise every entry is kept, in order, with a hash filled in.
   */
  function LoadFromStorage(parsed: Option<seq<StoredEntry>>): (h: History)
    ensures parsed.None? ==> h == []
    ensures parsed.Some? ==> |h| == |parsed.value|
    ensures parsed.Some? ==> forall j :: 0 <= j < |h| ==>
      var e := parsed.value[j];
      && h[j].instructions == e.instructions && h[j].summary == e.summary && h[j].timestamp == e.timestamp
      && (e.hash.Some? && e.hash.value != "" ==> h[j].hash == e.hash.value)
      && (e.hash.None? || e.hash == Some("") ==> h[j].hash == HashString(e.instructions))
  {
    match parsed
    case None => []
    case Some(es) => seq(|es|, j requires 0 <= j < |es| => HistoryEntry(es[j].instructions, es[j].summary, es[j].timestamp, LoadedHash(es[j])))
  }
}

=== FILE: instructions_manager.dfy ===
/**
  The instructions manager (`src/backends/InstructionsManager.js`): saving the scoring
  instructions, with a short summary title recorded in the instruction history.
 */
module InstructionsManager {
  import opened JsString
  import opened InstructionsHistory

  datatype Manager = Manager(current: string, history: History)

  datatype SaveResult = SaveResult(success: bool, message: string, shouldClearCache: bool)

  /** The manager after `saveInstructions`, and the object it returns. */
  datatype Saved = Saved(manager: Manager, result: SaveResult)

  const Ellipsis: string := "…"

  /**
    `#generateSummary`: the words of the trimmed text (`split(/\s+/)`), all of them joined by
    single spaces when there are at most three, else the first three, ` … ` and the last word.
   */
  function GenerateSummary(instructions: string): (summary: string)
    ensures Trim(instructions) == [] ==> summary == []
  {
    SummaryOf(Words(Trim(instructions)))
  }

  function SummaryOf(words: seq<string>): string {
    if |words| <= 3 then Join(words, " ")
    else Join(words[..3], " ") + " " + Ellipsis + " " + words[|words| - 1]
  }

  /**
    The words of the summary of the words `words` (those of the trimmed text) are the first
    three words, then `…` and the last word, or all of them.
   */
  lemma SummaryOfWords(words: seq<string>)
    requires forall i :: 0 <= i < |words| ==> words[i] != [] && NoWhitespace(words[i])
    ensures Words(SummaryOf(words)) == if |words| <= 3 then words else words[..3] + [Ellipsis, words[|words| - 1]]
  {
    if |words| <= 3 {
      WordsOfJoin(words);
    } else {
      LongSummaryWords(words);
    }
  }

  /** Joining the first three words, `…` and the last word with spaces gives text whose words are exactly those. */
  lemma LongSummaryWords(words: seq<string>)
    requires |words| > 3
    requires forall i :: 0 <= i < |words| ==> words[i] != [] && NoWhitespace(words[i])
    ensures Words(Join(words[..3], " ") + " " + Ellipsis + " " + words[|words| - 1]) == words[..3] + [Ellipsis, words[|words| - 1]]
  {
    var last := words[|words| - 1];
    var head := words[..3];
    var parts := head + [Ellipsis, last];
    JoinAppend(head, [Ellipsis, last], " ");
    assert Join([Ellipsis, last], " ") == Ellipsis + " " + last by {
      assert [Ellipsis, last][1..] == [last];
    }
    assert Join(head, " ") + " " + Ellipsis + " " + last == Join(parts, " ");
    assert forall i :: 0 <= i < |parts| ==> parts[i] != [] && NoWhitespace(parts[i]) by {
      assert !IsWhitespace(Ellipsis[0]);
      forall i | 0 <= i < |parts| ensures parts[i] != [] && NoWhitespace(parts[i]) {
        if i < 3 {
          assert parts[i] == words[i];
        } else if i == 4 {
          assert parts[i] == words[|words| - 1];
        }
      }
    }
    WordsOfJoin(parts);
  }

  /** Text that is not blank gets a summary that is not blank, so `add` accepts the pair. */
  lemma SummaryNotBlank(instructions: string)
    requires Trim(instructions) != []
    ensures Trim(GenerateSummary(instructions)) != []
  {
    TrimmedHasWords(Trim(instructions));
    SummaryOfWords(Words(Trim(instructions)));
    WordsNotBlank(GenerateSummary(instructions));
  }

  /**
    `saveInstructions(text)` at time `now`. Blank text fails and changes nothing; otherwise the
    trimmed text becomes current and goes to the history with its summary.
   */
  function SaveInstructions(m: Manager, text: string, now: int): (r: Saved)
    ensures !r.result.success <==> Trim(text) == []
    ensures !r.result.success ==> r.manager == m && !r.result.shouldClearCache
    ensures r.result.success ==> r.result.shouldClearCache && r.manager.current == Trim(text)
    ensures r.result.success ==> |r.manager.history| > 0
    ensures r.result.success ==> r.manager.history[0].hash == HashString(Trim(text)) && r.manager.history[0].timestamp == now
  {
    var t := Trim(text);
    if t == [] then Saved(m, SaveResult(false, "Instructions cannot be empty", false))
    else
      var summary := GenerateSummary(t);
      SummaryNotBlank(t);
      TrimIdempotent(text);
      var added := Add(m.history, t, summary, now);
      Saved(Manager(t, added.history),
            SaveResult(true, "Scoring instructions saved! New tweets will use these instructions.", true))
  }

  /** `getCurrentInstructions()`. */
  function GetCurrentInstructions(m: Manager): (text: string)
    ensures text == m.current
  {
    m.current
  }

  /** After a save the current instructions are the trimmed text, or unchanged when it was blank. */
  lemma CurrentAfterSave(m: Manager, text: string, now: int)
    ensures GetCurrentInstructions(SaveInstructions(m, text, now).manager)
         == if Trim(text) == [] then GetCurrentInstructions(m) else Trim(text)
  {
  }

  /** Saving keeps the history within ten entries and its hashes distinct. */
  lemma SaveKeepsHistoryInvariant(m: Manager, text: string, now: int)
    requires |m.history| <= MaxEntries && DistinctHashes(m.history)
    ensures |SaveInstructions(m, text, now).manager.history| <= MaxEntries
    ensures DistinctHashes(SaveInstructions(m, text, now).manager.history)
  {
    var t := Trim(text);
    if t != [] {
      AddBounded(m.history, t, GenerateSummary(t), now);
      AddKeepsHashesDistinct(m.history, t, GenerateSummary(t), now);
    }
  }
}

=== FILE: jsstring.dfy ===
/**
  The handful of JavaScript string primitives the scripts rely on, over `seq<char>`:
  `trim`, `startsWith`/`endsWith`, `indexOf`/`includes`, `\d` runs, decimal rendering,
  ASCII `toLowerCase`, `split(/\s+/)` and `join`.
 */
module JsString {
  import opened Wrappers

  /** The characters `String.prototype.trim` and the regex class `\s` treat as white space. */
  predicate IsWhitespace(c: char) {
    || c == ' ' || c == '\t' || c == '\n' || c == '\r' || c == '\U{B}' || c == '\U{C}'
    || c == '\U{A0}' || c == '\U{1680}' || ('\U{2000}' <= c <= '\U{200A}')
    || c == '\U{2028}' || c == '\U{2029}' || c == '\U{202F}' || c == '\U{205F}'
    || c == '\U{3000}' || c == '\U{FEFF}'
  }

  /** The regex class `\d`. */
  predicate IsDigit(c: char) {
    '0' <= c <= '9'
  }

  lemma DigitIsNotWhitespace(c: char)
    requires IsDigit(c)
    ensures !IsWhitespace(c)
  {
  }

  predicate AllWhitespace(s: string) {
    forall i :: 0 <= i < |s| ==> IsWhitespace(s[i])
  }

  predicate AllDigits(s: string) {
    forall i :: 0 <= i < |s| ==> IsDigit(s[i])
  }

  /** A string `trim` leaves alone: empty, or starting and ending with a non-space character. */
  predicate IsTrimmed(s: string) {
    s == [] || (!IsWhitespace(s[0]) && !IsWhitespace(s[|s| - 1]))
  }

  /** Number of leading white-space characters. */
  function LeadingSpace(s: string): (n: nat)
    ensures n <= |s|
    ensures AllWhitespace(s[..n])
    ensures n < |s| ==> !IsWhitespace(s[n])
  {
    if s == [] || !IsWhitespace(s[0]) then 0
    else
      var k := LeadingSpace(s[1..]);
      assert s[1..][..k] == s[1..k + 1];
      1 + k
  }

  /** Length of `s` once its trailing white space is cut. */
  function TrailingEnd(s: string): (n: nat)
    ensures n <= |s|
    ensures AllWhitespace(s[n..])
    ensures n > 0 ==> !IsWhitespace(s[n - 1])
  {
    if s == [] || !IsWhitespace(s[|s| - 1]) then |s|
    else
      var k := TrailingEnd(s[..|s| - 1]);
      assert s[k..] == s[..|s| - 1][k..] + [s[|s| - 1]];
      k
  }

  /** `String.prototype.trim`. */
  function Trim(s: string): (r: string)
    ensures IsTrimmed(r)
    ensures exists a, b :: 0 <= a <= b <= |s| && r == s[a..b] && AllWhitespace(s[..a]) && AllWhitespace(s[b..])
  {
    var a := LeadingSpace(s);
    var t := s[a..];
    var b := TrailingEnd(t);
    assert t[..b] == s[a..a + b];
    assert t[b..] == s[a + b..];
    assert b > 0 ==> !IsWhitespace(t[0]);
    t[..b]
  }

  lemma TrimOfTrimmed(s: string)
    requires IsTrimmed(s)
    ensures Trim(s) == s
  {
    assert LeadingSpace(s) == 0;
    assert s[0..] == s;
    assert TrailingEnd(s) == |s|;
  }

  /** Trimming white-space padding around a trimmed string gives that string back. */
  lemma TrimPadded(pre: string, r: string, post: string)
    requires AllWhitespace(pre) && AllWhitespace(post) && IsTrimmed(r) && r != []
    ensures Trim(pre + r + post) == r
  {
    var s := pre + r + post;
    LeadingSpacePadded(pre, r + post);
    assert s == pre + (r + post);
    assert LeadingSpace(s) == |pre|;
    var t := s[|pre|..];
    assert t == r + post;
    TrailingEndPadded(r, post);
  }

  lemma {:induction false} LeadingSpacePadded(pre: string, rest: string)
    requires AllWhitespace(pre)
    requires rest != [] && !IsWhitespace(rest[0])
    ensures LeadingSpace(pre + rest) == |pre|
  {
    if pre != [] {
      assert (pre + rest)[1..] == pre[1..] + rest;
      LeadingSpacePadded(pre[1..], rest);
    } else {
      assert pre + rest == rest;
    }
  }

  lemma {:induction false} TrailingEndPadded(r: string, post: string)
    requires AllWhitespace(post)
    requires r != [] && !IsWhitespace(r[|r| - 1])
    ensures TrailingEnd(r + post) == |r|
    ensures (r + post)[..|r|] == r
  {
    if post != [] {
      assert (r + post)[..|r + post| - 1] == r + post[..|post| - 1];
      TrailingEndPadded(r, post[..|post| - 1]);
    } else {
      assert r + post == r;
    }
  }

  lemma TrimIdempotent(s: string)
    ensures Trim(Trim(s)) == Trim(s)
  {
    TrimOfTrimmed(Trim(s));
  }

  predicate StartsWith(s: string, p: string) {
    |p| <= |s| && s[..|p|] == p
  }

  predicate EndsWith(s: string, p: string) {
    |p| <= |s| && s[|s| - |p|..] == p
  }

  /** `p` occurs in `s` starting at index `i`. */
  predicate OccursAt(s: string, p: string, i: int) {
    0 <= i && i + |p| <= |s| && s[i..i + |p|] == p
  }

  /** A string placed between two others occurs where the first one ends. */
  lemma OccursBetween(x: string, p: string, y: string)
    ensures OccursAt(x + (p + y), p, |x|)
  {
    assert (x + (p + y))[|x|..|x| + |p|] == p;
  }

  /** `s.includes(p)`. */
  predicate Contains(s: string, p: string) {
    exists i | 0 <= i <= |s| :: OccursAt(s, p, i)
  }

  /** `s.indexOf(p, from)`, with `None` for -1. */
  function IndexOfFrom(s: string, p: string, from: nat): (r: Option<nat>)
    ensures r.Some? ==> from <= r.value && OccursAt(s, p, r.value)
    ensures r.Some? ==> forall j :: from <= j < r.value ==> !OccursAt(s, p, j)
    ensures r.None? ==> forall j :: from <= j ==> !OccursAt(s, p, j)
    decreases |s| - from
  {
    if from + |p| > |s| then None
    else if s[from..from + |p|] == p then Some(from)
    else IndexOfFrom(s, p, from + 1)
  }

  /** `s.indexOf(p)`. */
  function IndexOf(s: string, p: string): (r: Option<nat>)
    ensures r.Some? <==> Contains(s, p)
    ensures r.Some? ==> OccursAt(s, p, r.value) && forall j :: 0 <= j < r.value ==> !OccursAt(s, p, j)
  {
    IndexOfFrom(s, p, 0)
  }

  /**
    A pattern that does not contain the separator `c` never straddles it: it occurs in
    `x + [c] + y` only if it occurs in `x` or in `y`.
   */
  lemma NoOccurrenceAcross(x: string, c: char, y: string, p: string)
    requires p != [] && c !in p
    requires !Contains(x, p) && !Contains(y, p)
    ensures !Contains(x + [c] + y, p)
  {
    var s := x + [c] + y;
    forall i | 0 <= i <= |s|
      ensures !OccursAt(s, p, i)
    {
      if i + |p| > |s| {
      } else if i + |p| <= |x| {
        assert s[i..i + |p|] == x[i..i + |p|];
        assert !OccursAt(x, p, i);
      } else if i > |x| {
        assert s[i..i + |p|] == y[i - |x| - 1..i - |x| - 1 + |p|];
        assert !OccursAt(y, p, i - |x| - 1);
      } else {
        assert s[i..i + |p|][|x| - i] == c != p[|x| - i];
      }
    }
  }

  /** A pattern holding a character the string lacks does not occur in it. */
  lemma NoOccurrenceMissingChar(s: string, p: string, c: char)
    requires c in p && c !in s
    ensures !Contains(s, p)
  {
    var k :| 0 <= k < |p| && p[k] == c;
    forall i | 0 <= i <= |s|
      ensures !OccursAt(s, p, i)
    {
      if i + |p| <= |s| {
        assert s[i..i + |p|][k] == s[i + k] != c;
      }
    }
  }

  /**
    When `x` does not contain `p` and `c` is not in `p`, the first occurrence of `p` in
    `x + [c] + y` at or after any `from <= |x| + 1` is the first one inside `y`, shifted.
   */
  lemma IndexOfFromAcross(x: string, c: char, y: string, p: string, from: nat)
    requires p != [] && c !in p && !Contains(x, p)
    requires from <= |x| + 1
    requires StartsWith(y, p)
    ensures IndexOfFrom(x + [c] + y, p, from) == Some(|x| + 1)
  {
    var s := x + [c] + y;
    assert s[|x| + 1..|x| + 1 + |p|] == y[..|p|];
    forall j | from <= j < |x| + 1
      ensures !OccursAt(s, p, j)
    {
      if j + |p| <= |x| {
        assert s[j..j + |p|] == x[j..j + |p|];
        assert !OccursAt(x, p, j);
      } else if j + |p| <= |s| {
        assert s[j..j + |p|][|x| - j] == c != p[|x| - j];
      }
    }
    IndexOfFromIs(s, p, from, |x| + 1);
  }

  /** `indexOf(p, from)` is pinned down by an occurrence at `k` and none in between. */
  lemma IndexOfFromIs(s: string, p: string, from: nat, k: nat)
    requires from <= k && OccursAt(s, p, k)
    requires forall j :: from <= j < k ==> !OccursAt(s, p, j)
    ensures IndexOfFrom(s, p, from) == Some(k)
  {
  }

  lemma EmptyHasNoOccurrence(p: string)
    requires p != []
    ensures !Contains("", p)
  {
  }

  /** Index just past the maximal run of `\d` characters starting at `from`. */
  function DigitRunEnd(s: string, from: nat): (e: nat)
    requires from <= |s|
    ensures from <= e <= |s|
    ensures AllDigits(s[from..e])
    ensures e < |s| ==> !IsDigit(s[e])
    decreases |s| - from
  {
    if from < |s| && IsDigit(s[from]) then
      var e := DigitRunEnd(s, from + 1);
      assert s[from..e] == [s[from]] + s[from + 1..e];
      e
    else from
  }

  /** Index just past the run of white space starting at `from` (what `\s*` consumes). */
  function SpaceRunEnd(s: string, from: nat): (e: nat)
    requires from <= |s|
    ensures from <= e <= |s|
    ensures AllWhitespace(s[from..e])
    ensures e < |s| ==> !IsWhitespace(s[e])
    decreases |s| - from
  {
    if from < |s| && IsWhitespace(s[from]) then
      var e := SpaceRunEnd(s, from + 1);
      assert s[from..e] == [s[from]] + s[from + 1..e];
      e
    else from
  }

  /** The digit run starting at `from` ends exactly where the digits stop. */
  lemma {:induction false} DigitRunFrom(s: string, from: nat, e: nat)
    requires from <= e <= |s|
    requires AllDigits(s[from..e])
    requires e == |s| || !IsDigit(s[e])
    ensures DigitRunEnd(s, from) == e
    ensures s[from..e] == s[from..DigitRunEnd(s, from)]
    decreases e - from
  {
    if from < e {
      assert s[from] == s[from..e][0];
      assert s[from + 1..e] == s[from..e][1..];
      DigitRunFrom(s, from + 1, e);
    }
  }

  /** Value of a string of decimal digits (what `parseInt(d, 10)` yields for a digit string). */
  function DigitsValue(d: string): nat
    requires AllDigits(d)
  {
    if d == [] then 0
    else DigitsValue(d[..|d| - 1]) * 10 + (d[|d| - 1] as int - '0' as int)
  }

  function DigitChar(k: nat): (c: char)
    requires k < 10
    ensures IsDigit(c) && c as int - '0' as int == k
  {
    ('0' as int + k) as char
  }

  /** Decimal rendering of a natural number (`String(n)`). */
  function NatToString(n: nat): (r: string)
    ensures r != [] && AllDigits(r)
    ensures DigitsValue(r) == n
  {
    var r := if n < 10 then [DigitChar(n)] else NatToString(n / 10) + [DigitChar(n % 10)];
    assert r[..|r| - 1] == (if n < 10 then [] else NatToString(n / 10));
    r
  }

  /** A pattern that starts with a non-digit does not occur in a digit string. */
  lemma NoOccurrenceInDigits(d: string, p: string)
    requires AllDigits(d) && p != [] && !IsDigit(p[0])
    ensures !Contains(d, p)
  {
  }

  /** `toLowerCase`, for the ASCII letters. */
  function ToLower(s: string): (r: string)
    ensures |r| == |s|
  {
    seq(|s|, i requires 0 <= i < |s| => if 'A' <= s[i] <= 'Z' then (s[i] as int + 32) as char else s[i])
  }

  /** Lower-casing works character by character, so it distributes over concatenation. */
  lemma ToLowerConcat(x: string, y: string)
    ensures ToLower(x + y) == ToLower(x) + ToLower(y)
  {
    assert forall i :: 0 <= i < |x| ==> (x + y)[i] == x[i];
    assert forall i :: |x| <= i < |x| + |y| ==> (x + y)[i] == y[i - |x|];
  }

  /** Lower-casing maps white space to white space and nothing else to it. */
  lemma ToLowerKeepsWhitespace(s: string)
    ensures forall i :: 0 <= i < |s| ==> (IsWhitespace(ToLower(s)[i]) <==> IsWhitespace(s[i]))
    ensures AllWhitespace(s) <==> AllWhitespace(ToLower(s))
    ensures IsTrimmed(s) <==> IsTrimmed(ToLower(s))
  {
  }

  /** A text that is not blank is its trimmed text between white space. */
  lemma TrimSplit(s: string) returns (pre: string, post: string)
    requires Trim(s) != []
    ensures s == pre + Trim(s) + post && AllWhitespace(pre) && AllWhitespace(post)
  {
    var a, b :| 0 <= a <= b <= |s| && Trim(s) == s[a..b] && AllWhitespace(s[..a]) && AllWhitespace(s[b..]);
    pre, post := s[..a], s[b..];
    SliceSplit(s, a, b);
  }

  lemma SliceSplit(s: string, a: nat, b: nat)
    requires a <= b <= |s|
    ensures s == s[..a] + s[a..b] + s[b..]
  {
    assert s == s[..b] + s[b..];
    assert s[..b] == s[..a] + s[a..b];
  }

  /** `s.toLowerCase().trim()` equals `s.trim().toLowerCase()`. */
  lemma ToLowerTrim(s: string)
    ensures Trim(ToLower(s)) == ToLower(Trim(s))
  {
    if Trim(s) == [] {
      LowerBlank(s);
    } else {
      var pre, post := TrimSplit(s);
      LowerPadded(pre, Trim(s), post);
    }
  }

  /** Lower-casing a blank text leaves it blank. */
  lemma LowerBlank(s: string)
    requires Trim(s) == []
    ensures Trim(ToLower(s)) == []
  {
    TrimEmptyIffAllWhitespace(s);
    TrimEmptyIffAllWhitespace(ToLower(s));
    ToLowerKeepsWhitespace(s);
  }

  /** Lower-casing a trimmed text between white space keeps that shape. */
  lemma LowerPadded(pre: string, r: string, post: string)
    requires AllWhitespace(pre) && AllWhitespace(post) && IsTrimmed(r) && r != []
    ensures Trim(ToLower(pre + r + post)) == ToLower(r)
  {
    ToLowerConcat(pre + r, post);
    ToLowerConcat(pre, r);
    ToLowerKeepsWhitespace(pre);
    ToLowerKeepsWhitespace(r);
    ToLowerKeepsWhitespace(post);
    TrimPadded(ToLower(pre), ToLower(r), ToLower(post));
  }

  /** `a.join(sep)`. */
  function Join(parts: seq<string>, sep: string): string {
    if parts == [] then ""
    else if |parts| == 1 then parts[0]
    else parts[0] + sep + Join(parts[1..], sep)
  }

  /** `s.split(sep)[0]` for a one-character separator. */
  function BeforeFirst(s: string, sep: char): (r: string)
    ensures sep !in r
    ensures StartsWith(s, r)
  {
    if s == [] || s[0] == sep then ""
    else [s[0]] + BeforeFirst(s[1..], sep)
  }

  /** `BeforeFirst` stops at the first separator: it is all of `s`, or the separator follows it. */
  lemma {:induction false} BeforeFirstStops(s: string, sep: char)
    ensures var r := BeforeFirst(s, sep); r == s || s[|r|] == sep
  {
    if s != [] && s[0] != sep {
      BeforeFirstStops(s[1..], sep);
    }
  }

  /** The words of `s`: maximal runs of non-white-space characters, in order. */
  function Words(s: string): (ws: seq<string>)
    ensures forall i :: 0 <= i < |ws| ==> ws[i] != [] && NoWhitespace(ws[i])
    decreases |s|
  {
    var a := LeadingSpace(s);
    if a == |s| then []
    else
      var rest := s[a..];
      var e := WordEnd(rest);
      [rest[..e]] + Words(rest[e..])
  }

  predicate NoWhitespace(s: string) {
    forall i :: 0 <= i < |s| ==> !IsWhitespace(s[i])
  }

  function WordEnd(s: string): (e: nat)
    requires s != [] && !IsWhitespace(s[0])
    ensures 0 < e <= |s|
    ensures NoWhitespace(s[..e])
    ensures e < |s| ==> IsWhitespace(s[e])
  {
    if |s| == 1 || IsWhitespace(s[1]) then 1
    else
      var k := WordEnd(s[1..]);
      assert s[..k + 1] == [s[0]] + s[1..][..k];
      k + 1
  }

  /** `trim` gives the empty string exactly for all-white-space strings. */
  lemma TrimEmptyIffAllWhitespace(s: string)
    ensures Trim(s) == [] <==> AllWhitespace(s)
  {
    var a := LeadingSpace(s);
    if AllWhitespace(s) {
      assert a == |s|;
    } else {
      var k :| 0 <= k < |s| && !IsWhitespace(s[k]);
      assert s[..k + 1][k] == s[k];
      assert a <= k;
      assert s[a..][..TrailingEnd(s[a..])] != [] by {
        var t := s[a..];
        assert t[0] == s[a];
        assert !IsWhitespace(t[0]);
        assert t[0..][0] == t[0];
        assert TrailingEnd(t) > 0;
      }
    }
  }

  /** A word followed by nothing or by white space ends where the word does. */
  lemma {:induction false} WordEndOfWord(w: string, tail: string)
    requires w != [] && NoWhitespace(w)
    requires tail == [] || IsWhitespace(tail[0])
    ensures WordEnd(w + tail) == |w|
  {
    var s := w + tail;
    if |w| > 1 {
      assert s[1..] == w[1..] + tail;
      WordEndOfWord(w[1..], tail);
    }
  }

  /** One space before a string that starts with a word does not change its words. */
  lemma WordsAfterSpace(j: string)
    requires j != [] && !IsWhitespace(j[0])
    ensures Words(" " + j) == Words(j)
  {
    var s := " " + j;
    assert s[1..] == j;
    assert LeadingSpace(j) == 0;
    assert LeadingSpace(s) == 1;
    assert s[1..] == j[0..];
  }

  /** `join` of a concatenation: the two joins with one separator between them. */
  lemma {:induction false} JoinAppend(a: seq<string>, b: seq<string>, sep: string)
    requires a != [] && b != []
    ensures Join(a + b, sep) == Join(a, sep) + sep + Join(b, sep)
  {
    if |a| > 1 {
      assert (a + b)[1..] == a[1..] + b;
      JoinAppend(a[1..], b, sep);
    } else {
      assert (a + b)[1..] == b;
    }
  }

  /** The joined words start with the first word. */
  lemma {:induction false} JoinStartsWithFirst(ws: seq<string>, sep: string)
    requires ws != []
    ensures StartsWith(Join(ws, sep), ws[0])
  {
    if |ws| > 1 {
      assert Join(ws, sep) == ws[0] + (sep + Join(ws[1..], sep));
    }
  }

  /** Splitting words joined by single spaces gives the words back. */
  lemma {:induction false} WordsOfJoin(ws: seq<string>)
    requires forall i :: 0 <= i < |ws| ==> ws[i] != [] && NoWhitespace(ws[i])
    ensures Words(Join(ws, " ")) == ws
  {
    if ws == [] {
    } else if |ws| == 1 {
      var w := ws[0];
      assert Join(ws, " ") == w;
      assert LeadingSpace(w) == 0;
      assert w[0..] == w;
      WordEndOfWord(w, "");
      assert w + "" == w;
      assert w[|w|..] == [];
    } else {
      var w, j := ws[0], Join(ws[1..], " ");
      var s := w + " " + j;
      assert Join(ws, " ") == s;
      JoinStartsWithFirst(ws[1..], " ");
      assert j[..|ws[1]|] == ws[1];
      assert j != [] && j[0] == ws[1][0];
      assert LeadingSpace(s) == 0;
      assert s[0..] == s;
      assert s == w + (" " + j);
      WordEndOfWord(w, " " + j);
      assert s[..|w|] == w;
      assert s[|w|..] == " " + j;
      WordsAfterSpace(j);
      WordsOfJoin(ws[1..]);
    }
  }

  /** Words never contain white space, so a string whose words are not all gone is not blank. */
  lemma WordsNotBlank(s: string)
    requires Words(s) != []
    ensures Trim(s) != []
  {
    var a := LeadingSpace(s);
    assert a < |s|;
    assert !IsWhitespace(s[a]);
    TrimEmptyIffAllWhitespace(s);
  }

  /** A trimmed non-empty string has at least one word. */
  lemma TrimmedHasWords(t: string)
    requires IsTrimmed(t) && t != []
    ensures Words(t) != []
  {
    assert LeadingSpace(t) == 0;
  }

  /**
    The GetSubstitution operation of ECMA-262 for a string pattern, which has no capture
    groups: in the replacement text `$$` stands for a dollar sign, `$&` for the matched text,
    `` $` `` for the text before the match and `$'` for the text after it; any other `$`
    stands for itself.
   */
  function Substitution(template: string, matched: string, before: string, after: string): string
    decreases |template|
  {
    if template == [] then []
    else if template[0] == '$' && |template| >= 2 && IsDollarPattern(template[1])
    then DollarPattern(template[1], matched, before, after) + Substitution(template[2..], matched, before, after)
    else [template[0]] + Substitution(template[1..], matched, before, after)
  }

  /** The characters that make a `$` pattern in a replacement for a string pattern. */
  predicate IsDollarPattern(c: char) {
    c == '$' || c == '&' || c == '`' || c == '\''
  }

  /** What `$c` stands for. */
  function DollarPattern(c: char, matched: string, before: string, after: string): string
    requires IsDollarPattern(c)
  {
    match c
    case '$' => "$"
    case '&' => matched
    case '`' => before
    case _ => after
  }

  /** A replacement without a dollar sign is inserted as it is. */
  lemma {:induction false} SubstitutionWithoutDollar(template: string, matched: string, before: string, after: string)
    requires '$' !in template
    ensures Substitution(template, matched, before, after) == template
  {
    if template != [] {
      assert template == [template[0]] + template[1..];
      SubstitutionWithoutDollar(template[1..], matched, before, after);
    }
  }

  /** Text without a dollar sign at the front of the replacement is copied as it is. */
  lemma {:induction false} SubstitutionPlainPrefix(a: string, b: string, matched: string, before: string, after: string)
    requires '$' !in a
    ensures Substitution(a + b, matched, before, after) == a + Substitution(b, matched, before, after)
  {
    if a != [] {
      var t := a + b;
      var x := Substitution(b, matched, before, after);
      assert t[0] == a[0] && a[0] != '$' && t[1..] == a[1..] + b;
      assert Substitution(t, matched, before, after) == [a[0]] + Substitution(a[1..] + b, matched, before, after);
      SubstitutionPlainPrefix(a[1..], b, matched, before, after);
      assert [a[0]] + (a[1..] + x) == ([a[0]] + a[1..]) + x;
      assert a == [a[0]] + a[1..];
    } else {
      assert a + b == b;
    }
  }

  /** Every dollar sign doubled: the text a caller must pass to have `t` inserted literally. */
  function EscapeDollars(t: string): (r: string)
    ensures |r| >= |t|
  {
    if t == [] then [] else (if t[0] == '$' then "$$" else [t[0]]) + EscapeDollars(t[1..])
  }

  /** Doubling the dollar signs makes the substitution insert the text unchanged. */
  lemma {:induction false} SubstitutionOfEscaped(t: string, matched: string, before: string, after: string)
    ensures Substitution(EscapeDollars(t), matched, before, after) == t
  {
    if t != [] {
      var e := EscapeDollars(t);
      SubstitutionOfEscaped(t[1..], matched, before, after);
      if t[0] == '$' {
        assert e == "$$" + EscapeDollars(t[1..]);
        assert e[2..] == EscapeDollars(t[1..]);
      } else {
        assert e == [t[0]] + EscapeDollars(t[1..]);
        assert e[1..] == EscapeDollars(t[1..]);
      }
      assert t == [t[0]] + t[1..];
    }
  }

  /**
    `s.replace(pattern, replacement)` with a string pattern: only the first occurrence is
    replaced, by the replacement with its `$` patterns expanded; no occurrence leaves `s`
    as it is.
   */
  function ReplaceFirst(s: string, pattern: string, replacement: string): (r: string)
    ensures IndexOf(s, pattern).None? ==> r == s
    ensures IndexOf(s, pattern).Some? ==>
      var i := IndexOf(s, pattern).value;
      i + |pattern| <= |s| && s[i..i + |pattern|] == pattern
      && r == s[..i] + Substitution(replacement, pattern, s[..i], s[i + |pattern|..]) + s[i + |pattern|..]
  {
    match IndexOf(s, pattern)
    case None => s
    case Some(i) =>
      s[..i] + Substitution(replacement, s[i..i + |pattern|], s[..i], s[i + |pattern|..]) + s[i + |pattern|..]
  }

  /** A replacement without a dollar sign is spliced in place of the first occurrence as it is. */
  lemma ReplaceFirstWithoutDollar(s: string, pattern: string, replacement: string)
    requires '$' !in replacement
    ensures IndexOf(s, pattern).None? ==> ReplaceFirst(s, pattern, replacement) == s
    ensures IndexOf(s, pattern).Some? ==>
      var i := IndexOf(s, pattern).value;
      i + |pattern| <= |s| && ReplaceFirst(s, pattern, replacement) == s[..i] + replacement + s[i + |pattern|..]
  {
    if IndexOf(s, pattern).Some? {
      var i := IndexOf(s, pattern).value;
      SubstitutionWithoutDollar(replacement, pattern, s[..i], s[i + |pattern|..]);
    }
  }

  /** A `$` pattern at the front of the replacement is expanded. */
  lemma SubstitutionDollarStep(c: char, rest: string, matched: string, before: string, after: string)
    requires IsDollarPattern(c)
    ensures Substitution(['$', c] + rest, matched, before, after)
         == DollarPattern(c, matched, before, after) + Substitution(rest, matched, before, after)
  {
    assert (['$', c] + rest)[2..] == rest;
  }

  /** When the whole text is the pattern, the result is the expanded replacement with nothing around it. */
  lemma ReplaceWholeText(m: string, replacement: string)
    ensures ReplaceFirst(m, m, replacement) == Substitution(replacement, m, "", "")
  {
    assert OccursAt(m, m, 0);
    assert IndexOf(m, m) == Some(0);
    assert m[..0] == "" && m[|m|..] == "";
  }

  /** `$$` gives one dollar sign and `$&` the matched text. */
  lemma SubstitutionExample(m: string)
    ensures Substitution("Hide " + "$$" + " and " + "$&" + " posts", m, "", "") == "Hide $ and " + m + " posts"
  {
    var r0 := "$$" + (" and " + "$&" + " posts");
    assert "Hide " + "$$" + " and " + "$&" + " posts" == "Hide " + r0;
    ExampleFromDollars(m);
    SubstitutionPlainPrefix("Hide ", r0, m, "", "");
  }

  lemma ExampleFromDollars(m: string)
    ensures Substitution("$$" + (" and " + "$&" + " posts"), m, "", "") == "$ and " + m + " posts"
  {
    ExampleFromAnd(m);
    SubstitutionDollarStep('$', " and " + "$&" + " posts", m, "", "");
  }

  lemma ExampleFromAnd(m: string)
    ensures Substitution(" and " + "$&" + " posts", m, "", "") == " and " + m + " posts"
  {
    ExampleFromMatch(m);
    SubstitutionPlainPrefix(" and ", "$&" + " posts", m, "", "");
    assert " and " + "$&" + " posts" == " and " + ("$&" + " posts");
    assert " and " + (m + " posts") == " and " + m + " posts";
  }

  lemma ExampleFromMatch(m: string)
    ensures Substitution("$&" + " posts", m, "", "") == m + " posts"
  {
    SubstitutionPlainPrefix(" posts", "", m, "", "");
    assert " posts" + "" == " posts";
    SubstitutionDollarStep('&', " posts", m, "", "");
  }

  /**
    A replacement that mentions `$$` and `$&` is not inserted as typed: the first becomes one
    dollar sign and the second the matched text itself.
   */
  lemma ReplaceExpandsDollars(m: string)
    ensures ReplaceFirst(m, m, "Hide " + "$$" + " and " + "$&" + " posts") == "Hide $ and " + m + " posts"
  {
    ReplaceWholeText(m, "Hide " + "$$" + " and " + "$&" + " posts");
    SubstitutionExample(m);
  }
}

=== FILE: messages.dfy ===
/**
  Values shared by the rating records: chat messages sent to OpenRouter, the question/answer
  turns shown in a tooltip, and the loosely typed metadata bag attached to a rating.
 */
module Messages {

  datatype Role = System | User | Assistant

  /** One part of a message's `content` array: `{type: "text"}` or `{type: "image_url"}`. */
  datatype Part = Text(text: string) | ImageUrl(url: string)

  datatype Message = Message(role: Role, content: seq<Part>)

  /** A question/answer turn as the tooltip lists it; `answer` is `"pending"` while waiting. */
  datatype Turn = Turn(question: string, answer: string, uploadedImages: seq<string>, reasoning: string)

  /** Metadata values: the scripts store model names, token counts, latencies and prices, or `null`. */
  datatype MetaValue = MetaNull | MetaText(text: string) | MetaNumber(n: int)

  type Metadata = map<string, MetaValue>

  /** A message whose content is one text part. */
  function TextMessage(role: Role, text: string): Message {
    Message(role, [Text(text)])
  }
}

=== FILE: rating.dfy ===
/**
  The `Rating` model of `src/models/Rating.js`: built from a score, hydrated from a plain
  object, parsed out of a completion (`fromAPIResponse`) and rendered back into one
  (`getFullContent`).
 */
module Ratings {
  import opened Wrappers
  import opened JsString
  import opened Scores
  import opened Messages
  import opened ResponseParsing

  datatype Rating = Rating(
    score: Score,
    review: string,
    reasoning: string,
    metadata: Metadata,
    questions: seq<string>,
    lastAnswer: string,
    qaConversationHistory: seq<Message>,
    timestamp: int,
    cached: bool,
    streaming: bool,
    conversationHistory: Option<seq<Turn>>)

  /** A plain object a rating is hydrated from or serialised to; `None` is a missing property. */
  datatype RatingObject = RatingObject(
    score: Score,
    review: Option<string>,
    reasoning: Option<string>,
    metadata: Option<Metadata>,
    questions: Option<seq<string>>,
    lastAnswer: Option<string>,
    qaConversationHistory: Option<seq<Message>>,
    timestamp: Option<int>,
    cached: Option<bool>,
    streaming: Option<bool>,
    conversationHistory: Option<seq<Turn>>)

  /** `new Rating(score, review, reasoning, metadata)`, with `now` standing for `Date.now()`. */
  function NewRating(score: Score, review: string, reasoning: string, metadata: Metadata, now: int): (r: Rating)
    ensures r.score == score && r.review == review && r.reasoning == reasoning && r.metadata == metadata
    ensures r.questions == [] && r.lastAnswer == "" && r.qaConversationHistory == []
    ensures r.timestamp == now && !r.cached && !r.streaming && r.conversationHistory.None?
  {
    Rating(score, review, reasoning, metadata, [], "", [], now, false, false, None)
  }

  /**
    `new Rating(obj)` for an object: every missing property falls back to a default through
    `||`, so a zero timestamp is replaced by `now` as well.
   */
  function FromObject(obj: RatingObject, now: int): (r: Rating)
    ensures r.score == obj.score
    ensures r.review == obj.review.GetOr("") && r.reasoning == obj.reasoning.GetOr("")
    ensures r.questions == obj.questions.GetOr([]) && r.lastAnswer == obj.lastAnswer.GetOr("")
    ensures r.timestamp == (if obj.timestamp.Some? && obj.timestamp.value != 0 then obj.timestamp.value else now)
    ensures r.cached == obj.cached.GetOr(false) && r.streaming == obj.streaming.GetOr(false)
    ensures r.conversationHistory.None?
  {
    Rating(
      obj.score,
      obj.review.GetOr(""),
      obj.reasoning.GetOr(""),
      obj.metadata.GetOr(map[]),
      obj.questions.GetOr([]),
      obj.lastAnswer.GetOr(""),
      obj.qaConversationHistory.GetOr([]),
      if obj.timestamp.Some? && obj.timestamp.value != 0 then obj.timestamp.value else now,
      obj.cached.GetOr(false),
      obj.streaming.GetOr(false),
      None)
  }

  /** `toJSON`: every property present; the UI history defaults to `[]`. */
  function ToObject(r: Rating): (obj: RatingObject)
    ensures obj.review.Some? && obj.questions.Some? && obj.timestamp.Some? && obj.conversationHistory.Some?
  {
    RatingObject(
      r.score, Some(r.review), Some(r.reasoning), Some(r.metadata), Some(r.questions),
      Some(r.lastAnswer), Some(r.qaConversationHistory), Some(r.timestamp), Some(r.cached),
      Some(r.streaming), Some(r.conversationHistory.GetOr([])))
  }

  /**
    `Rating.fromJSON(r.toJSON())` gives back every field except the UI history, which
    hydration does not read, provided the timestamp is not 0.
   */
  lemma ObjectRoundTrip(r: Rating, now: int)
    requires r.timestamp != 0
    ensures FromObject(ToObject(r), now) == r.(conversationHistory := None)
  {
  }

  /** `isValid`: the score is neither `null`, `undefined` nor `NaN`. */
  predicate IsValid(r: Rating)
    ensures IsValid(r) <==> !r.score.Null? && !r.score.Undefined? && !r.score.NaN?
  {
    r.score.Num?
  }

  /**
    `Rating.fromAPIResponse(content)`: the first `SCORE_n` token (else `null`), the trimmed
    body of the first `<ANALYSIS>` block (else the whole text), and the follow-up questions
    when a `<FOLLOW_UP_QUESTIONS>` block is present.
   */
  function FromApiResponse(content: string, now: int): (r: Rating)
    ensures r.score.Num? || r.score.Null?
    ensures r.score.Null? <==> forall j :: 0 <= j ==> !ScoreTokenAt(content, j)
    ensures r.score.Num? ==> exists i :: ScoreTokenAt(content, i) && r.score.value == TokenValue(content, i)
                               && forall j :: 0 <= j < i ==> !ScoreTokenAt(content, j)
    ensures TagBody(content, AnalysisOpen, AnalysisClose).None? ==> r.review == content
    ensures TagBody(content, AnalysisOpen, AnalysisClose).Some? ==> IsTrimmed(r.review)
    ensures r.questions == [] || ThreeQuestions(r.questions)
    ensures TagBody(content, QuestionsOpen, QuestionsClose).None? ==> r.questions == []
    ensures r.lastAnswer == "" && !r.cached && !r.streaming && r.metadata == map[]
  {
    var base := NewRating(Null, "", "", map[], now);
    var score := match FirstScore(content) case Some(n) => Num(n) case None => Null;
    var review := AnalysisOrWhole(content);
    var questions := if TagBody(content, QuestionsOpen, QuestionsClose).Some? then ExtractFollowUpQuestions(content) else [];
    base.(score := score, review := review, questions := questions)
  }

  /** A parsed rating is valid exactly when the completion holds a `SCORE_n` token. */
  lemma ParsedRatingValidIffToken(content: string, now: int)
    ensures IsValid(FromApiResponse(content, now)) <==> exists i :: 0 <= i && ScoreTokenAt(content, i)
  {
  }

  /** The `<ANALYSIS>` section `getFullContent` writes for a non-empty review. */
  function AnalysisSection(review: string): string {
    AnalysisOpen + "\n" + review + "\n" + AnalysisClose + "\n" + "\n"
  }

  /** The `<SCORE>` section `getFullContent` writes for a score that is neither `null` nor `undefined`. */
  function ScoreSection(score: Score): string {
    "<SCORE>" + "\n" + ScoreMarker + ScoreToString(score) + "\n" + "</SCORE>" + "\n" + "\n"
  }

  /**
    `getFullContent`: the analysis, score and question sections in that order, each only
    when there is something to put in it; questions are numbered from 1.
   */
  function FullContent(r: Rating): (s: string)
    ensures r.review == [] && !r.score.IsSet() && r.questions == [] ==> s == []
    ensures r.review != [] ==> StartsWith(s, AnalysisSection(r.review))
    ensures r.questions != [] ==> EndsWith(s, QuestionsBlock(r.questions))
  {
    var a := if r.review != [] then AnalysisSection(r.review) else "";
    var b := if r.score.IsSet() then ScoreSection(r.score) else "";
    var c := if r.questions != [] then QuestionsBlock(r.questions) else "";
    assert a + b + c == a + (b + c);
    a + b + c
  }

  /** The ratings `getFullContent` renders in a way `fromAPIResponse` reads back. */
  predicate ReadsBack(r: Rating) {
    && r.score.Num? && r.score.value >= 0
    && r.review != [] && IsTrimmed(r.review)
    && !Contains(r.review, ScoreMarker) && !Contains(r.review, AnalysisClose) && NoMarkers(r.review)
    && (r.questions == [] || (|r.questions| == 3 && forall k :: 0 <= k < 3 ==> PlainQuestion(r.questions[k])))
  }

  /**
    `fromAPIResponse(getFullContent(r))` recovers the score and the review of every rating
    with a natural score and a non-empty trimmed review free of `SCORE_` and `</ANALYSIS>`,
    and also the questions when the rating `ReadsBack`.
   */
  lemma FullContentRoundTrip(r: Rating, now: int)
    requires r.score.Num? && r.score.value >= 0 && r.review != [] && IsTrimmed(r.review)
    requires !Contains(r.review, ScoreMarker) && !Contains(r.review, AnalysisClose)
    ensures var p := FromApiResponse(FullContent(r), now);
      p.score == r.score && p.review == r.review && (ReadsBack(r) ==> p.questions == r.questions)
  {
    ScoreReadsBack(r, now);
    ReviewReadsBack(r, now);
    if ReadsBack(r) {
      QuestionsReadBack(r, now);
    }
  }

  /**
    The score reads back for any questions, as long as the review is non-empty and holds
    no `SCORE_` token of its own.
   */
  lemma ScoreReadsBack(r: Rating, now: int)
    requires r.score.Num? && r.score.value >= 0 && r.review != []
    requires !Contains(r.review, ScoreMarker)
    ensures FromApiResponse(FullContent(r), now).score == r.score
  {
    FullContentShape(r);
    ScoreOfSections(r.review, r.score.value, if r.questions != [] then QuestionsBlock(r.questions) else "");
  }

  /**
    The review reads back for any score and any questions when it is non-empty, trimmed
    and free of `</ANALYSIS>`.
   */
  lemma ReviewReadsBack(r: Rating, now: int)
    requires r.review != [] && IsTrimmed(r.review) && !Contains(r.review, AnalysisClose)
    ensures FromApiResponse(FullContent(r), now).review == r.review
  {
    var b := if r.score.IsSet() then ScoreSection(r.score) else "";
    var c := if r.questions != [] then QuestionsBlock(r.questions) else "";
    assert FullContent(r) == AnalysisSection(r.review) + (b + c);
    ReviewOfSections(r.review, b + c);
  }

  lemma QuestionsReadBack(r: Rating, now: int)
    requires ReadsBack(r)
    ensures FromApiResponse(FullContent(r), now).questions == r.questions
  {
    FullContentShape(r);
    QuestionsOfSections(r.review, r.score.value, r.questions);
  }

  /** With a non-empty review and a numeric score all three sections are present. */
  lemma FullContentShape(r: Rating)
    requires r.review != [] && r.score.Num?
    ensures FullContent(r) == AnalysisSection(r.review) + ScoreSection(r.score)
                              + (if r.questions != [] then QuestionsBlock(r.questions) else "")
  {
  }

  /** The question section, or its absence, is what `fromAPIResponse` reads back. */
  lemma QuestionsOfSections(review: string, n: nat, qs: seq<string>)
    requires NoMarkers(review)
    requires qs == [] || (|qs| == 3 && forall k :: 0 <= k < 3 ==> PlainQuestion(qs[k]))
    ensures var prefix := AnalysisSection(review) + ScoreSection(Num(n));
      var s := prefix + (if qs != [] then QuestionsBlock(qs) else "");
      (if TagBody(s, QuestionsOpen, QuestionsClose).Some? then ExtractFollowUpQuestions(s) else []) == qs
  {
    var prefix := AnalysisSection(review) + ScoreSection(Num(n));
    PrefixHasNoMarkers(review, n);
    if qs == [] {
      assert prefix + "" == prefix;
      assert IndexOf(prefix, Q1).None?;
    } else {
      assert PlainQuestion(qs[0]) && PlainQuestion(qs[1]) && PlainQuestion(qs[2]);
      assert qs == [qs[0], qs[1], qs[2]];
      ExtractQuestionsOfBlock(prefix, qs[0], qs[1], qs[2]);
      QuestionsBlockIsFound(prefix, qs);
    }
  }

  /** The score section yields the first score token of the whole text. */
  lemma ScoreOfSections(review: string, n: nat, rest: string)
    requires !Contains(review, ScoreMarker)
    ensures FirstScore(AnalysisSection(review) + ScoreSection(Num(n)) + rest) == Some(n)
  {
    var d := NatToString(n);
    var a := AnalysisSection(review);
    var tail := "</SCORE>" + "\n" + "\n" + rest;
    NoScoreMarkerBeforeScore(review);
    FirstScoreAfterLineBreak(a + "<SCORE>", d, tail);
    ScoreSectionRegroup(a, n, rest);
  }

  lemma ScoreSectionRegroup(a: string, n: nat, rest: string)
    ensures a + ScoreSection(Num(n)) + rest
         == (a + "<SCORE>") + ['\n'] + (ScoreMarker + NatToString(n) + ['\n'] + ("</SCORE>" + "\n" + "\n" + rest))
  {
    assert ScoreToString(Num(n)) == NatToString(n);
  }

  /** A `SCORE_` + digits line after text without `SCORE_` is the first score token. */
  lemma FirstScoreAfterLineBreak(x: string, d: string, rest: string)
    requires !Contains(x, ScoreMarker)
    requires d != [] && AllDigits(d)
    ensures FirstScore(x + ['\n'] + (ScoreMarker + d + ['\n'] + rest)) == Some(DigitsValue(d))
  {
    var y := ScoreMarker + d + ['\n'] + rest;
    var s := x + ['\n'] + y;
    var k := |x| + 1;
    assert StartsWith(y, ScoreMarker);
    assert forall j :: 0 <= j < k ==> !OccursAt(s, ScoreMarker, j) by {
      IndexOfFromAcross(x, '\n', y, ScoreMarker, 0);
    }
    TokenOfParts(s, k, d);
    FirstScoreIs(s, k);
  }

  /** `SCORE_`, digits and a line break at `k` form a token whose value is those digits. */
  lemma TokenOfParts(s: string, k: nat, d: string)
    requires d != [] && AllDigits(d)
    requires k + 7 + |d| <= |s|
    requires s[k..k + 6] == ScoreMarker && s[k + 6..k + 6 + |d|] == d && s[k + 6 + |d|] == '\n'
    ensures ScoreTokenAt(s, k) && TokenValue(s, k) == DigitsValue(d)
  {
    assert s[k + 6] == d[0];
    DigitRunFrom(s, k + 6, k + 6 + |d|);
  }

  lemma NoScoreMarkerBeforeScore(review: string)
    requires !Contains(review, ScoreMarker)
    ensures !Contains(AnalysisSection(review) + "<SCORE>", ScoreMarker)
  {
    var m := ScoreMarker;
    NoOccurrenceMissingChar(AnalysisOpen, m, '_');
    NoOccurrenceMissingChar(AnalysisClose, m, '_');
    NoOccurrenceMissingChar("<SCORE>", m, '_');
    EmptyHasNoOccurrence(m);
    NoOccurrenceAcross("", '\n', "<SCORE>", m);
    NoOccurrenceAcross(AnalysisClose, '\n', "" + ['\n'] + "<SCORE>", m);
    NoOccurrenceAcross(review, '\n', AnalysisClose + ['\n'] + ("" + ['\n'] + "<SCORE>"), m);
    NoOccurrenceAcross(AnalysisOpen, '\n', review + ['\n'] + (AnalysisClose + ['\n'] + ("" + ['\n'] + "<SCORE>")), m);
    assert AnalysisSection(review) + "<SCORE>"
        == AnalysisOpen + ['\n'] + (review + ['\n'] + (AnalysisClose + ['\n'] + ("" + ['\n'] + "<SCORE>")));
  }

  /** The analysis section yields the review, whatever follows it. */
  lemma ReviewOfSections(review: string, rest: string)
    requires review != [] && IsTrimmed(review) && !Contains(review, AnalysisClose)
    ensures TagBody(AnalysisSection(review) + rest, AnalysisOpen, AnalysisClose) == Some("\n" + review + "\n")
    ensures Trim("\n" + review + "\n") == review
  {
    var s := AnalysisSection(review) + rest;
    var x := AnalysisOpen + ['\n'] + review;
    var y := AnalysisClose + "\n\n" + rest;
    assert s == x + ['\n'] + y;
    assert s[..10] == AnalysisOpen;
    IndexOfFromIs(s, AnalysisOpen, 0, 0);
    NoOccurrenceMissingChar(AnalysisOpen, AnalysisClose, '/');
    NoOccurrenceAcross(AnalysisOpen, '\n', review, AnalysisClose);
    assert StartsWith(y, AnalysisClose);
    IndexOfFromAcross(x, '\n', y, AnalysisClose, 10);
    assert s[10..|x| + 1] == "\n" + review + "\n";
    TrimPadded("\n", review, "\n");
  }

  /** The analysis and score sections mention none of the question markers. */
  lemma PrefixHasNoMarkers(review: string, n: nat)
    requires NoMarkers(review)
    ensures NoMarkers(AnalysisSection(review) + ScoreSection(Num(n)))
  {
    var d := NatToString(n);
    assert '.' !in d by {
      assert forall i :: 0 <= i < |d| ==> IsDigit(d[i]);
    }
    NoMarkersWithoutDot(d);
    NoMarkersWithoutDot(AnalysisOpen);
    NoMarkersWithoutDot(AnalysisClose);
    NoMarkersWithoutDot("");
    NoMarkersWithoutDot("<SCORE>");
    NoMarkersWithoutDot(ScoreMarker + d);
    NoMarkersWithoutDot("</SCORE>");
    var tail := "</SCORE>" + ['\n'] + ("" + ['\n'] + "");
    NoMarkersAcross("", '\n', "");
    NoMarkersAcross("</SCORE>", '\n', "" + ['\n'] + "");
    NoMarkersAcross(ScoreMarker + d, '\n', tail);
    NoMarkersAcross("<SCORE>", '\n', ScoreMarker + d + ['\n'] + tail);
    var sc := "<SCORE>" + ['\n'] + (ScoreMarker + d + ['\n'] + tail);
    assert ScoreSection(Num(n)) == sc;
    NoMarkersAcross("", '\n', sc);
    NoMarkersAcross(AnalysisClose, '\n', "" + ['\n'] + sc);
    NoMarkersAcross(review, '\n', AnalysisClose + ['\n'] + ("" + ['\n'] + sc));
    NoMarkersAcross(AnalysisOpen, '\n', review + ['\n'] + (AnalysisClose + ['\n'] + ("" + ['\n'] + sc)));
    assert AnalysisSection(review) + ScoreSection(Num(n))
        == AnalysisOpen + ['\n'] + (review + ['\n'] + (AnalysisClose + ['\n'] + ("" + ['\n'] + sc)));
  }

  /** A text ending with a question section has a `<FOLLOW_UP_QUESTIONS>` block. */
  lemma QuestionsBlockIsFound(prefix: string, qs: seq<string>)
    ensures TagBody(prefix + QuestionsBlock(qs), QuestionsOpen, QuestionsClose).Some?
  {
    var s := prefix + QuestionsBlock(qs);
    var i := |prefix|;
    var j := |s| - |QuestionsClose|;
    assert OccursAt(s, QuestionsOpen, i);
    assert OccursAt(s, QuestionsClose, j);
    assert i + |QuestionsOpen| <= j;
  }
}

=== FILE: rating_engine.dfy ===
/**
  The per-tweet decisions of `src/ratingEngine.js`, which the same functions in
  `src/twitter-desloppifier.js` and `twitter-desloppifier.js` repeat: whether a tweet is
  hidden, applying a cached rating, the order of checks when a tweet is scheduled, the
  at-most-once `processedTweets` gate, the listed-author path of `delayedProcessTweet`, and
  the context text built for the model. A tweet's DOM element is reduced to the `data-*`
  attributes these functions read and write.
 */
module RatingEngine {
  import opened Wrappers
  import opened JsString
  import opened Scores
  import opened Handles

  /** The `data-*` attributes of a tweet element; `None` is an attribute that is not set. */
  datatype Dataset = Dataset(
    sloppinessScore: Option<string>,
    ratingStatus: Option<string>,
    ratingDescription: Option<string>,
    blacklisted: Option<string>,
    cachedRating: Option<string>)

  /** `dataset.x || fallback`: an unset or empty attribute gives the fallback. */
  function AttrOr(a: Option<string>, fallback: string): (s: string)
    ensures a.Some? && a.value != "" ==> s == a.value
    ensures !(a.Some? && a.value != "") ==> s == fallback
  {
    if a.Some? && a.value != "" then a.value else fallback
  }

  /** The score `filterSingleTweet` reads: `parseInt(dataset.sloppinessScore || '0', 10)`. */
  function ShownScore(d: Dataset): (s: Score)
    ensures s.NaN? || s.Num?
  {
    ParseInt(AttrOr(d.sloppinessScore, "0"))
  }

  /**
    `filterSingleTweet`: a pending tweet stays visible; any other is hidden when its score
    does not parse or is below the threshold.
   */
  function FilterSingleTweet(d: Dataset, threshold: int): (hidden: bool)
    ensures d.ratingStatus == Some("pending") ==> !hidden
    ensures d.ratingStatus != Some("pending") ==> (hidden <==> ShownScore(d).NaN? || ShownScore(d).value < threshold)
  {
    if d.ratingStatus == Some("pending") then false
    else ShownScore(d).NaN? || ShownScore(d).value < threshold
  }

  /** A score written as `score.toString()` is read back exactly, so the tweet is hidden iff it is below the threshold. */
  lemma FilterWrittenScore(d: Dataset, n: int, threshold: int)
    requires d.sloppinessScore == Some(IntToString(n)) && d.ratingStatus != Some("pending")
    requires -ExponentFormBound < n < ExponentFormBound
    ensures FilterSingleTweet(d, threshold) <==> n < threshold
  {
    ParseIntOfIntToString(n);
  }

  /** A tweet without a score counts as scored 0. */
  lemma FilterMissingScore(d: Dataset, threshold: int)
    requires d.sloppinessScore.None? && d.ratingStatus != Some("pending")
    ensures FilterSingleTweet(d, threshold) <==> 0 < threshold
  {
    ParseIntOfIntToString(0);
    assert IntToString(0) == "0";
  }

  /** A rating in the id-keyed cache (`tweetIDRatingCache`). */
  datatype CachedRating = CachedRating(score: int, description: string)

  /** `isUserBlacklisted(userHandle)` guarded by a non-empty handle, as every caller writes it. */
  predicate Listed(userHandle: string, listed: seq<string>) {
    userHandle != "" && IsUserBlacklisted(userHandle, listed)
  }

  /** What `applyTweetCachedRating` returns, and the attributes it leaves. */
  datatype Applied = Applied(applied: bool, data: Dataset)

  /**
    `applyTweetCachedRating`: a listed author gets 10; a cached id gets its cached score and
    description; otherwise nothing is written and `false` is returned.
   */
  function ApplyTweetCachedRating(d: Dataset, tweetId: string, userHandle: string, listed: seq<string>,
                                  cache: map<string, CachedRating>): (r: Applied)
    ensures r.applied <==> Listed(userHandle, listed) || tweetId in cache
    ensures !r.applied ==> r.data == d
    ensures Listed(userHandle, listed) ==>
      r.data.sloppinessScore == Some("10") && r.data.blacklisted == Some("true") && r.data.ratingStatus == Some("rated")
    ensures !Listed(userHandle, listed) && tweetId in cache ==>
      && r.data.sloppinessScore == Some(IntToString(cache[tweetId].score))
      && r.data.ratingDescription == Some(cache[tweetId].description)
      && r.data.cachedRating == Some("true") && r.data.ratingStatus == Some("rated")
  {
    if Listed(userHandle, listed) then
      Applied(true, d.(sloppinessScore := Some("10"), blacklisted := Some("true"), ratingStatus := Some("rated"),
                       ratingDescription := Some("Whtielisted user")))
    else if tweetId in cache then
      var c := cache[tweetId];
      Applied(true, d.(sloppinessScore := Some(IntToString(c.score)), cachedRating := Some("true"),
                       ratingStatus := Some("rated"), ratingDescription := Some(c.description)))
    else Applied(false, d)
  }

  /** After a cached rating is applied the tweet is hidden exactly when the cached score is below the threshold. */
  lemma CachedRatingFilters(d: Dataset, tweetId: string, userHandle: string, listed: seq<string>,
                            cache: map<string, CachedRating>, threshold: int)
    requires !Listed(userHandle, listed) && tweetId in cache
    requires -ExponentFormBound < cache[tweetId].score < ExponentFormBound
    ensures FilterSingleTweet(ApplyTweetCachedRating(d, tweetId, userHandle, listed, cache).data, threshold)
        <==> cache[tweetId].score < threshold
  {
    FilterWrittenScore(ApplyTweetCachedRating(d, tweetId, userHandle, listed, cache).data, cache[tweetId].score, threshold);
  }

  /** What `scheduleTweetProcessing` did with a tweet. */
  datatype Action = AutoRated | AppliedCache | Skipped | Queued

  datatype Scheduled = Scheduled(action: Action, processed: set<string>, data: Dataset)

  /**
    `scheduleTweetProcessing`: a listed author is rated 10 at once; a cached id gets its
    cached rating; an id already processed is skipped; any other id is added to
    `processedTweets` and queued for `delayedProcessTweet`. The two `src/` versions also
    mark the queued tweet pending (`marksPending`); the root script does not.
   */
  function ScheduleTweetProcessing(processed: set<string>, d: Dataset, tweetId: string, userHandle: string,
                                   listed: seq<string>, cache: map<string, CachedRating>, marksPending: bool): (r: Scheduled)
    ensures r.action == AutoRated <==> Listed(userHandle, listed)
    ensures r.action == AppliedCache <==> !Listed(userHandle, listed) && tweetId in cache
    ensures r.action == Skipped <==> !Listed(userHandle, listed) && tweetId !in cache && tweetId in processed
    ensures r.action == Queued <==> !Listed(userHandle, listed) && tweetId !in cache && tweetId !in processed
    ensures r.action == Queued ==> r.processed == processed + {tweetId}
    ensures r.action != Queued ==> r.processed == processed
    ensures r.action == Queued && marksPending ==> r.data.ratingStatus == Some("pending")
    ensures r.action == AutoRated ==> r.data.sloppinessScore == Some("10") && r.data.ratingStatus == Some("rated")
  {
    if Listed(userHandle, listed) then
      Scheduled(AutoRated, processed,
                d.(sloppinessScore := Some("10"), blacklisted := Some("true"), ratingStatus := Some("rated"),
                   ratingDescription := Some("Whitelisted user")))
    else if tweetId in cache then
      Scheduled(AppliedCache, processed, ApplyTweetCachedRating(d, tweetId, userHandle, listed, cache).data)
    else if tweetId in processed then Scheduled(Skipped, processed, d)
    else Scheduled(Queued, processed + {tweetId}, if marksPending then d.(ratingStatus := Some("pending")) else d)
  }

  /**
    `processedTweets` is an at-most-once gate: once an id has been queued, scheduling it
    again, with any cache and list contents, never queues it a second time.
   */
  lemma QueuedAtMostOnce(processed: set<string>, d: Dataset, tweetId: string, userHandle: string,
                         listed: seq<string>, cache: map<string, CachedRating>, marksPending: bool,
                         d2: Dataset, userHandle2: string, listed2: seq<string>, cache2: map<string, CachedRating>, marksPending2: bool)
    requires ScheduleTweetProcessing(processed, d, tweetId, userHandle, listed, cache, marksPending).action == Queued
    ensures var first := ScheduleTweetProcessing(processed, d, tweetId, userHandle, listed, cache, marksPending);
      ScheduleTweetProcessing(first.processed, d2, tweetId, userHandle2, listed2, cache2, marksPending2).action != Queued
  {
  }

  /** Scheduling never removes an id from `processedTweets`. */
  lemma ProcessedOnlyGrows(processed: set<string>, d: Dataset, tweetId: string, userHandle: string,
                           listed: seq<string>, cache: map<string, CachedRating>, marksPending: bool)
    ensures processed <= ScheduleTweetProcessing(processed, d, tweetId, userHandle, listed, cache, marksPending).processed
    ensures ScheduleTweetProcessing(processed, d, tweetId, userHandle, listed, cache, marksPending).processed <= processed + {tweetId}
  {
  }

  /**
    How `delayedProcessTweet` of `src/ratingEngine.js` ends: finished on the listed-author or
    cached-rating path, or caught by its `catch` before any request is made.
   */
  datatype Delayed = Finished(data: Dataset) | Caught(data: Dataset)

  /** `!tweetArticle.dataset.sloppinessScore`: the attribute is missing or empty. */
  predicate NoScoreAttribute(d: Dataset) {
    d.sloppinessScore.None? || d.sloppinessScore == Some("")
  }

  /**
    `delayedProcessTweet` in `src/ratingEngine.js`: a listed author is rated 10 with status
    rated and no API call; a cached rating is applied. Any other tweet reaches line 137, where
    `allMediaLinks` is the Promise the `async` `extractMediaLinks` returns (it is called
    without `await`), so `allMediaLinks.filter` throws a `TypeError`. The `catch` then rates a
    tweet without a score attribute 5 with status error, and the model is never asked.
   */
  function DelayedProcessTweet(d: Dataset, tweetId: string, userHandle: string, listed: seq<string>,
                               cache: map<string, CachedRating>): (r: Delayed)
    ensures r.Caught? <==> !Listed(userHandle, listed) && tweetId !in cache
    ensures Listed(userHandle, listed) ==>
      r.Finished? && r.data.sloppinessScore == Some("10") && r.data.ratingStatus == Some("rated")
      && r.data.ratingDescription == Some("Blacklisted user")
    ensures r.Caught? && NoScoreAttribute(d) ==>
      r.data.sloppinessScore == Some("5") && r.data.ratingStatus == Some("error")
      && r.data.ratingDescription == Some("error processing tweet")
    ensures r.Caught? && !NoScoreAttribute(d) ==> r.data == d
  {
    if Listed(userHandle, listed) then
      Finished(d.(sloppinessScore := Some("10"), blacklisted := Some("true"), ratingStatus := Some("rated"),
                  ratingDescription := Some("Blacklisted user")))
    else
      var a := ApplyTweetCachedRating(d, tweetId, userHandle, listed, cache);
      if a.applied then Finished(a.data)
      else if NoScoreAttribute(d) then
        Caught(d.(sloppinessScore := Some("5"), ratingStatus := Some("error"),
                  ratingDescription := Some("error processing tweet")))
      else Caught(d)
  }

  /**
    A tweet that is neither listed nor cached and has no score yet ends with score 5, so it is
    hidden exactly when the threshold is above 5.
   */
  lemma CaughtTweetScoredFive(d: Dataset, tweetId: string, userHandle: string, listed: seq<string>,
                              cache: map<string, CachedRating>, threshold: int)
    requires !Listed(userHandle, listed) && tweetId !in cache && NoScoreAttribute(d)
    ensures FilterSingleTweet(DelayedProcessTweet(d, tweetId, userHandle, listed, cache).data, threshold) <==> 5 < threshold
  {
    assert IntToString(5) == "5";
    FilterWrittenScore(DelayedProcessTweet(d, tweetId, userHandle, listed, cache).data, 5, threshold);
  }

  /** A listed author's tweet is never hidden after the listed-author path, whatever the threshold up to 10. */
  lemma ListedAuthorShown(d: Dataset, tweetId: string, userHandle: string, listed: seq<string>,
                          cache: map<string, CachedRating>, threshold: int)
    requires Listed(userHandle, listed) && threshold <= 10
    ensures !FilterSingleTweet(DelayedProcessTweet(d, tweetId, userHandle, listed, cache).data, threshold)
  {
    assert NatToString(10) == NatToString(1) + [DigitChar(0)];
    assert IntToString(10) == "10";
    FilterWrittenScore(DelayedProcessTweet(d, tweetId, userHandle, listed, cache).data, 10, threshold);
  }

  // ---------------------------------------------------------------------------------------
  // The context text of `delayedProcessTweet`

  /** `xs.filter(x => !ys.includes(x))`. */
  function Without(xs: seq<string>, ys: seq<string>): (r: seq<string>)
    ensures forall x :: x in r <==> x in xs && x !in ys
    ensures |r| <= |xs|
  {
    if xs == [] then []
    else
      var rest := Without(xs[1..], ys);
      if xs[0] in ys then rest else [xs[0]] + rest
  }

  /** The line that introduces the quoted tweet. It sits in a double-quoted string, so `${quotedHandle}` is not filled in. */
  const QuotedHeader: string := "\n[QUOTED_TWEET]:\n Author:@${quotedHandle}:\n"

  /**
    The context text lines 144-168 of `delayedProcessTweet` build when image descriptions are
    off: the tweet with its own media (those not also in the quoted tweet), then the quoted
    tweet and its media. In `src/ratingEngine.js` no tweet reaches these lines (see
    `DelayedProcessTweet`); the text is what they would build.
   */
  function ContextText(tweetId: string, userHandle: string, mainText: string, allMedia: seq<string>,
                       quotedText: string, quotedMedia: seq<string>): (s: string)
    ensures StartsWith(s, "[TWEET " + tweetId + "]\n Author:@" + userHandle + ":\n" + mainText)
  {
    var mainMedia := Without(allMedia, quotedMedia);
    var head := "[TWEET " + tweetId + "]\n Author:@" + userHandle + ":\n" + mainText;
    var withMedia := if mainMedia != [] then head + "\n[MEDIA_URLS]:\n" + Join(mainMedia, ", ") else head;
    var quoted := if quotedText != "" then
        QuotedHeader + quotedText
        + (if quotedMedia != [] then "\n[QUOTED_TWEET_MEDIA_URLS]:\n" + Join(quotedMedia, ", ") else "")
      else "";
    assert (withMedia + quoted)[..|head|] == head;
    withMedia + quoted
  }

  /**
    Whatever the quoted tweet's author, the context of a tweet with quoted text holds the
    literal `@${quotedHandle}` in place of that author's handle.
   */
  lemma QuotedAuthorNotFilledIn(tweetId: string, userHandle: string, mainText: string, allMedia: seq<string>,
                                quotedText: string, quotedMedia: seq<string>)
    requires quotedText != ""
    ensures Contains(ContextText(tweetId, userHandle, mainText, allMedia, quotedText, quotedMedia), QuotedHeader)
  {
    var mainMedia := Without(allMedia, quotedMedia);
    var head := "[TWEET " + tweetId + "]\n Author:@" + userHandle + ":\n" + mainText;
    var withMedia := if mainMedia != [] then head + "\n[MEDIA_URLS]:\n" + Join(mainMedia, ", ") else head;
    var media := if quotedMedia != [] then "\n[QUOTED_TWEET_MEDIA_URLS]:\n" + Join(quotedMedia, ", ") else "";
    var s := ContextText(tweetId, userHandle, mainText, allMedia, quotedText, quotedMedia);
    assert s == withMedia + (QuotedHeader + quotedText + media);
    assert QuotedHeader + quotedText + media == QuotedHeader + (quotedText + media);
    OccursBetween(withMedia, QuotedHeader, quotedText + media);
  }
}

=== FILE: response_parsing.dfy ===
/**
  Reading a model's completion text: the score tokens the different script versions look for,
  the `<ANALYSIS>` block, and the three follow-up questions.

  Each regular expression is written as a deterministic scanner. For every pattern here the
  character classes on either side of a greedy or lazy repetition are disjoint, so the regex
  engine has exactly one way to match at a given position, and "the first match" is the
  smallest position at which the scanner's predicate holds.
 */
module ResponseParsing {
  import opened Wrappers
  import opened JsString

  const ScoreMarker: string := "SCORE_"

  // ---------------------------------------------------------------------------------------
  // `/SCORE_(\d+)/` and its global form

  /** `/SCORE_(\d+)/` matches at index `i`. */
  predicate ScoreTokenAt(s: string, i: int) {
    OccursAt(s, ScoreMarker, i) && i + 6 < |s| && IsDigit(s[i + 6])
  }

  /** End of the digits captured by the match at `i`. */
  function TokenEnd(s: string, i: nat): (e: nat)
    requires ScoreTokenAt(s, i)
    ensures i + 6 < e <= |s|
  {
    DigitRunEnd(s, i + 6)
  }

  /** `parseInt` of the captured digits of the match at `i`. */
  function TokenValue(s: string, i: nat): nat
    requires ScoreTokenAt(s, i)
  {
    DigitsValue(s[i + 6..TokenEnd(s, i)])
  }

  /** The position `exec` finds when it starts searching at `from`. */
  function NextScoreToken(s: string, from: nat): (r: Option<nat>)
    ensures r.Some? ==> from <= r.value && ScoreTokenAt(s, r.value)
    ensures forall j :: from <= j && (r.None? || j < r.value) ==> !ScoreTokenAt(s, j)
    decreases |s| - from
  {
    if from + 6 >= |s| then None
    else if ScoreTokenAt(s, from) then Some(from)
    else NextScoreToken(s, from + 1)
  }

  /** `s.match(/SCORE_(\d+)/)` followed by `parseInt(m[1], 10)`: the value of the first match. */
  function FirstScore(s: string): (r: Option<nat>)
    ensures r.None? <==> forall j :: 0 <= j ==> !ScoreTokenAt(s, j)
    ensures r.Some? ==> exists i :: ScoreTokenAt(s, i) && r.value == TokenValue(s, i)
                          && forall j :: 0 <= j < i ==> !ScoreTokenAt(s, j)
  {
    match NextScoreToken(s, 0)
    case None => None
    case Some(i) => Some(TokenValue(s, i))
  }

  /** The first match is at `k` when a match is there and none is before it. */
  lemma FirstScoreIs(s: string, k: nat)
    requires ScoreTokenAt(s, k)
    requires forall j :: 0 <= j < k ==> !OccursAt(s, ScoreMarker, j)
    ensures FirstScore(s) == Some(TokenValue(s, k))
  {
    assert NextScoreToken(s, 0) == Some(k);
  }

  /**
    The positions `s.match(/SCORE_(\d+)/g)` reports: after each match the search resumes
    where that match ended.
   */
  function GlobalScoreTokens(s: string, from: nat): (ps: seq<nat>)
    ensures forall k :: 0 <= k < |ps| ==> from <= ps[k] && ScoreTokenAt(s, ps[k])
    decreases |s| - from
  {
    match NextScoreToken(s, from)
    case None => []
    case Some(p) => [p] + GlobalScoreTokens(s, TokenEnd(s, p))
  }

  /** Two matches never overlap: inside a match no other match can start. */
  lemma TokensDoNotOverlap(s: string, i: nat, j: nat)
    requires ScoreTokenAt(s, i) && i < j < TokenEnd(s, i)
    ensures !ScoreTokenAt(s, j)
  {
    if j < i + 6 {
      assert s[j] == s[i..i + 6][j - i];
    } else {
      assert s[j] == s[i + 6..TokenEnd(s, i)][j - i - 6];
    }
    assert s[j] != 'S';
    assert j + 6 <= |s| ==> s[j..j + 6][0] == s[j];
  }

  /**
    The global scan visits every match, so its last entry is the last position at which the
    pattern matches, and it is empty exactly when there is no match.
   */
  lemma {:induction false} GlobalScanReachesLastToken(s: string, from: nat)
    ensures GlobalScoreTokens(s, from) == [] <==> forall j :: from <= j ==> !ScoreTokenAt(s, j)
    ensures var ps := GlobalScoreTokens(s, from);
      ps != [] ==> forall j :: ps[|ps| - 1] < j ==> !ScoreTokenAt(s, j)
    decreases |s| - from
  {
    match NextScoreToken(s, from)
    case None =>
    case Some(p) =>
      var e := TokenEnd(s, p);
      GlobalScanReachesLastToken(s, e);
      forall j | p < j < e
        ensures !ScoreTokenAt(s, j)
      {
        TokensDoNotOverlap(s, p, j);
      }
  }

  /**
    `content.match(/SCORE_(\d+)/g)` and `parseInt` of the last match, as `rateTweet` and
    `rateTweetStreaming` read a completion.
   */
  function LastScore(s: string): (r: Option<nat>)
    ensures r.None? <==> forall j :: 0 <= j ==> !ScoreTokenAt(s, j)
    ensures r.Some? ==> exists i :: ScoreTokenAt(s, i) && r.value == TokenValue(s, i)
                          && forall j :: i < j ==> !ScoreTokenAt(s, j)
  {
    var ps := GlobalScoreTokens(s, 0);
    GlobalScanReachesLastToken(s, 0);
    if ps == [] then None else Some(TokenValue(s, ps[|ps| - 1]))
  }

  /** With a single score token the first-match and last-match readings agree. */
  lemma FirstAndLastAgreeOnSingleToken(s: string, i: nat)
    requires ScoreTokenAt(s, i)
    requires forall j :: 0 <= j && j != i ==> !ScoreTokenAt(s, j)
    ensures FirstScore(s) == LastScore(s) == Some(TokenValue(s, i))
  {
  }

  // ---------------------------------------------------------------------------------------
  // The lenient `/\SCORE_(\d+)/`

  /**
    `/\SCORE_(\d+)/` matches at `i`: `\S` is "any non-white-space character", so the pattern
    is one arbitrary visible character followed by `CORE_` and digits.
   */
  predicate LenientTokenAt(s: string, i: int) {
    0 <= i && i + 6 < |s| && !IsWhitespace(s[i]) && s[i + 1..i + 6] == "CORE_" && IsDigit(s[i + 6])
  }

  function NextLenientToken(s: string, from: nat): (r: Option<nat>)
    ensures r.Some? ==> from <= r.value && LenientTokenAt(s, r.value)
    ensures forall j :: from <= j && (r.None? || j < r.value) ==> !LenientTokenAt(s, j)
    decreases |s| - from
  {
    if from + 6 >= |s| then None
    else if LenientTokenAt(s, from) then Some(from)
    else NextLenientToken(s, from + 1)
  }

  /** The score `src/api.js` and `src/twitter-desloppifier.js` read: the first lenient match. */
  function LenientScore(s: string): (r: Option<nat>)
    ensures r.None? <==> forall j :: 0 <= j ==> !LenientTokenAt(s, j)
    ensures r.Some? ==> exists i :: LenientTokenAt(s, i)
                          && r.value == DigitsValue(s[i + 6..DigitRunEnd(s, i + 6)])
                          && forall j :: 0 <= j < i ==> !LenientTokenAt(s, j)
  {
    match NextLenientToken(s, 0)
    case None => None
    case Some(i) => Some(DigitsValue(s[i + 6..DigitRunEnd(s, i + 6)]))
  }

  /** Every strict `SCORE_n` token is also a lenient match, so the lenient reader finds a score whenever the strict one does. */
  lemma LenientFindsEveryStrictScore(s: string)
    requires FirstScore(s).Some?
    ensures LenientScore(s).Some?
  {
    var i :| ScoreTokenAt(s, i);
    assert s[i + 1..i + 6] == s[i..i + 6][1..];
    assert s[i] == s[i..i + 6][0];
    assert LenientTokenAt(s, i);
  }

  /** ... but it also accepts a token that is not `SCORE_n` at all. */
  lemma LenientAcceptsOtherWords()
    ensures LenientScore("XCORE_7") == Some(7)
    ensures FirstScore("XCORE_7") == None
  {
    var s := "XCORE_7";
    assert s[1..6] == "CORE_" && s[0] == 'X' && s[6] == '7';
    assert LenientTokenAt(s, 0);
    assert DigitRunEnd(s, 6) == 7;
    assert s[6..7] == "7";
    assert DigitsValue("7") == 7 by {
      assert "7"[..0] == "";
    }
    assert !ScoreTokenAt(s, 0) by {
      assert s[0..6][0] == 'X';
    }
  }

  // ---------------------------------------------------------------------------------------
  // `/\[SCORE:\s*(\d+)\s*\]/` (twitter-desloppifier.js)

  /** Where the digits of a `[SCORE: n]` match at `i` start. */
  function BracketDigitsStart(s: string, i: nat): nat
    requires OccursAt(s, "[SCORE:", i)
  {
    SpaceRunEnd(s, i + 7)
  }

  predicate BracketTokenAt(s: string, i: int) {
    && OccursAt(s, "[SCORE:", i)
    && var b := BracketDigitsStart(s, i);
    && var e := DigitRunEnd(s, b);
    && e > b
    && var f := SpaceRunEnd(s, e);
    && f < |s| && s[f] == ']'
  }

  function BracketValue(s: string, i: nat): nat
    requires BracketTokenAt(s, i)
  {
    var b := BracketDigitsStart(s, i);
    DigitsValue(s[b..DigitRunEnd(s, b)])
  }

  function NextBracketToken(s: string, from: nat): (r: Option<nat>)
    ensures r.Some? ==> from <= r.value && BracketTokenAt(s, r.value)
    ensures forall j :: from <= j && (r.None? || j < r.value) ==> !BracketTokenAt(s, j)
    decreases |s| - from
  {
    if from + 7 > |s| then None
    else if BracketTokenAt(s, from) then Some(from)
    else NextBracketToken(s, from + 1)
  }

  /** `content.match(/\[SCORE:\s*(\d+)\s*\]/)` and `parseInt` of its group. */
  function BracketScore(s: string): (r: Option<nat>)
    ensures r.None? <==> forall j :: 0 <= j ==> !BracketTokenAt(s, j)
    ensures r.Some? ==> exists i :: BracketTokenAt(s, i) && r.value == BracketValue(s, i)
                          && forall j :: 0 <= j < i ==> !BracketTokenAt(s, j)
  {
    match NextBracketToken(s, 0)
    case None => None
    case Some(i) => Some(BracketValue(s, i))
  }

  /** The `[SCORE: n]` token a completion is asked to end with. */
  function BracketToken(n: nat): string {
    "[SCORE: " + NatToString(n) + "]"
  }

  /** A `[SCORE: ` followed by digits and `]` is a match whose value is those digits. */
  lemma BracketTokenOfParts(s: string, k: nat, d: string)
    requires d != [] && AllDigits(d)
    requires k + 9 + |d| <= |s|
    requires OccursAt(s, "[SCORE:", k) && s[k + 7] == ' ' && s[k + 8..k + 8 + |d|] == d && s[k + 8 + |d|] == ']'
    ensures BracketTokenAt(s, k) && BracketValue(s, k) == DigitsValue(d)
  {
    var i := k + 7;
    RunsOfParts(s, i, d);
    BracketTokenOfRuns(s, k, i + 1, i + 1 + |d|);
  }

  /** A space, digits `d` and `]` from `i` on: one space run, then a digit run that is exactly `d`. */
  lemma RunsOfParts(s: string, i: nat, d: string)
    requires d != [] && AllDigits(d)
    requires i + 2 + |d| <= |s|
    requires s[i] == ' ' && s[i + 1..i + 1 + |d|] == d && s[i + 1 + |d|] == ']'
    ensures SpaceRunEnd(s, i) == i + 1
    ensures DigitRunEnd(s, i + 1) == i + 1 + |d| && s[i + 1..i + 1 + |d|] == d
    ensures SpaceRunEnd(s, i + 1 + |d|) == i + 1 + |d|
  {
    var b, e := i + 1, i + 1 + |d|;
    assert IsDigit(s[b]) by {
      assert s[b] == s[b..e][0] == d[0];
    }
    SpaceThenDigit(s, i);
    DigitsBeforeClose(s, b, d);
  }

  /** One space and then a digit: the space run is that one space. */
  lemma SpaceThenDigit(s: string, i: nat)
    requires i + 1 < |s| && s[i] == ' ' && IsDigit(s[i + 1])
    ensures SpaceRunEnd(s, i) == i + 1
  {
    DigitIsNotWhitespace(s[i + 1]);
    assert SpaceRunEnd(s, i + 1) == i + 1;
  }

  /** The parts of a `[SCORE: n]` match, with the digits between `b` and `e`. */
  lemma BracketTokenOfRuns(s: string, k: nat, b: nat, e: nat)
    requires OccursAt(s, "[SCORE:", k) && SpaceRunEnd(s, k + 7) == b
    requires b < e && DigitRunEnd(s, b) == e && SpaceRunEnd(s, e) == e && e < |s| && s[e] == ']'
    ensures BracketTokenAt(s, k) && BracketValue(s, k) == DigitsValue(s[b..e])
  {
  }

  /** Digits `d` at `b` followed by `]`: the digit run is exactly `d` and no space precedes the `]`. */
  lemma DigitsBeforeClose(s: string, b: nat, d: string)
    requires AllDigits(d) && b + |d| < |s| && s[b..b + |d|] == d && s[b + |d|] == ']'
    ensures DigitRunEnd(s, b) == b + |d| && s[b..DigitRunEnd(s, b)] == d
    ensures SpaceRunEnd(s, b + |d|) == b + |d|
  {
    DigitRunFrom(s, b, b + |d|);
    assert !IsWhitespace(s[b + |d|]);
  }

  /** The first `[SCORE: n]` match at or after `from` is pinned down by a match at `k` and none in between. */
  lemma {:induction false} NextBracketTokenIs(s: string, from: nat, k: nat)
    requires from <= k && BracketTokenAt(s, k)
    requires forall j | from <= j < k :: !BracketTokenAt(s, j)
    ensures NextBracketToken(s, from) == Some(k)
    decreases k - from
  {
    if from < k {
      NextBracketTokenIs(s, from + 1, k);
    }
  }

  /**
    A completion whose text before the token has no `[SCORE:` and ends in a line break
    reads back the token's score.
   */
  lemma BracketScoreOfToken(before: string, n: nat, after: string)
    requires !Contains(before, "[SCORE:")
    ensures BracketScore(before + "\n" + BracketToken(n) + after) == Some(n)
  {
    var s := before + "\n" + BracketToken(n) + after;
    TokenAfterBreak(before, n, after);
    NoTokenBeforeBreak(before, n, after);
    NextBracketTokenIs(s, 0, |before| + 1);
  }

  lemma TokenAfterBreak(before: string, n: nat, after: string)
    ensures var s := before + "\n" + BracketToken(n) + after;
      BracketTokenAt(s, |before| + 1) && BracketValue(s, |before| + 1) == n
  {
    var d := NatToString(n);
    var x := before + "\n";
    var y := BracketToken(n) + after;
    var s := x + y;
    var k := |x|;
    assert s == before + "\n" + BracketToken(n) + after;
    BracketTokenShape(n, after);
    SliceAfter(x, y, 0, 7);
    assert s[k + 7] == y[7];
    SliceAfter(x, y, 8, 8 + |d|);
    assert s[k + 8 + |d|] == y[8 + |d|];
    BracketTokenOfParts(s, k, d);
  }

  /** The token `[SCORE: n]` followed by anything: its opening, its digits and its `]`. */
  lemma BracketTokenShape(n: nat, after: string)
    ensures var d := NatToString(n);
      var y := BracketToken(n) + after;
      && |y| >= 9 + |d| && y[..7] == "[SCORE:" && y[7] == ' ' && y[8..8 + |d|] == d && y[8 + |d|] == ']'
  {
  }

  lemma SliceAfter(x: string, y: string, i: nat, j: nat)
    requires i <= j <= |y|
    ensures (x + y)[|x| + i..|x| + j] == y[i..j]
  {
  }

  lemma NoTokenBeforeBreak(before: string, n: nat, after: string)
    requires !Contains(before, "[SCORE:")
    ensures var s := before + "\n" + BracketToken(n) + after;
      forall j | 0 <= j <= |before| :: !BracketTokenAt(s, j)
  {
    var s := before + "\n" + BracketToken(n) + after;
    var y := BracketToken(n) + after;
    assert s == before + ['\n'] + y;
    assert StartsWith(y, "[SCORE:");
    IndexOfFromAcross(before, '\n', y, "[SCORE:", 0);
    forall j | 0 <= j <= |before|
      ensures !BracketTokenAt(s, j)
    {
      assert !OccursAt(s, "[SCORE:", j);
    }
  }

  // ---------------------------------------------------------------------------------------
  // `/<SCORE>\s*SCORE_(\d+)\s*<\/SCORE>/` (ScoreIndicator)

  predicate TaggedScoreAt(s: string, i: int) {
    && OccursAt(s, "<SCORE>", i)
    && var b := SpaceRunEnd(s, i + 7);
    && OccursAt(s, ScoreMarker, b)
    && var e := DigitRunEnd(s, b + 6);
    && e > b + 6
    && OccursAt(s, "</SCORE>", SpaceRunEnd(s, e))
  }

  function TaggedValue(s: string, i: nat): nat
    requires TaggedScoreAt(s, i)
  {
    var b := SpaceRunEnd(s, i + 7);
    DigitsValue(s[b + 6..DigitRunEnd(s, b + 6)])
  }

  function NextTaggedScore(s: string, from: nat): (r: Option<nat>)
    ensures r.Some? ==> from <= r.value && TaggedScoreAt(s, r.value)
    ensures forall j :: from <= j && (r.None? || j < r.value) ==> !TaggedScoreAt(s, j)
    decreases |s| - from
  {
    if from + 7 > |s| then None
    else if TaggedScoreAt(s, from) then Some(from)
    else NextTaggedScore(s, from + 1)
  }

  /** `content.match(/<SCORE>\s*SCORE_(\d+)\s*<\/SCORE>/)` and `parseInt` of its group. */
  function TaggedScore(s: string): (r: Option<nat>)
    ensures r.None? <==> forall j :: 0 <= j ==> !TaggedScoreAt(s, j)
    ensures r.Some? ==> exists i :: TaggedScoreAt(s, i) && r.value == TaggedValue(s, i)
                          && forall j :: 0 <= j < i ==> !TaggedScoreAt(s, j)
  {
    match NextTaggedScore(s, 0)
    case None => None
    case Some(i) => Some(TaggedValue(s, i))
  }

  // ---------------------------------------------------------------------------------------
  // `/<ANALYSIS>([\s\S]*?)<\/ANALYSIS>/` and the follow-up block

  const AnalysisOpen: string := "<ANALYSIS>"
  const AnalysisClose: string := "</ANALYSIS>"
  const QuestionsOpen: string := "<FOLLOW_UP_QUESTIONS>"
  const QuestionsClose: string := "</FOLLOW_UP_QUESTIONS>"

  /**
    The captured group of `/<open>([\s\S]*?)<close>/`: the lazy body stops at the first
    `close` after the first `open`. If the first `open` has no `close` after it, no later
    one has either, so there is no match.
   */
  function TagBody(s: string, open: string, close: string): (r: Option<string>)
    ensures r.Some? ==> exists i, j :: OccursAt(s, open, i) && i + |open| <= j && OccursAt(s, close, j)
                          && r.value == s[i + |open|..j]
                          && (forall k :: 0 <= k < i ==> !OccursAt(s, open, k))
                          && (forall k :: i + |open| <= k < j ==> !OccursAt(s, close, k))
    ensures r.None? ==> forall i, j :: OccursAt(s, open, i) && i + |open| <= j ==> !OccursAt(s, close, j)
  {
    match IndexOf(s, open)
    case None => None
    case Some(i) =>
      match IndexOfFrom(s, close, i + |open|)
      case None => None
      case Some(j) => Some(s[i + |open|..j])
  }

  /**
    The review text both `Rating.fromAPIResponse` and the initial review take: the trimmed body
    of the first analysis block, or the whole text when there is none.
   */
  function AnalysisOrWhole(content: string): (r: string)
    ensures TagBody(content, AnalysisOpen, AnalysisClose).None? ==> r == content
    ensures TagBody(content, AnalysisOpen, AnalysisClose).Some? ==>
      IsTrimmed(r) && |r| <= |TagBody(content, AnalysisOpen, AnalysisClose).value|
  {
    match TagBody(content, AnalysisOpen, AnalysisClose)
    case Some(body) => Trim(body)
    case None => content
  }

  // ---------------------------------------------------------------------------------------
  // extractFollowUpQuestions (src/api/api.js)

  const Q1: string := "Q_1."
  const Q2: string := "Q_2."
  const Q3: string := "Q_3."

  /** A `Q_2.`/`Q_3.` found after a `Q_1.`/`Q_2.` starts after that marker ends. */
  lemma MarkersDoNotOverlap(s: string, m: string, n: string, i: nat, j: nat)
    requires m in {Q1, Q2, Q3} && n in {Q1, Q2, Q3}
    requires OccursAt(s, m, i) && OccursAt(s, n, j) && i < j
    ensures i + 4 <= j
  {
    assert s[j] == s[j..j + 4][0] == 'Q';
    assert s[i + 1] == s[i..i + 4][1] != 'Q';
    assert s[i + 2] == s[i..i + 4][2] != 'Q';
    assert s[i + 3] == s[i..i + 4][3] != 'Q';
  }

  /** Exactly three non-empty, trimmed questions. */
  predicate ThreeQuestions(r: seq<string>) {
    |r| == 3 && r[0] != [] && r[1] != [] && r[2] != [] && IsTrimmed(r[0]) && IsTrimmed(r[1]) && IsTrimmed(r[2])
  }

  /**
    `extractFollowUpQuestions(content)`: the three trimmed texts after `Q_1.`, `Q_2.` and
    `Q_3.` (first occurrences, which must come in that order), the third without one
    trailing `</FOLLOW_UP_QUESTIONS>`; `[]` unless all three are non-empty.
   */
  function ExtractFollowUpQuestions(content: string): (r: seq<string>)
    ensures content == [] ==> r == []
    ensures r == [] || ThreeQuestions(r)
    ensures r != [] ==> IndexOf(content, Q1).Some? && IndexOf(content, Q2).Some? && IndexOf(content, Q3).Some?
                        && IndexOf(content, Q1).value < IndexOf(content, Q2).value < IndexOf(content, Q3).value
  {
    var a := IndexOf(content, Q1);
    var b := IndexOf(content, Q2);
    var c := IndexOf(content, Q3);
    if content != [] && a.Some? && b.Some? && c.Some? && a.value < b.value < c.value then
      MarkersDoNotOverlap(content, Q1, Q2, a.value, b.value);
      MarkersDoNotOverlap(content, Q2, Q3, b.value, c.value);
      QuestionTexts(content, a.value, b.value, c.value)
    else []
  }

  /** The three question texts once the marker positions `a < b < c` are known. */
  function QuestionTexts(content: string, a: nat, b: nat, c: nat): (r: seq<string>)
    requires a + 4 <= b && b + 4 <= c && c + 4 <= |content|
    ensures r == [] || ThreeQuestions(r)
  {
    var t1 := Trim(content[a + 4..b]);
    var t2 := Trim(content[b + 4..c]);
    var t3 := Trim(content[c + 4..]);
    var t3' := WithoutClosingTag(t3);
    if t1 != [] && t2 != [] && t3' != [] then [t1, t2, t3'] else []
  }

  /** The third question with one trailing `</FOLLOW_UP_QUESTIONS>` cut off and trimmed again. */
  function WithoutClosingTag(t: string): (r: string)
    requires IsTrimmed(t)
    ensures IsTrimmed(r)
    ensures !EndsWith(t, QuestionsClose) ==> r == t
  {
    if EndsWith(t, QuestionsClose) then Trim(t[..|t| - |QuestionsClose|]) else t
  }

  /** The question lines `getFullContent` writes, numbered from `first`. */
  function QuestionLines(qs: seq<string>, first: nat): string
    decreases |qs|
  {
    if qs == [] then ""
    else "Q_" + NatToString(first) + ". " + qs[0] + "\n" + QuestionLines(qs[1..], first + 1)
  }

  /** The `<FOLLOW_UP_QUESTIONS>` section `getFullContent` writes for a non-empty list. */
  function QuestionsBlock(qs: seq<string>): string {
    QuestionsOpen + "\n" + QuestionLines(qs, 1) + QuestionsClose
  }

  /** A question that survives a round trip: non-empty, trimmed, without any of the markers. */
  predicate PlainQuestion(q: string) {
    q != [] && IsTrimmed(q) && !Contains(q, Q1) && !Contains(q, Q2) && !Contains(q, Q3)
  }

  /** None of the three markers occurs in `s`. */
  predicate NoMarkers(s: string) {
    !Contains(s, Q1) && !Contains(s, Q2) && !Contains(s, Q3)
  }

  lemma NoMarkersAcross(x: string, c: char, y: string)
    requires c != 'Q' && c != '_' && c != '.' && !IsDigit(c)
    requires NoMarkers(x) && NoMarkers(y)
    ensures NoMarkers(x + [c] + y)
  {
    NoOccurrenceAcross(x, c, y, Q1);
    NoOccurrenceAcross(x, c, y, Q2);
    NoOccurrenceAcross(x, c, y, Q3);
  }

  lemma NoMarkersWithoutDot(s: string)
    requires '.' !in s
    ensures NoMarkers(s)
  {
    NoOccurrenceMissingChar(s, Q1, '.');
    NoOccurrenceMissingChar(s, Q2, '.');
    NoOccurrenceMissingChar(s, Q3, '.');
  }

  /** Marker `m` does not occur in the other markers' lines. */
  lemma MarkerLineHasNoOtherMarker(q: string, m: string, other: string)
    requires PlainQuestion(q) && m in {Q1, Q2, Q3} && other in {Q1, Q2, Q3} && m != other
    ensures !Contains(other + [' '] + q, m)
  {
    assert m[2] != other[2];
    NoOccurrenceMissingChar(other, m, m[2]);
    NoOccurrenceAcross(other, ' ', q, m);
  }

  /**
    What `extractFollowUpQuestions` reads back from text that ends with the section
    `getFullContent` writes for three questions: exactly those questions, provided the text
    before the section mentions no marker.
   */
  lemma {:induction false} ExtractQuestionsOfBlock(prefix: string, q1: string, q2: string, q3: string)
    requires NoMarkers(prefix)
    requires PlainQuestion(q1) && PlainQuestion(q2) && PlainQuestion(q3)
    ensures ExtractFollowUpQuestions(prefix + QuestionsBlock([q1, q2, q3])) == [q1, q2, q3]
  {
    var h := prefix + QuestionsOpen;
    var t := h + "\n" + (Q1 + " " + q1 + "\n" + (Q2 + " " + q2 + "\n" + (Q3 + " " + q3 + "\n" + QuestionsClose)));
    assert prefix + QuestionsBlock([q1, q2, q3]) == t by {
      BlockShape(prefix, q1, q2, q3);
    }
    NoMarkersBeforeBlock(prefix);
    var a, b, c := MarkerPositions(h, q1, q2, q3);
    QuestionTextsOfBodies(t, a, b, c, q1, q2, q3);
  }

  /** The opening tag brings no marker with it. */
  lemma NoMarkersBeforeBlock(prefix: string)
    requires NoMarkers(prefix)
    ensures NoMarkers(prefix + QuestionsOpen)
  {
    assert prefix + QuestionsOpen == prefix + ['<'] + QuestionsOpen[1..];
    NoMarkersWithoutDot(QuestionsOpen[1..]);
    NoMarkersAcross(prefix, '<', QuestionsOpen[1..]);
  }

  /** The three slices between the markers of the section. */
  lemma BlockBodies(h: string, q1: string, q2: string, q3: string)
    ensures var s := h + "\n" + (Q1 + " " + q1 + "\n" + (Q2 + " " + q2 + "\n" + (Q3 + " " + q3 + "\n" + QuestionsClose)));
      var a := |h| + 1;
      var b := a + 5 + |q1| + 1;
      var c := b + 5 + |q2| + 1;
      && c + 4 <= |s|
      && s[a + 4..b] == " " + q1 + "\n"
      && s[b + 4..c] == " " + q2 + "\n"
      && s[c + 4..] == " " + (q3 + "\n" + QuestionsClose)
  {
  }

  lemma QuestionTextsOfBodies(s: string, a: nat, b: nat, c: nat, q1: string, q2: string, q3: string)
    requires q1 != [] && IsTrimmed(q1) && q2 != [] && IsTrimmed(q2) && q3 != [] && IsTrimmed(q3)
    requires a + 4 <= b && b + 4 <= c && c + 4 <= |s|
    requires IndexOf(s, Q1) == Some(a) && IndexOf(s, Q2) == Some(b) && IndexOf(s, Q3) == Some(c)
    requires s[a + 4..b] == " " + q1 + "\n"
    requires s[b + 4..c] == " " + q2 + "\n"
    requires s[c + 4..] == " " + (q3 + "\n" + QuestionsClose)
    ensures ExtractFollowUpQuestions(s) == [q1, q2, q3]
  {
    assert Trim(s[a + 4..b]) == q1 by {
      TrimPadded(" ", q1, "\n");
    }
    assert Trim(s[b + 4..c]) == q2 by {
      TrimPadded(" ", q2, "\n");
    }
    assert WithoutClosingTag(Trim(s[c + 4..])) == q3 by {
      ThirdQuestion(q3);
    }
    QuestionTextsAre(s, a, b, c, q1, q2, q3);
  }

  /** The marker positions and the three trimmed texts after them give the list. */
  lemma QuestionTextsAre(s: string, a: nat, b: nat, c: nat, q1: string, q2: string, q3: string)
    requires q1 != [] && q2 != [] && q3 != []
    requires a + 4 <= b && b + 4 <= c && c + 4 <= |s|
    requires IndexOf(s, Q1) == Some(a) && IndexOf(s, Q2) == Some(b) && IndexOf(s, Q3) == Some(c)
    requires Trim(s[a + 4..b]) == q1 && Trim(s[b + 4..c]) == q2 && WithoutClosingTag(Trim(s[c + 4..])) == q3
    ensures ExtractFollowUpQuestions(s) == [q1, q2, q3]
  {
    assert QuestionTexts(s, a, b, c) == [q1, q2, q3];
  }

  /** The text after `Q_3.` in the section reads back as the third question. */
  lemma ThirdQuestion(q3: string)
    requires q3 != [] && IsTrimmed(q3)
    ensures WithoutClosingTag(Trim(" " + (q3 + "\n" + QuestionsClose))) == q3
  {
    var t3 := q3 + "\n" + QuestionsClose;
    assert " " + t3 == " " + t3 + "";
    TrimPadded(" ", t3, "");
    assert EndsWith(t3, QuestionsClose);
    assert t3[..|t3| - |QuestionsClose|] == "" + q3 + "\n";
    TrimPadded("", q3, "\n");
  }

  /** The section as nested lines: `prefix + open`, a line break, then each marker line. */
  lemma BlockShape(prefix: string, q1: string, q2: string, q3: string)
    ensures prefix + QuestionsBlock([q1, q2, q3])
         == prefix + QuestionsOpen + "\n" + (Q1 + " " + q1 + "\n" + (Q2 + " " + q2 + "\n" + (Q3 + " " + q3 + "\n" + QuestionsClose)))
  {
    var l1 := Q1 + " " + q1 + "\n";
    var l2 := Q2 + " " + q2 + "\n";
    var l3 := Q3 + " " + q3 + "\n";
    ThreeQuestionLines(q1, q2, q3);
    BlockRegroup(prefix, QuestionsOpen + "\n", l1, l2, l3, QuestionsClose);
  }

  lemma ThreeQuestionLines(q1: string, q2: string, q3: string)
    ensures QuestionLines([q1, q2, q3], 1) == (Q1 + " " + q1 + "\n") + ((Q2 + " " + q2 + "\n") + (Q3 + " " + q3 + "\n"))
  {
    assert QuestionLines([q3], 3) == Q3 + " " + q3 + "\n" by {
      assert [q3][1..] == [];
      assert QuestionLines([], 4) == "";
      QuestionLine(q3, 3, Q3);
    }
    assert QuestionLines([q2, q3], 2) == (Q2 + " " + q2 + "\n") + QuestionLines([q3], 3) by {
      assert [q2, q3][1..] == [q3];
      QuestionLine(q2, 2, Q2);
    }
    assert QuestionLines([q1, q2, q3], 1) == (Q1 + " " + q1 + "\n") + QuestionLines([q2, q3], 2) by {
      assert [q1, q2, q3][1..] == [q2, q3];
      QuestionLine(q1, 1, Q1);
    }
  }

  /** The line `getFullContent` writes for question number `k` (1 to 3) starts with that number's marker. */
  lemma QuestionLine(q: string, k: nat, m: string)
    requires (k == 1 && m == Q1) || (k == 2 && m == Q2) || (k == 3 && m == Q3)
    ensures "Q_" + NatToString(k) + ". " + q + "\n" == m + " " + q + "\n"
  {
    assert NatToString(k) == [DigitChar(k)];
    assert "Q_" + NatToString(k) + ". " == m + " ";
  }

  lemma BlockRegroup(p: string, o: string, l1: string, l2: string, l3: string, c: string)
    ensures p + (o + (l1 + (l2 + l3)) + c) == p + o + (l1 + (l2 + (l3 + c)))
  {
  }

  /**
    In `h + "\n" + marker lines` where `h` mentions no marker, the first occurrence of each
    marker is at the start of its own line.
   */
  lemma MarkerPositions(h: string, q1: string, q2: string, q3: string) returns (a: nat, b: nat, c: nat)
    requires NoMarkers(h)
    requires PlainQuestion(q1) && PlainQuestion(q2) && PlainQuestion(q3)
    ensures var s := h + "\n" + (Q1 + " " + q1 + "\n" + (Q2 + " " + q2 + "\n" + (Q3 + " " + q3 + "\n" + QuestionsClose)));
      && a == |h| + 1 && b == a + 5 + |q1| + 1 && c == b + 5 + |q2| + 1
      && IndexOf(s, Q1) == Some(a) && IndexOf(s, Q2) == Some(b) && IndexOf(s, Q3) == Some(c)
      && c + 4 <= |s|
      && s[a + 4..b] == " " + q1 + "\n"
      && s[b + 4..c] == " " + q2 + "\n"
      && s[c + 4..] == " " + (q3 + "\n" + QuestionsClose)
  {
    var rest := Q3 + " " + q3 + "\n" + QuestionsClose;
    FirstMarkerAt(h, q1, Q2 + " " + q2 + "\n" + rest);
    SecondMarkerAt(h, q1, q2, rest);
    ThirdMarkerAt(h, q1, q2, q3);
    BlockBodies(h, q1, q2, q3);
    a, b, c := |h| + 1, |h| + |q1| + 7, |h| + |q1| + |q2| + 13;
  }

  lemma FirstMarkerAt(h: string, q1: string, rest: string)
    requires NoMarkers(h)
    ensures IndexOf(h + "\n" + (Q1 + " " + q1 + "\n" + rest), Q1) == Some(|h| + 1)
  {
    MarkerAfterBreak(h, Q1 + " " + q1 + "\n" + rest, Q1);
  }

  lemma SecondMarkerAt(h: string, q1: string, q2: string, rest: string)
    requires NoMarkers(h) && PlainQuestion(q1)
    ensures IndexOf(h + "\n" + (Q1 + " " + q1 + "\n" + (Q2 + " " + q2 + "\n" + rest)), Q2) == Some(|h| + |q1| + 7)
  {
    var x2 := h + "\n" + Q1 + " " + q1;
    var y2 := Q2 + " " + q2 + "\n" + rest;
    assert !Contains(x2, Q2) by {
      MarkerLineHasNoOtherMarker(q1, Q2, Q1);
      assert x2 == h + ['\n'] + (Q1 + [' '] + q1);
      NoOccurrenceAcross(h, '\n', Q1 + [' '] + q1, Q2);
    }
    MarkerAfterBreak(x2, y2, Q2);
    assert h + "\n" + (Q1 + " " + q1 + "\n" + y2) == x2 + "\n" + y2;
  }

  lemma ThirdMarkerAt(h: string, q1: string, q2: string, q3: string)
    requires NoMarkers(h) && PlainQuestion(q1) && PlainQuestion(q2)
    ensures IndexOf(h + "\n" + (Q1 + " " + q1 + "\n" + (Q2 + " " + q2 + "\n" + (Q3 + " " + q3 + "\n" + QuestionsClose))), Q3)
         == Some(|h| + |q1| + |q2| + 13)
  {
    var l1, l2 := Q1 + " " + q1, Q2 + " " + q2;
    var x3 := h + "\n" + l1 + "\n" + l2;
    var y3 := Q3 + " " + q3 + "\n" + QuestionsClose;
    NoThirdMarkerBefore(h, q1, q2);
    MarkerAfterBreak(x3, y3, Q3);
    Regroup(h, l1, l2, y3);
  }

  lemma NoThirdMarkerBefore(h: string, q1: string, q2: string)
    requires NoMarkers(h) && PlainQuestion(q1) && PlainQuestion(q2)
    ensures !Contains(h + "\n" + (Q1 + " " + q1) + "\n" + (Q2 + " " + q2), Q3)
  {
    var x2 := h + "\n" + (Q1 + " " + q1);
    assert !Contains(x2, Q3) by {
      MarkerLineHasNoOtherMarker(q1, Q3, Q1);
      NoOccurrenceAcross(h, '\n', Q1 + [' '] + q1, Q3);
    }
    MarkerLineHasNoOtherMarker(q2, Q3, Q2);
    NoOccurrenceAcross(x2, '\n', Q2 + [' '] + q2, Q3);
  }

  /** Regrouping three lines and a tail joined by line breaks. */
  lemma Regroup(h: string, l1: string, l2: string, y: string)
    ensures h + "\n" + (l1 + "\n" + (l2 + "\n" + y)) == h + "\n" + l1 + "\n" + l2 + "\n" + y
  {
  }

  /** A marker that does not occur before a line break first occurs right after it when the next line starts with it. */
  lemma MarkerAfterBreak(x: string, y: string, m: string)
    requires m != [] && '\n' !in m && !Contains(x, m) && StartsWith(y, m)
    ensures IndexOf(x + "\n" + y, m) == Some(|x| + 1)
  {
    assert x + "\n" + y == x + ['\n'] + y;
    IndexOfFromAcross(x, '\n', y, m, 0);
  }

  /** The same round trip for the section on its own. */
  lemma ExtractQuestionsRoundTrip(q1: string, q2: string, q3: string)
    requires PlainQuestion(q1) && PlainQuestion(q2) && PlainQuestion(q3)
    ensures ExtractFollowUpQuestions(QuestionsBlock([q1, q2, q3])) == [q1, q2, q3]
  {
    EmptyHasNoOccurrence(Q1);
    EmptyHasNoOccurrence(Q2);
    EmptyHasNoOccurrence(Q3);
    ExtractQuestionsOfBlock("", q1, q2, q3);
    assert "" + QuestionsBlock([q1, q2, q3]) == QuestionsBlock([q1, q2, q3]);
  }
}

=== FILE: score_indicator.dfy ===
/**
  The state behind one score indicator and its tooltip (`src/ui/ScoreIndicator.js`): the
  status/score/text fields `update` maintains, the look of the indicator badge, tooltip
  visibility, the follow-up conversation, the initial review, and the per-id registry.
  The DOM the class builds is not modelled; only the fields it reads and writes are.
 */
module ScoreIndicator {
  import opened Wrappers
  import opened JsString
  import opened Scores
  import opened Messages
  import opened ResponseParsing

  datatype Status = Pending | Streaming | Rated | Error | Cached | Blacklisted | Manual

  datatype Indicator = Indicator(
    tweetId: string,
    status: Status,
    score: Score,
    description: string,
    reasoning: string,
    metadata: Option<Metadata>,
    questions: seq<string>,
    conversationHistory: seq<Turn>,
    qaConversationHistory: seq<Message>,
    isPinned: bool,
    isVisible: bool,
    autoScroll: bool,
    isAuthorBlacklisted: bool)

  /** The state the constructor sets up for the tweet `tweetId`. */
  function NewIndicator(tweetId: string): (i: Indicator)
    ensures i.tweetId == tweetId && i.status == Pending && i.score == Null
    ensures !i.isPinned && !i.isVisible && i.autoScroll
  {
    Indicator(tweetId, Pending, Null, "", "", None, [], [], [], false, false, true, false)
  }

  /**
    The arguments of `update`: `None` is an omitted status or a `null` metadata or an omitted
    question list; an omitted score is `null` and omitted texts are `''`.
   */
  datatype UpdateArgs = UpdateArgs(
    status: Option<Status>,
    score: Score,
    description: string,
    reasoning: string,
    metadata: Option<Metadata>,
    questions: Option<seq<string>>)

  /** The score `update` passes on: JavaScript applies the `null` default to an `undefined` argument too. */
  function ArgScore(a: UpdateArgs): Score {
    if a.score.Undefined? then Null else a.score
  }

  predicate StatusChanged(i: Indicator, a: UpdateArgs) {
    a.status.Some? && a.status.value != i.status
  }

  /** `score !== null && this.score !== score`, where `NaN` differs even from itself. */
  predicate ScoreChanged(i: Indicator, a: UpdateArgs) {
    !ArgScore(a).Null? && ArgScore(a).StrictlyDiffers(i.score)
  }

  predicate AnythingChanged(i: Indicator, a: UpdateArgs) {
    || StatusChanged(i, a) || ScoreChanged(i, a)
    || (a.description != "" && a.description != i.description)
    || (a.reasoning != "" && a.reasoning != i.reasoning)
    || (a.metadata.Some? && a.metadata != i.metadata)
    || (a.questions.Some? && a.questions.value != i.questions)
  }

  /** The score rule: pending and error take the given score, streaming keeps the old one over `null`. */
  function NextScore(status: Status, prev: Score, given: Score): Score {
    if status == Pending || status == Error then given
    else if status == Streaming && given.Null? then prev
    else given
  }

  /** `update(args)`: a call that changes nothing leaves the indicator as it was. */
  function Update(i: Indicator, a: UpdateArgs): (r: Indicator)
    ensures !AnythingChanged(i, a) ==> r == i
  {
    if !AnythingChanged(i, a) then i
    else
      var status := if StatusChanged(i, a) then a.status.value else i.status;
      var score := if ScoreChanged(i, a) || StatusChanged(i, a) then NextScore(status, i.score, ArgScore(a)) else i.score;
      i.(
        status := status,
        score := score,
        description := if a.description != "" then a.description else i.description,
        reasoning := if a.reasoning != "" then a.reasoning else i.reasoning,
        metadata := if a.metadata.Some? then a.metadata else i.metadata,
        questions := if a.questions.Some? then a.questions.value else i.questions,
        autoScroll := if StatusChanged(i, a) then status == Pending || status == Streaming else i.autoScroll)
  }

  /** Every field `update` takes is set when given and kept when omitted. */
  lemma UpdateFields(i: Indicator, a: UpdateArgs)
    ensures var r := Update(i, a);
      && (a.status.None? ==> r.status == i.status)
      && (a.status.Some? ==> r.status == a.status.value)
      && (a.description == "" ==> r.description == i.description)
      && (a.description != "" ==> r.description == a.description)
      && (a.reasoning == "" ==> r.reasoning == i.reasoning)
      && (a.reasoning != "" ==> r.reasoning == a.reasoning)
      && (a.metadata.None? ==> r.metadata == i.metadata)
      && (a.metadata.Some? ==> r.metadata == a.metadata)
      && (a.questions.None? ==> r.questions == i.questions)
      && (a.questions.Some? ==> r.questions == a.questions.value)
      && (!StatusChanged(i, a) && ArgScore(a).Null? ==> r.score == i.score)
      && r.tweetId == i.tweetId && r.isPinned == i.isPinned && r.isVisible == i.isVisible
      && r.conversationHistory == i.conversationHistory && r.qaConversationHistory == i.qaConversationHistory
  {
  }

  /** When the status or the score changes, the score follows the score rule. */
  lemma UpdateScoreRule(i: Indicator, a: UpdateArgs)
    requires StatusChanged(i, a) || ScoreChanged(i, a)
    ensures var r := Update(i, a);
      && ((r.status == Pending || r.status == Error) ==> r.score == ArgScore(a))
      && (r.status == Streaming && ArgScore(a).Null? ==> r.score == i.score)
      && (r.status != Pending && r.status != Error && !ArgScore(a).Null? ==> r.score == ArgScore(a))
  {
  }

  /** A status change sets `autoScroll` exactly for pending and streaming; otherwise it is left alone. */
  lemma UpdateAutoScroll(i: Indicator, a: UpdateArgs)
    ensures StatusChanged(i, a) ==> (Update(i, a).autoScroll <==> a.status.value == Pending || a.status.value == Streaming)
    ensures !StatusChanged(i, a) ==> Update(i, a).autoScroll == i.autoScroll
  {
  }

  /** Applying the same arguments twice leaves the state of applying them once. */
  lemma UpdateIdempotent(i: Indicator, a: UpdateArgs)
    ensures Update(Update(i, a), a) == Update(i, a)
  {
  }

  /** The class and text `_updateIndicatorUI` gives the badge. */
  datatype Look = Look(cls: string, text: string)

  /** `String(score)` where the badge shows a score, `?` or the fallback when there is none. */
  function ScoreOr(s: Score, fallback: string): string {
    if s.IsSet() then ScoreToString(s) else fallback
  }

  /** `_updateIndicatorUI`: one class per status; an auto-scored author overrides them all. */
  function IndicatorLook(i: Indicator): (l: Look)
    ensures i.isAuthorBlacklisted ==> l == Look("blacklisted-author-indicator", ScoreOr(i.score, "?"))
    ensures !i.isAuthorBlacklisted && i.status == Pending ==> l.text == "⏳"
    ensures !i.isAuthorBlacklisted && i.status == Error ==> l.text == "⚠️"
    ensures !i.isAuthorBlacklisted && i.status == Manual ==> l.text == "💭"
    ensures !i.isAuthorBlacklisted && i.status == Streaming ==> l.text == ScoreOr(i.score, "🔄")
    ensures !i.isAuthorBlacklisted && i.status in {Rated, Cached, Blacklisted} ==> l.text == ScoreToString(i.score)
  {
    if i.isAuthorBlacklisted then Look("blacklisted-author-indicator", ScoreOr(i.score, "?"))
    else match i.status
      case Pending => Look("pending-rating", "⏳")
      case Streaming => Look("streaming-rating", ScoreOr(i.score, "🔄"))
      case Error => Look("error-rating", "⚠️")
      case Cached => Look("cached-rating", ScoreToString(i.score))
      case Blacklisted => Look("blacklisted-rating", ScoreToString(i.score))
      case Manual => Look("manual-rating", "💭")
      case Rated => Look("rated-rating", ScoreToString(i.score))
  }

  /** The badge class tells the status apart: two indicators with the same class share their status. */
  lemma LookClassIdentifiesStatus(i: Indicator, j: Indicator)
    requires !i.isAuthorBlacklisted && !j.isAuthorBlacklisted
    requires IndicatorLook(i).cls == IndicatorLook(j).cls
    ensures i.status == j.status
  {
  }

  /** `show()`. */
  function Show(i: Indicator): (r: Indicator)
    ensures r.isVisible && r.isPinned == i.isPinned
  {
    i.(isVisible := true)
  }

  /** `hide()`: a pinned tooltip stays as it is. */
  function Hide(i: Indicator): (r: Indicator)
    ensures i.isPinned ==> r == i
    ensures !i.isPinned ==> !r.isVisible
    ensures r.isPinned == i.isPinned
  {
    if i.isPinned then i else i.(isVisible := false)
  }

  /** `toggle()`: hides a visible unpinned tooltip and shows it in every other case. */
  function Toggle(i: Indicator): (r: Indicator)
    ensures r.isVisible <==> !(i.isVisible && !i.isPinned)
    ensures r.isPinned == i.isPinned
  {
    if i.isVisible && !i.isPinned then Hide(i) else Show(i)
  }

  /** `pin()` and `unpin()`. */
  function SetPinned(i: Indicator, pinned: bool): (r: Indicator)
    ensures r.isPinned == pinned && r.isVisible == i.isVisible
  {
    i.(isPinned := pinned)
  }

  /** Toggling an unpinned tooltip twice gives it back unchanged; a pinned one ends up shown. */
  lemma ToggleTwice(i: Indicator)
    ensures !i.isPinned ==> Toggle(Toggle(i)) == i
    ensures i.isPinned ==> Toggle(Toggle(i)).isVisible
  {
  }

  /** A turn that asked `question` and still waits for its answer. */
  predicate PendingFor(t: Turn, question: string) {
    t.question == question && t.answer == "pending"
  }

  /** `findIndex` of the first turn pending for `question`. */
  function FirstPending(h: seq<Turn>, question: string): (r: Option<nat>)
    ensures r.None? <==> forall k :: 0 <= k < |h| ==> !PendingFor(h[k], question)
    ensures r.Some? ==> r.value < |h| && PendingFor(h[r.value], question)
    ensures r.Some? ==> forall k :: 0 <= k < r.value ==> !PendingFor(h[k], question)
  {
    if h == [] then None
    else if PendingFor(h[0], question) then Some(0)
    else match FirstPending(h[1..], question)
      case None => None
      case Some(k) => Some(k + 1)
  }

  /**
    `_updateConversationHistory(question, answer, reasoning)`: the first turn pending for
    `question` gets the answer and reasoning; every other turn stays; without one nothing changes.
   */
  function AnswerPending(h: seq<Turn>, question: string, answer: string, reasoning: string): (r: seq<Turn>)
    ensures |r| == |h|
    ensures (forall k :: 0 <= k < |h| ==> !PendingFor(h[k], question)) ==> r == h
    ensures FirstPending(h, question).Some? ==>
      var k := FirstPending(h, question).value;
      && r[k] == h[k].(answer := answer, reasoning := reasoning)
      && forall j :: 0 <= j < |h| && j != k ==> r[j] == h[j]
  {
    match FirstPending(h, question)
    case None => h
    case Some(k) => h[k := h[k].(answer := answer, reasoning := reasoning)]
  }

  /** The default the follow-up prompt gets when the user has no instructions of their own. */
  const DefaultInstructions: string :=
    "Rate the tweet on a scale from 1 to 10 based on its clarity, insight, creativity, and overall quality."

  const InstructionsPlaceholder: string := "{USER_INSTRUCTIONS_PLACEHOLDER}"

  /** The inputs of `updateInitialReviewAndBuildHistory`, plus whether the selected model accepts images. */
  datatype ReviewInput = ReviewInput(
    fullContext: string,
    mediaUrls: seq<string>,
    apiResponseContent: string,
    reviewSystemPrompt: string,
    followUpSystemPrompt: string,
    userInstructions: string,
    modelSupportsImages: bool)

  /** The user message of the review: the tweet text, then one image part per URL when images are accepted. */
  function UserContent(fullContext: string, mediaUrls: seq<string>, images: bool): (parts: seq<Part>)
    ensures |parts| == if images then 1 + |mediaUrls| else 1
    ensures parts[0] == Text(fullContext)
    ensures images ==> forall k :: 0 <= k < |mediaUrls| ==> parts[k + 1] == ImageUrl(mediaUrls[k])
  {
    [Text(fullContext)] + if images then seq(|mediaUrls|, k requires 0 <= k < |mediaUrls| => ImageUrl(mediaUrls[k])) else []
  }

  /** The instructions that replace the placeholder: the user's own, or the default when they have none. */
  function EffectiveInstructions(userInstructions: string): (r: string)
    ensures r != []
    ensures userInstructions != "" ==> r == userInstructions
  {
    if userInstructions != "" then userInstructions else DefaultInstructions
  }

  /**
    The four-message history `updateInitialReviewAndBuildHistory` builds: the review system
    prompt, the tweet as the user saw it, the model's reply, and the follow-up system prompt
    with the instructions put in the place of the first placeholder.
   */
  function ReviewHistory(in_: ReviewInput): (h: seq<Message>)
    ensures |h| == 4
    ensures h[0] == TextMessage(System, in_.reviewSystemPrompt)
    ensures h[1].role == User && h[1].content == UserContent(in_.fullContext, in_.mediaUrls, in_.modelSupportsImages)
    ensures h[2] == TextMessage(Assistant, in_.apiResponseContent)
    ensures h[3].role == System
  {
    [ TextMessage(System, in_.reviewSystemPrompt),
      Message(User, UserContent(in_.fullContext, in_.mediaUrls, in_.modelSupportsImages)),
      TextMessage(Assistant, in_.apiResponseContent),
      TextMessage(System, ReplaceFirst(in_.followUpSystemPrompt, InstructionsPlaceholder, EffectiveInstructions(in_.userInstructions))) ]
  }

  /** `<SCORE> SCORE_n </SCORE>` read as a number, `null` when the reply has none. */
  function ReviewScore(content: string): (s: Score)
    ensures s.Null? <==> TaggedScore(content).None?
    ensures TaggedScore(content).Some? ==> s == Num(TaggedScore(content).value)
  {
    match TaggedScore(content)
    case Some(n) => Num(n)
    case None => Null
  }

  /**
    `updateInitialReviewAndBuildHistory`: score from `<SCORE> SCORE_n </SCORE>` (status rated)
    or `null` (status error), description from the analysis block or the whole text, the
    follow-up questions, and a four-message history for later follow-ups.
   */
  function InitialReview(i: Indicator, in_: ReviewInput): (r: Indicator)
    ensures r.status == Rated <==> TaggedScore(in_.apiResponseContent).Some?
    ensures r.status == Rated || r.status == Error
    ensures r.status == Rated ==> r.score == Num(TaggedScore(in_.apiResponseContent).value)
    ensures r.status == Error ==> r.score == Null
    ensures r.questions == ExtractFollowUpQuestions(in_.apiResponseContent)
    ensures r.description == AnalysisOrWhole(in_.apiResponseContent)
    ensures r.qaConversationHistory == ReviewHistory(in_)
    ensures r.tweetId == i.tweetId && r.isPinned == i.isPinned && r.isVisible == i.isVisible
  {
    var score := ReviewScore(in_.apiResponseContent);
    i.(
      score := score,
      description := AnalysisOrWhole(in_.apiResponseContent),
      questions := ExtractFollowUpQuestions(in_.apiResponseContent),
      status := if score.Null? then Error else Rated,
      qaConversationHistory := ReviewHistory(in_))
  }

  /**
    The follow-up system prompt carries the user's instructions, or the default, where the
    first placeholder was, with their `$` patterns expanded as `String.prototype.replace`
    does; instructions without a dollar sign (the default among them) go in as they are.
   */
  lemma FollowUpPromptInstructions(i: Indicator, in_: ReviewInput)
    requires Contains(in_.followUpSystemPrompt, InstructionsPlaceholder)
    ensures var p := in_.followUpSystemPrompt;
      var k := IndexOf(p, InstructionsPlaceholder).value;
      var before := p[..k];
      var after := p[k + |InstructionsPlaceholder|..];
      InitialReview(i, in_).qaConversationHistory[3]
        == TextMessage(System, before + Substitution(EffectiveInstructions(in_.userInstructions), InstructionsPlaceholder, before, after) + after)
    ensures '$' !in EffectiveInstructions(in_.userInstructions) ==>
      var p := in_.followUpSystemPrompt;
      var k := IndexOf(p, InstructionsPlaceholder).value;
      InitialReview(i, in_).qaConversationHistory[3]
        == TextMessage(System, p[..k] + EffectiveInstructions(in_.userInstructions) + p[k + |InstructionsPlaceholder|..])
  {
    if '$' !in EffectiveInstructions(in_.userInstructions) {
      ReplaceFirstWithoutDollar(in_.followUpSystemPrompt, InstructionsPlaceholder, EffectiveInstructions(in_.userInstructions));
    }
  }

  /** Indicators by tweet id (`ScoreIndicatorRegistry.managers`). */
  type Registry = map<string, Indicator>

  /** A registry after `get`, and what `get` returned. */
  datatype Lookup = Lookup(registry: Registry, instance: Option<Indicator>)

  /**
    `ScoreIndicatorRegistry.get(tweetId, article)`: `null` for an empty id; the registered
    indicator when there is one; otherwise, when an article is given, a new indicator that
    registers itself under the id read from the article (`articleId`).
   */
  function RegistryGet(reg: Registry, tweetId: string, articleId: Option<string>): (r: Lookup)
    ensures tweetId == "" ==> r == Lookup(reg, None)
    ensures tweetId != "" && tweetId in reg ==> r == Lookup(reg, Some(reg[tweetId]))
    ensures tweetId != "" && tweetId !in reg && articleId.None? ==> r == Lookup(reg, None)
    ensures tweetId != "" && tweetId !in reg && articleId.Some? ==>
      r.instance == Some(NewIndicator(articleId.value))
      && r.registry == reg[articleId.value := NewIndicator(articleId.value)]
  {
    if tweetId == "" then Lookup(reg, None)
    else if tweetId in reg then Lookup(reg, Some(reg[tweetId]))
    else match articleId
      case None => Lookup(reg, None)
      case Some(id) =>
        var created := NewIndicator(id);
        Lookup(reg[id := created], Some(created))
  }

  /** `get` creates at most one indicator and never replaces the one registered under the asked id. */
  lemma RegistryGetKeepsExisting(reg: Registry, tweetId: string, articleId: Option<string>)
    ensures var r := RegistryGet(reg, tweetId, articleId);
      && reg.Keys <= r.registry.Keys
      && |r.registry.Keys - reg.Keys| <= 1
      && (tweetId in reg ==> r.registry == reg)
  {
    var r := RegistryGet(reg, tweetId, articleId);
    if tweetId != "" && tweetId !in reg && articleId.Some? {
      var id := articleId.value;
      assert r.registry.Keys - reg.Keys <= {id};
      assert |{id}| == 1;
      SubsetSize(r.registry.Keys - reg.Keys, {id});
    } else {
      assert r.registry.Keys - reg.Keys == {};
    }
  }

  lemma SubsetSize<T>(a: set<T>, b: set<T>)
    requires a <= b
    ensures |a| <= |b|
  {
    assert b == a + (b - a);
  }

  /** `ScoreIndicatorRegistry.remove(tweetId)`: only that id goes. */
  function RegistryRemove(reg: Registry, tweetId: string): (r: Registry)
    ensures tweetId !in r
    ensures forall k :: k != tweetId ==> (k in r <==> k in reg) && (k in reg ==> r[k] == reg[k])
  {
    reg - {tweetId}
  }
}

=== FILE: scores.dfy ===
/**
  Scores as JavaScript values: a rating score is `undefined`, `null`, `NaN` or an integer.
  Also `parseInt(s, 10)` and `String(score)`, which the scripts use to move scores
  through `data-*` attributes and response text.
 */
module Scores {
  import opened JsString

  datatype Score = Undefined | Null | NaN | Num(value: int) {

    /** `score !== null && score !== undefined`. */
    predicate IsSet() {
      NaN? || Num?
    }

    /** JavaScript's `!==` between two scores: `NaN` differs even from itself. */
    predicate StrictlyDiffers(other: Score) {
      NaN? || other.NaN? || this != other
    }

    /** `score < threshold`; false for anything that is not a number. */
    predicate Below(threshold: int) {
      Num? && value < threshold
    }
  }

  /** `String(n)` for an integer. */
  function IntToString(n: int): (r: string)
    ensures r != []
  {
    if n < 0 then "-" + NatToString(-n) else NatToString(n)
  }

  /** `String(score)`. */
  function ScoreToString(s: Score): string {
    match s
    case Undefined => "undefined"
    case Null => "null"
    case NaN => "NaN"
    case Num(n) => IntToString(n)
  }

  /**
    `parseInt(s, 10)`: skip leading white space, read an optional sign and the longest run of
    decimal digits; `NaN` when there are none.
   */
  function ParseInt(s: string): (r: Score)
    ensures r.NaN? || r.Num?
  {
    var a := LeadingSpace(s);
    var neg := a < |s| && s[a] == '-';
    var start := if a < |s| && (s[a] == '-' || s[a] == '+') then a + 1 else a;
    var e := DigitRunEnd(s, start);
    if e == start then NaN
    else
      var v: int := DigitsValue(s[start..e]);
      Num(if neg then -v else v)
  }

  /**
    From `1e21` on, `String(n)` switches to exponent form (`"1e+21"`), which `parseInt` reads
    only up to the `e`; below it an integer is written out digit by digit.
   */
  const ExponentFormBound: int := 1_000_000_000_000_000_000_000

  /** `parseInt(String(n), 10) === n` for every integer `n` that `String` writes in plain digits. */
  lemma ParseIntOfIntToString(n: int)
    requires -ExponentFormBound < n < ExponentFormBound
    ensures ParseInt(IntToString(n)) == Num(n)
  {
    var s := IntToString(n);
    var d := NatToString(if n < 0 then -n else n);
    assert !IsWhitespace(s[0]);
    assert LeadingSpace(s) == 0;
    if n < 0 {
      assert s == "-" + d;
      DigitRunFrom(s, 1, |s|);
      assert s[1..|s|] == d;
    } else {
      assert s == d;
      DigitRunFrom(s, 0, |s|);
      assert s[0..|s|] == d;
    }
  }
}

=== FILE: tweet.dfy ===
/**
  The `Tweet` model of `src/models/Tweet.js`: its processing state, the setters that move it,
  the filtering decision, serialisation to a plain object and back, and the thread-media
  section of the context text sent to the model.
 */
module Tweets {
  import opened Wrappers
  import opened JsString
  import opened Scores
  import opened Ratings
  import opened Handles

  /** `TweetState`; a tweet keeps its state as the string value, which hydration does not check. */
  datatype TweetState = Pending | Streaming | Rated | Error | Cached | Blacklisted {
    function Value(): string {
      match this
      case Pending => "pending"
      case Streaming => "streaming"
      case Rated => "rated"
      case Error => "error"
      case Cached => "cached"
      case Blacklisted => "blacklisted"
    }
  }

  /** `Object.values(TweetState)`. */
  const StateValues: seq<string> := ["pending", "streaming", "rated", "error", "cached", "blacklisted"]

  /** The state values are exactly the values of the six states. */
  lemma StateValuesAreTheStates(v: string)
    ensures v in StateValues <==> exists s: TweetState :: s.Value() == v
  {
    if v in StateValues {
      if v == "pending" { assert Pending.Value() == v; }
      else if v == "streaming" { assert Streaming.Value() == v; }
      else if v == "rated" { assert Rated.Value() == v; }
      else if v == "error" { assert Error.Value() == v; }
      else if v == "cached" { assert Cached.Value() == v; }
      else { assert Blacklisted.Value() == v; }
    }
  }

  /**
    `this.error`: `setError` stores an `Error`, while hydration stores whatever string the
    object carried.
   */
  datatype ErrorValue = ErrorObject(message: string) | ErrorString(text: string) {
    /** The message of an `Error`, or the string itself. */
    function Text(): string {
      match this
      case ErrorObject(m) => m
      case ErrorString(s) => s
    }
  }

  /** `threadContext`, passed through unchanged. */
  datatype ThreadContext = ThreadContext(replyToId: Option<string>, replyTo: Option<string>, threadMediaUrls: Option<seq<string>>)

  datatype Tweet = Tweet(
    id: string,
    author: string,
    textContent: string,
    mediaURLs: seq<string>,
    isAd: bool,
    state: string,
    error: Option<ErrorValue>,
    rating: Option<Rating>,
    parentId: Option<string>,
    quoteId: Option<string>,
    engagementStats: string,
    timestamp: int,
    threadContext: Option<ThreadContext>,
    individualMediaUrls: seq<string>,
    quotedMediaUrls: seq<string>,
    quotedAuthor: string,
    quotedText: string,
    quotedTweetId: Option<string>)

  /** `new Tweet(id, author, textContent, mediaURLs, isAd)` at time `now`. */
  function NewTweet(id: string, author: string, textContent: string, mediaURLs: Option<seq<string>>, isAd: bool, now: int): (t: Tweet)
    ensures t.state == Pending.Value() && t.rating.None? && t.error.None?
    ensures t.id == id && t.author == author && t.textContent == textContent && t.isAd == isAd
    ensures t.mediaURLs == mediaURLs.GetOr([]) && t.individualMediaUrls == t.mediaURLs
    ensures t.parentId.None? && t.quoteId.None? && t.quotedMediaUrls == [] && t.timestamp == now
  {
    var media := mediaURLs.GetOr([]);
    Tweet(id, author, textContent, media, isAd, Pending.Value(), None, None, None, None, "", now, None,
          media, [], "", "", None)
  }

  /** `setState(v)`: only one of the six state values is taken; anything else is ignored. */
  function SetState(t: Tweet, v: string): (r: Tweet)
    ensures v in StateValues ==> r == t.(state := v)
    ensures v !in StateValues ==> r == t
  {
    if v in StateValues then t.(state := v) else t
  }

  /** `setRating(rating)`: always stored; the state becomes rated only for a rating with a score. */
  function SetRating(t: Tweet, rating: Option<Rating>): (r: Tweet)
    ensures r.rating == rating
    ensures rating.Some? && rating.value.score.IsSet() ==> r.state == Rated.Value()
    ensures !(rating.Some? && rating.value.score.IsSet()) ==> r.state == t.state
    ensures r.(rating := t.rating, state := t.state) == t
  {
    var r := t.(rating := rating);
    if rating.Some? && rating.value.score.IsSet() then r.(state := Rated.Value()) else r
  }

  /** `setError(e)`: a string is wrapped in an `Error`; the state becomes error. */
  function SetError(t: Tweet, e: ErrorValue): (r: Tweet)
    ensures r.state == Error.Value() && r.error.Some? && r.error.value.ErrorObject?
    ensures r.error.value.message == e.Text()
    ensures r.(error := t.error, state := t.state) == t
  {
    t.(error := Some(ErrorObject(e.Text())), state := Error.Value())
  }

  /** `setParent(p)` / `setQuote(q)`: the kept id is the linked tweet's id, or `null` for none. */
  function SetParent(t: Tweet, parent: Option<Tweet>): (r: Tweet)
    ensures r.parentId == (if parent.Some? then Some(parent.value.id) else None)
    ensures r.(parentId := t.parentId) == t
  {
    t.(parentId := match parent case Some(p) => Some(p.id) case None => None)
  }

  function SetQuote(t: Tweet, quote: Option<Tweet>): (r: Tweet)
    ensures r.quoteId == (if quote.Some? then Some(quote.value.id) else None)
    ensures r.(quoteId := t.quoteId) == t
  {
    t.(quoteId := match quote case Some(q) => Some(q.id) case None => None)
  }

  /**
    `shouldBeFiltered(threshold)`: ads and known ad authors are always filtered, listed
    authors never, tweets still being rated never; otherwise the tweet is filtered when it
    has a score below the threshold.
   */
  function ShouldBeFiltered(t: Tweet, threshold: int, adAuthors: set<string>, listed: seq<string>): (filtered: bool)
    ensures t.isAd || (t.author != "" && t.author in adAuthors) ==> filtered
    ensures filtered && !t.isAd && !(t.author != "" && t.author in adAuthors) ==> !IsUserBlacklisted(t.author, listed)
    ensures filtered && !t.isAd && !(t.author != "" && t.author in adAuthors) ==> t.state != Pending.Value() && t.state != Streaming.Value()
    ensures filtered && !t.isAd && !(t.author != "" && t.author in adAuthors) ==> t.rating.Some? && t.rating.value.score.Below(threshold)
    ensures !t.isAd && !(t.author != "" && t.author in adAuthors) && !IsUserBlacklisted(t.author, listed)
            && t.state != Pending.Value() && t.state != Streaming.Value()
            ==> (filtered <==> t.rating.Some? && t.rating.value.score.IsSet() && t.rating.value.score.Below(threshold))
  {
    if t.isAd || (t.author != "" && t.author in adAuthors) then true
    else if IsUserBlacklisted(t.author, listed) then false
    else if t.state == Pending.Value() || t.state == Streaming.Value() then false
    else t.rating.Some? && t.rating.value.score.IsSet() && t.rating.value.score.Below(threshold)
  }

  /**
    A non-ad tweet of an unlisted author that is not pending or streaming, in whichever
    state it is otherwise (rated, cached, error or blacklisted), is filtered exactly when it
    has a score that is below the threshold; a numeric score compares as a number.
   */
  lemma FilteredByScore(t: Tweet, threshold: int, adAuthors: set<string>, listed: seq<string>)
    requires !t.isAd && !(t.author != "" && t.author in adAuthors) && !IsUserBlacklisted(t.author, listed)
    requires t.state != Pending.Value() && t.state != Streaming.Value()
    ensures ShouldBeFiltered(t, threshold, adAuthors, listed)
            <==> t.rating.Some? && t.rating.value.score.IsSet() && t.rating.value.score.Below(threshold)
    ensures t.rating.Some? && t.rating.value.score.Num?
            ==> (ShouldBeFiltered(t, threshold, adAuthors, listed) <==> t.rating.value.score.value < threshold)
  {
  }

  // ---------------------------------------------------------------------------------------
  // toJSON / _initFromObject

  /** The plain object `toJSON` produces and `_initFromObject` reads; `None` is a missing or `null` property. */
  datatype TweetObject = TweetObject(
    id: string,
    author: string,
    textContent: string,
    mediaURLs: Option<seq<string>>,
    isAd: Option<bool>,
    state: Option<string>,
    error: Option<string>,
    rating: Option<RatingObject>,
    parentId: Option<string>,
    quoteId: Option<string>,
    engagementStats: Option<string>,
    timestamp: Option<int>,
    threadContext: Option<ThreadContext>,
    individualMediaUrls: Option<seq<string>>,
    quotedMediaUrls: Option<seq<string>>,
    quotedAuthor: Option<string>,
    quotedText: Option<string>,
    quotedTweetId: Option<string>)

  /** `x || null` on a string: the empty string counts as missing. */
  function OrNull(s: Option<string>): (r: Option<string>)
    ensures r.Some? <==> s.Some? && s.value != ""
    ensures r.Some? ==> r == s
  {
    if s.Some? && s.value != "" then s else None
  }

  /** `x || ''` on a string. */
  function OrEmpty(s: Option<string>): string {
    s.GetOr("")
  }

  /** `toJSON`: an `Error` is written as its message; a string has no `message`, so nothing is written. */
  function ToObject(t: Tweet): (obj: TweetObject)
    ensures obj.id == t.id && obj.author == t.author && obj.textContent == t.textContent
    ensures obj.rating.Some? <==> t.rating.Some?
    ensures obj.error.Some? <==> t.error.Some? && t.error.value.ErrorObject?
  {
    TweetObject(
      t.id, t.author, t.textContent, Some(t.mediaURLs), Some(t.isAd), Some(t.state),
      match t.error case Some(ErrorObject(m)) => Some(m) case _ => None,
      match t.rating case Some(r) => Some(Ratings.ToObject(r)) case None => None,
      t.parentId, t.quoteId, Some(t.engagementStats), Some(t.timestamp), t.threadContext,
      Some(t.individualMediaUrls), Some(t.quotedMediaUrls), Some(t.quotedAuthor), Some(t.quotedText),
      t.quotedTweetId)
  }

  /**
    `Tweet.fromJSON(obj)`, which the constructor routes through `_initFromObject`: each
    missing or falsy property takes its default.
   */
  function FromObject(obj: TweetObject, now: int): (t: Tweet)
    ensures t.mediaURLs == obj.mediaURLs.GetOr([])
    ensures t.state == (if obj.state.Some? && obj.state.value != "" then obj.state.value else Pending.Value())
    ensures t.timestamp == (if obj.timestamp.Some? && obj.timestamp.value != 0 then obj.timestamp.value else now)
    ensures t.individualMediaUrls == obj.individualMediaUrls.GetOr(t.mediaURLs)
    ensures t.quotedTweetId == OrNull(obj.quotedTweetId)
  {
    var media := obj.mediaURLs.GetOr([]);
    Tweet(
      obj.id, obj.author, obj.textContent, media, obj.isAd.GetOr(false),
      if obj.state.Some? && obj.state.value != "" then obj.state.value else Pending.Value(),
      match OrNull(obj.error) case Some(s) => Some(ErrorString(s)) case None => None,
      match obj.rating case Some(r) => Some(Ratings.FromObject(r, now)) case None => None,
      OrNull(obj.parentId), OrNull(obj.quoteId), OrEmpty(obj.engagementStats),
      if obj.timestamp.Some? && obj.timestamp.value != 0 then obj.timestamp.value else now,
      obj.threadContext, obj.individualMediaUrls.GetOr(media), obj.quotedMediaUrls.GetOr([]),
      OrEmpty(obj.quotedAuthor), OrEmpty(obj.quotedText), OrNull(obj.quotedTweetId))
  }

  /**
    `Tweet.fromJSON(t.toJSON())` keeps the identity, text, media, ad flag, state, timestamp,
    thread context and quoted-tweet fields, provided the state and timestamp are not the falsy
    `''` and `0` and the quoted id is not `''`.
   */
  lemma ObjectRoundTrip(t: Tweet, now: int)
    requires t.state != "" && t.timestamp != 0 && t.quotedTweetId != Some("")
    ensures var u := FromObject(ToObject(t), now);
      && u.id == t.id && u.author == t.author && u.textContent == t.textContent
      && u.mediaURLs == t.mediaURLs && u.isAd == t.isAd && u.state == t.state && u.timestamp == t.timestamp
      && u.threadContext == t.threadContext && u.individualMediaUrls == t.individualMediaUrls
      && u.quotedMediaUrls == t.quotedMediaUrls && u.quotedAuthor == t.quotedAuthor
      && u.quotedText == t.quotedText && u.quotedTweetId == t.quotedTweetId
      && u.engagementStats == t.engagementStats
  {
  }

  /** The rating survives the round trip as `Rating`'s own round trip leaves it. */
  lemma ObjectRoundTripRating(t: Tweet, now: int)
    requires t.rating.Some? && t.rating.value.timestamp != 0
    ensures FromObject(ToObject(t), now).rating == Some(t.rating.value.(conversationHistory := None))
  {
    Ratings.ObjectRoundTrip(t.rating.value, now);
  }

  /**
    An error survives one round trip only as a plain string, and a second round trip loses it:
    the string has no `message` for `toJSON` to write.
   */
  lemma ErrorLostOnSecondRoundTrip(t: Tweet, now: int, later: int)
    requires t.error == Some(ErrorObject("timeout"))
    ensures FromObject(ToObject(t), now).error == Some(ErrorString("timeout"))
    ensures FromObject(ToObject(FromObject(ToObject(t), now)), later).error.None?
  {
  }

  // ---------------------------------------------------------------------------------------
  // The thread-media section of `toString`

  /** The thread's media URLs that are neither the tweet's own media nor the quoted tweet's, in order. */
  function UniqueThreadMedia(thread: seq<string>, own: seq<string>, quoted: seq<string>): (r: seq<string>)
    ensures forall u :: u in r <==> u in thread && u !in own && u !in quoted
    ensures forall u :: multiset(r)[u] == if u in own || u in quoted then 0 else multiset(thread)[u]
    ensures |r| <= |thread|
  {
    if thread == [] then []
    else
      var rest := UniqueThreadMedia(thread[1..], own, quoted);
      assert multiset(thread) == multiset{thread[0]} + multiset(thread[1..]) by {
        assert thread == [thread[0]] + thread[1..];
      }
      if thread[0] !in own && thread[0] !in quoted then [thread[0]] + rest else rest
  }

  /** The kept URLs appear in the thread's order: the result is a subsequence of the thread list. */
  predicate IsSubsequence(xs: seq<string>, ys: seq<string>)
    decreases |ys|
  {
    xs == [] || (ys != [] && (if xs[0] == ys[0] then IsSubsequence(xs[1..], ys[1..]) else IsSubsequence(xs, ys[1..])))
  }

  lemma {:induction false} UniqueThreadMediaInOrder(thread: seq<string>, own: seq<string>, quoted: seq<string>)
    ensures IsSubsequence(UniqueThreadMedia(thread, own, quoted), thread)
  {
    if thread != [] {
      UniqueThreadMediaInOrder(thread[1..], own, quoted);
      var rest := UniqueThreadMedia(thread[1..], own, quoted);
      if thread[0] !in own && thread[0] !in quoted {
        assert ([thread[0]] + rest)[1..] == rest;
      } else {
        SubsequenceOfTail(rest, thread);
      }
    }
  }

  /** Anything ordered within the tail of a list is ordered within the list. */
  lemma {:induction false} SubsequenceOfTail(xs: seq<string>, ys: seq<string>)
    requires ys != [] && IsSubsequence(xs, ys[1..])
    ensures IsSubsequence(xs, ys)
    decreases |ys|, |xs|
  {
    if xs != [] && xs[0] == ys[0] {
      SubsequenceDropHead(xs, ys[1..]);
    }
  }

  /** Leaving out the first element keeps a subsequence one. */
  lemma {:induction false} SubsequenceDropHead(xs: seq<string>, ys: seq<string>)
    requires xs != [] && IsSubsequence(xs, ys)
    ensures IsSubsequence(xs[1..], ys)
    decreases |ys|, |xs|
  {
    if xs[0] == ys[0] {
      if xs[1..] != [] {
        SubsequenceOfTail(xs[1..], ys);
      }
    } else {
      SubsequenceDropHead(xs, ys[1..]);
      if xs[1..] != [] {
        SubsequenceOfTail(xs[1..], ys);
      }
    }
  }

  /** `[THREAD_MEDIA_URLS]`: written only when the thread has media the tweet does not already show. */
  function ThreadMediaSection(t: Tweet): (s: string)
    ensures s != "" <==> t.threadContext.Some? && t.threadContext.value.threadMediaUrls.Some?
                          && UniqueThreadMedia(t.threadContext.value.threadMediaUrls.value, t.individualMediaUrls, t.quotedMediaUrls) != []
  {
    match t.threadContext
    case Some(ThreadContext(_, _, Some(urls))) =>
      var unique := UniqueThreadMedia(urls, t.individualMediaUrls, t.quotedMediaUrls);
      if unique != [] then "\n[THREAD_MEDIA_URLS]:\n" + Join(unique, ", ") else ""
    case _ => ""
  }
}

=== FILE: user_script.dfy ===
/**
  Decisions of the combined user script (`TweetFilter-AI.user.js`) that the modular sources
  do not share: its version of applying a cached rating, the end of `delayedProcessTweet`,
  and the thread bookkeeping (pruning stored reply relationships, walking a
  reply chain, assigning replies in a conversation, and gathering media from earlier tweets).
 */
module UserScript {
  import opened Wrappers
  import opened JsString
  import opened Scores
  import opened CacheEntry
  import opened RatingEngine

  // ---------------------------------------------------------------------------------------
  // applyTweetCachedRating

  type Cache = map<string, Entry>

  /** `String(x)` of a description that may be `undefined`. */
  function DescriptionText(d: Option<string>): string {
    if d.Some? then d.value else "undefined"
  }

  /** A record still being streamed that has no score yet. */
  predicate IncompleteStreaming(e: Entry) {
    IsStreaming(e) && !e.score.IsSet()
  }

  /** The status a cached score is shown with: still streaming, loaded from storage, or rated in this session. */
  function CachedStatus(e: Entry): (s: string)
    ensures s == "streaming" <==> IsStreaming(e)
    ensures s == "cached" <==> !IsStreaming(e) && e.fromStorage == Some(true)
  {
    if IsStreaming(e) then "streaming" else if e.fromStorage == Some(true) then "cached" else "rated"
  }

  /** What the script's `applyTweetCachedRating` returns, the attributes it leaves, the cache after it, and whether it saved the cache. */
  datatype ScriptApplied = ScriptApplied(applied: bool, data: Dataset, cache: Cache, saved: bool)

  /**
    `applyTweetCachedRating` of the combined script: a listed author gets 10 with status
    `blacklisted`; a record still streaming without a score is left alone; a scored record is
    shown with its score and status; a record without a score is deleted and the cache saved.
   */
  function ApplyCachedRating(d: Dataset, tweetId: string, userHandle: string, listed: seq<string>, cache: Cache): (r: ScriptApplied)
    ensures r.applied <==> Listed(userHandle, listed) || (tweetId in cache && cache[tweetId].score.IsSet())
    ensures !r.applied ==> r.data == d
    ensures r.saved <==> !Listed(userHandle, listed) && tweetId in cache && !IncompleteStreaming(cache[tweetId]) && !cache[tweetId].score.IsSet()
    ensures r.cache == if r.saved then cache - {tweetId} else cache
    ensures Listed(userHandle, listed) ==>
      r.data.sloppinessScore == Some("10") && r.data.ratingStatus == Some("blacklisted") && r.data.blacklisted == Some("true")
    ensures !Listed(userHandle, listed) && r.applied ==>
      && r.data.sloppinessScore == Some(ScoreToString(cache[tweetId].score))
      && r.data.ratingStatus == Some(CachedStatus(cache[tweetId]))
      && r.data.cachedRating == Some("true")
      && r.data.ratingDescription == Some(DescriptionText(cache[tweetId].description))
  {
    if Listed(userHandle, listed) then
      ScriptApplied(true, d.(sloppinessScore := Some("10"), blacklisted := Some("true"), ratingStatus := Some("blacklisted"),
                             ratingDescription := Some("Whitelisted user")), cache, false)
    else if tweetId !in cache then ScriptApplied(false, d, cache, false)
    else
      var e := cache[tweetId];
      if IncompleteStreaming(e) then ScriptApplied(false, d, cache, false)
      else if e.score.IsSet() then
        ScriptApplied(true, d.(sloppinessScore := Some(ScoreToString(e.score)), cachedRating := Some("true"),
                               ratingStatus := Some(CachedStatus(e)), ratingDescription := Some(DescriptionText(e.description))),
                      cache, false)
      else ScriptApplied(false, d, cache - {tweetId}, true)
  }

  /**
    After the call the cache holds no scoreless record for the tweet other than one still
    being streamed, and a second call finds the same cache.
   */
  lemma ApplyCachedRatingCleans(d: Dataset, tweetId: string, userHandle: string, listed: seq<string>, cache: Cache)
    requires !Listed(userHandle, listed)
    ensures var r := ApplyCachedRating(d, tweetId, userHandle, listed, cache);
      tweetId in r.cache && !r.cache[tweetId].score.IsSet() ==> IncompleteStreaming(r.cache[tweetId])
    ensures var r := ApplyCachedRating(d, tweetId, userHandle, listed, cache);
      ApplyCachedRating(d, tweetId, userHandle, listed, r.cache).cache == r.cache
  {
  }

  /** A stored score applied this way is read back by `filterSingleTweet` as the same number. */
  lemma AppliedScoreFilters(d: Dataset, tweetId: string, userHandle: string, listed: seq<string>, cache: Cache, threshold: int)
    requires !Listed(userHandle, listed) && tweetId in cache && cache[tweetId].score.Num?
    requires CachedStatus(cache[tweetId]) != "pending"
    requires -ExponentFormBound < cache[tweetId].score.value < ExponentFormBound
    ensures FilterSingleTweet(ApplyCachedRating(d, tweetId, userHandle, listed, cache).data, threshold)
        <==> cache[tweetId].score.value < threshold
  {
    FilterWrittenScore(ApplyCachedRating(d, tweetId, userHandle, listed, cache).data, cache[tweetId].score.value, threshold);
  }

  // ---------------------------------------------------------------------------------------
  // The end of delayedProcessTweet

  /** The `catch`: a tweet that has no score yet is given 5 with status `error`; one that has a score keeps it. */
  function ProcessingFailed(d: Dataset): (r: Dataset)
    ensures AttrOr(d.sloppinessScore, "") != "" ==> r == d
    ensures AttrOr(d.sloppinessScore, "") == "" ==>
      r.sloppinessScore == Some("5") && r.ratingStatus == Some("error") && r.ratingDescription == Some("error processing tweet")
  {
    if AttrOr(d.sloppinessScore, "") != "" then d
    else d.(sloppinessScore := Some("5"), ratingStatus := Some("error"), ratingDescription := Some("error processing tweet"))
  }

  /** The `finally`: unless processing succeeded, the id leaves `processedTweets` so that it can be scheduled again. */
  function FinishProcessing(processed: set<string>, tweetId: string, successful: bool): (r: set<string>)
    ensures successful ==> r == processed
    ensures !successful ==> tweetId !in r && r + {tweetId} == processed + {tweetId}
  {
    if successful then processed else processed - {tweetId}
  }

  /**
    A tweet whose processing failed goes through the at-most-once gate again: scheduling it
    once more queues it, unless its author is listed or a rating was cached in between.
   */
  lemma FailedTweetIsScheduledAgain(processed: set<string>, d: Dataset, tweetId: string, userHandle: string,
                                    listed: seq<string>, cache: map<string, CachedRating>, marksPending: bool)
    requires !Listed(userHandle, listed) && tweetId !in cache
    ensures var first := ScheduleTweetProcessing(processed, d, tweetId, userHandle, listed, cache, marksPending);
      ScheduleTweetProcessing(FinishProcessing(first.processed, tweetId, false), d, tweetId, userHandle, listed, cache, marksPending).action
        == Queued
  {
  }

  // ---------------------------------------------------------------------------------------
  // saveThreadRelationships

  /** A stored reply relationship: the tweet it replies to, the two authors, and when it was recorded. */
  datatype Relation = Relation(replyTo: Option<string>, from: Option<string>, to: Option<string>, timestamp: Option<int>)

  type RelEntry = (string, Relation)

  /** `timestamp || 0`. */
  function Ts(e: RelEntry): int {
    e.1.timestamp.GetOr(0)
  }

  predicate SortedByTsDesc(s: seq<RelEntry>) {
    forall i, j | 0 <= i < j < |s| :: Ts(s[i]) >= Ts(s[j])
  }

  /** No entry of `s` is newer than `t`. */
  predicate NoneNewer(t: int, s: seq<RelEntry>) {
    forall e | e in s :: Ts(e) <= t
  }

  /** A list with the same entries as `s` plus `x` has none newer than a bound they all respect. */
  lemma NoneNewerOfMultiset(t: int, s: seq<RelEntry>, x: RelEntry, r: seq<RelEntry>)
    requires NoneNewer(t, s) && Ts(x) <= t
    requires multiset(r) == multiset(s) + multiset{x}
    ensures NoneNewer(t, r)
  {
    forall e | e in r ensures Ts(e) <= t {
      assert e in multiset(r);
      if e != x {
        assert e in multiset(s);
      }
    }
  }

  /** Putting an entry before a sorted list it is not older than keeps the list sorted. */
  lemma ConsSorted(h: RelEntry, s: seq<RelEntry>)
    requires SortedByTsDesc(s) && NoneNewer(Ts(h), s)
    ensures SortedByTsDesc([h] + s)
  {
    forall i, j | 0 <= i < j < |[h] + s| ensures Ts(([h] + s)[i]) >= Ts(([h] + s)[j]) {
      assert ([h] + s)[j] == s[j - 1];
      if i == 0 {
        assert s[j - 1] in s;
      } else {
        assert ([h] + s)[i] == s[i - 1];
      }
    }
  }

  /** Inserts before the first entry that is not newer, so entries with equal timestamps keep their order. */
  function Insert(x: RelEntry, s: seq<RelEntry>): (r: seq<RelEntry>)
    requires SortedByTsDesc(s)
    ensures SortedByTsDesc(r)
    ensures multiset(r) == multiset(s) + multiset{x}
    ensures |r| == |s| + 1
  {
    if s == [] || Ts(x) >= Ts(s[0]) then
      assert NoneNewer(Ts(x), s) by {
        forall e | e in s ensures Ts(e) <= Ts(x) {
          var m :| 0 <= m < |s| && s[m] == e;
          assert m == 0 || Ts(s[0]) >= Ts(s[m]);
        }
      }
      ConsSorted(x, s);
      [x] + s
    else
      var rest := Insert(x, s[1..]);
      assert s == [s[0]] + s[1..];
      assert NoneNewer(Ts(s[0]), s[1..]) by {
        forall e | e in s[1..] ensures Ts(e) <= Ts(s[0]) {
          var m :| 0 <= m < |s[1..]| && s[1..][m] == e;
          assert s[m + 1] == e;
        }
      }
      NoneNewerOfMultiset(Ts(s[0]), s[1..], x, rest);
      ConsSorted(s[0], rest);
      [s[0]] + rest
  }

  /** `entries.sort((a, b) => (b.timestamp || 0) - (a.timestamp || 0))`: newest first, stable. */
  function SortByTsDesc(s: seq<RelEntry>): (r: seq<RelEntry>)
    ensures SortedByTsDesc(r)
    ensures multiset(r) == multiset(s)
    ensures |r| == |s|
  {
    if s == [] then []
    else
      assert s == [s[0]] + s[1..];
      Insert(s[0], SortByTsDesc(s[1..]))
  }

  const MaxRelationships: nat := 1000
  const KeptRelationships: nat := 500

  /**
    The pruning in `saveThreadRelationships`, over the relationships in key order: at most
    1000 are kept as they are; more are cut to the 500 newest.
   */
  function PruneRelationships(entries: seq<RelEntry>): (r: seq<RelEntry>)
    ensures |entries| <= MaxRelationships ==> r == entries
    ensures |entries| > MaxRelationships ==> |r| == KeptRelationships
    ensures multiset(r) <= multiset(entries)
  {
    if |entries| <= MaxRelationships then entries
    else
      var sorted := SortByTsDesc(entries);
      assert sorted == sorted[..KeptRelationships] + sorted[KeptRelationships..];
      sorted[..KeptRelationships]
  }

  /** Cutting a newest-first list leaves nothing in the tail newer than anything in the head. */
  lemma SortedSplit(s: seq<RelEntry>, n: nat)
    requires SortedByTsDesc(s) && n <= |s|
    ensures forall x, y | x in s[..n] && y in s[n..] :: Ts(x) >= Ts(y)
  {
    forall x, y | x in s[..n] && y in s[n..] ensures Ts(x) >= Ts(y) {
      var i :| 0 <= i < n && s[..n][i] == x;
      var j :| 0 <= j < |s| - n && s[n..][j] == y;
      assert s[i] == x && s[n + j] == y;
    }
  }

  /** What pruning drops is never newer than what it keeps. */
  lemma PruneKeepsNewest(entries: seq<RelEntry>)
    requires |entries| > MaxRelationships
    ensures var kept := PruneRelationships(entries);
      forall x, y | x in kept && y in multiset(entries) - multiset(kept) :: Ts(x) >= Ts(y)
  {
    var sorted := SortByTsDesc(entries);
    var kept := sorted[..KeptRelationships];
    var dropped := sorted[KeptRelationships..];
    assert PruneRelationships(entries) == kept;
    assert sorted == kept + dropped;
    assert multiset(entries) - multiset(kept) == multiset(dropped);
    SortedSplit(sorted, KeptRelationships);
  }

  // ---------------------------------------------------------------------------------------
  // buildReplyChain

  /** One step up a reply chain, with the authors as the stored relationship gives them. */
  datatype Link = Link(fromId: string, toId: string, from: Option<string>, to: Option<string>)

  /** The tweet `id` replies to, when a relationship with a non-empty `replyTo` is stored for it. */
  function Parent(rel: map<string, Relation>, id: string): (p: Option<string>)
    ensures p.Some? ==> p.value != "" && id in rel && rel[id].replyTo == p
  {
    if id in rel && rel[id].replyTo.Some? && rel[id].replyTo.value != "" then rel[id].replyTo else None
  }

  /** A link that the stored relationships justify. */
  predicate IsLink(rel: map<string, Relation>, l: Link) {
    Parent(rel, l.fromId) == Some(l.toId) && l.from == rel[l.fromId].from && l.to == rel[l.fromId].to
  }

  /**
    `buildReplyChain(tweetId, maxDepth)`: from the tweet, follow stored `replyTo` links upward
    for at most `maxDepth` steps, stopping at the first tweet without one.
   */
  method BuildReplyChain(rel: map<string, Relation>, tweetId: string, maxDepth: int) returns (chain: seq<Link>)
    ensures tweetId == "" || maxDepth <= 0 ==> chain == []
    ensures |chain| <= if maxDepth > 0 then maxDepth else 0
    ensures chain != [] ==> chain[0].fromId == tweetId
    ensures forall i | 0 <= i < |chain| :: IsLink(rel, chain[i])
    ensures forall i | 0 <= i < |chain| - 1 :: chain[i].toId == chain[i + 1].fromId
    ensures tweetId != "" && 0 <= |chain| < maxDepth ==>
      Parent(rel, if chain == [] then tweetId else chain[|chain| - 1].toId).None?
  {
    chain := [];
    if tweetId == "" || maxDepth <= 0 {
      return;
    }
    var currentId := tweetId;
    var depth := 0;
    var stopped := false;
    while currentId != "" && depth < maxDepth && !stopped
      invariant depth == |chain| <= maxDepth
      invariant currentId == if chain == [] then tweetId else chain[|chain| - 1].toId
      invariant currentId != ""
      invariant chain != [] ==> chain[0].fromId == tweetId
      invariant forall i | 0 <= i < |chain| :: IsLink(rel, chain[i])
      invariant forall i | 0 <= i < |chain| - 1 :: chain[i].toId == chain[i + 1].fromId
      invariant stopped ==> Parent(rel, currentId).None?
      decreases maxDepth - depth, if stopped then 0 else 1
    {
      var parent := Parent(rel, currentId);
      if parent.None? {
        stopped := true;
      } else {
        chain := chain + [Link(currentId, parent.value, rel[currentId].from, rel[currentId].to)];
        currentId := parent.value;
        depth := depth + 1;
      }
    }
  }

  // ---------------------------------------------------------------------------------------
  // mapThreadStructure: reply assignment

  /** A tweet cell of a conversation, in page order, and whether the cell above it is the empty spacer that marks a reply to the root. */
  datatype Cell = Cell(username: string, tweetId: string, isReplyToRoot: bool)

  /** The reply document of one cell; `None` is a `null` or never-assigned reply target. */
  datatype ReplyDoc = ReplyDoc(from: string, tweetId: string, to: Option<string>, toId: Option<string>, isRoot: bool)

  /**
    The index of the first element at or after `from` whose tweet id is `id`: what
    `tweetCells.find(tk => tk.tweetId === rootId)` and `replyDocs.findIndex(doc => doc.tweetId === tweetId)`
    look for.
   */
  function FindFirst<T>(xs: seq<T>, idOf: T -> string, id: string, from: nat): (r: Option<nat>)
    ensures r.Some? ==> from <= r.value < |xs| && idOf(xs[r.value]) == id
    ensures r.Some? ==> forall j | from <= j < r.value :: idOf(xs[j]) != id
    ensures r.None? ==> forall j | from <= j < |xs| :: idOf(xs[j]) != id
    decreases |xs| - from
  {
    if from >= |xs| then None
    else if idOf(xs[from]) == id then Some(from)
    else FindFirst(xs, idOf, id, from + 1)
  }

  function CellId(c: Cell): string {
    c.tweetId
  }

  /** The reply document of cell `i`: the root replies to nothing; a reply to the root points at it; any other cell but the first points at the cell above. */
  function AssignReply(cells: seq<Cell>, rootId: string, i: nat): (doc: ReplyDoc)
    requires i < |cells|
    ensures doc.from == cells[i].username && doc.tweetId == cells[i].tweetId
    ensures doc.isRoot <==> cells[i].tweetId == rootId
  {
    var c := cells[i];
    if c.tweetId == rootId then ReplyDoc(c.username, c.tweetId, None, None, true)
    else if c.isReplyToRoot then
      match FindFirst(cells, CellId, rootId, 0)
      case Some(k) => ReplyDoc(c.username, c.tweetId, Some(cells[k].username), Some(rootId), false)
      case None => ReplyDoc(c.username, c.tweetId, None, None, false)
    else if i > 0 then ReplyDoc(c.username, c.tweetId, Some(cells[i - 1].username), Some(cells[i - 1].tweetId), false)
    else ReplyDoc(c.username, c.tweetId, None, None, false)
  }

  /** The second pass of `mapThreadStructure` and the reply documents made from it. */
  function AssignReplies(cells: seq<Cell>, rootId: string): (docs: seq<ReplyDoc>)
    ensures |docs| == |cells|
    ensures forall i | 0 <= i < |cells| :: docs[i] == AssignReply(cells, rootId, i)
  {
    seq(|cells|, i requires 0 <= i < |cells| => AssignReply(cells, rootId, i))
  }

  /**
    After the second pass every reply points into the conversation: at the root cell, or at
    the cell just above. The root and only the root is marked as such and replies to nothing.
    The third pass (`ThirdPass`) may then point a reply without a target at a stored parent.
   */
  lemma RepliesPointIntoThread(cells: seq<Cell>, rootId: string, i: nat)
    requires i < |cells|
    ensures var doc := AssignReplies(cells, rootId)[i];
      doc.isRoot ==> doc.to.None? && doc.toId.None?
    ensures var doc := AssignReplies(cells, rootId)[i];
      doc.toId.Some? ==> (doc.toId == Some(rootId) && exists k | 0 <= k < |cells| :: cells[k].tweetId == rootId && doc.to == Some(cells[k].username))
                         || (0 < i && doc.toId == Some(cells[i - 1].tweetId) && doc.to == Some(cells[i - 1].username))
    ensures var doc := AssignReplies(cells, rootId)[i];
      !doc.isRoot && !cells[i].isReplyToRoot && 0 < i ==> doc.toId == Some(cells[i - 1].tweetId)
    ensures var doc := AssignReplies(cells, rootId)[i];
      !doc.isRoot && cells[i].isReplyToRoot ==>
        (doc.toId == Some(rootId) <==> exists k | 0 <= k < |cells| :: cells[k].tweetId == rootId)
  {
    var doc := AssignReplies(cells, rootId)[i];
    if !doc.isRoot && cells[i].isReplyToRoot {
      match FindFirst(cells, CellId, rootId, 0)
      case Some(k) =>
      case None =>
    }
  }

  function ReplyDocId(d: ReplyDoc): string {
    d.tweetId
  }

  /** JavaScript falsiness of an optional string: missing, `null` or empty. */
  predicate Falsy(o: Option<string>) {
    o.None? || o.value == ""
  }

  /** A reply document redirected to the parent a stored relationship records. */
  function WithStored(d: ReplyDoc, r: Relation): ReplyDoc {
    d.(toId := r.replyTo, to := r.to)
  }

  /** Whether the third pass looks up a stored parent for the `i`-th cell. */
  predicate UsesStored(cells: seq<Cell>, rootId: string, rel: map<string, Relation>, i: nat)
    requires i < |cells|
  {
    var tw := AssignReply(cells, rootId, i);
    Falsy(tw.toId) && !tw.isRoot && cells[i].tweetId in rel && !Falsy(rel[cells[i].tweetId].replyTo)
  }

  /**
    The third pass of `mapThreadStructure` over the first `n` cells: a cell the second pass
    left without a target, and that is not the root, takes the parent stored for its id, and
    the first reply document with that id is redirected to it.
   */
  function ThirdPass(cells: seq<Cell>, rootId: string, rel: map<string, Relation>, n: nat): (docs: seq<ReplyDoc>)
    requires n <= |cells|
    ensures |docs| == |cells|
    ensures forall j | 0 <= j < |cells| :: docs[j].tweetId == cells[j].tweetId && docs[j].from == cells[j].username
    ensures forall j | 0 <= j < |cells| ::
      || docs[j] == AssignReply(cells, rootId, j)
      || (cells[j].tweetId in rel && !Falsy(rel[cells[j].tweetId].replyTo)
          && docs[j] == WithStored(AssignReply(cells, rootId, j), rel[cells[j].tweetId]))
  {
    if n == 0 then AssignReplies(cells, rootId)
    else
      var prev := ThirdPass(cells, rootId, rel, n - 1);
      var id := cells[n - 1].tweetId;
      if UsesStored(cells, rootId, rel, n - 1) then
        match FindFirst(prev, ReplyDocId, id, 0)
        case Some(j) => prev[j := WithStored(prev[j], rel[id])]
        case None => prev
      else prev
  }

  /**
    With distinct tweet ids on the page, the third pass redirects exactly the documents the
    second pass left without a target, other than the root, whose id has a stored parent;
    every other document keeps its second-pass target.
   */
  lemma {:induction false} ThirdPassOnDistinctIds(cells: seq<Cell>, rootId: string, rel: map<string, Relation>, n: nat)
    requires n <= |cells|
    requires forall a, b | 0 <= a < b < |cells| :: cells[a].tweetId != cells[b].tweetId
    ensures var docs := ThirdPass(cells, rootId, rel, n);
      forall j | 0 <= j < |cells| ::
        docs[j] == if j < n && UsesStored(cells, rootId, rel, j)
                   then WithStored(AssignReply(cells, rootId, j), rel[cells[j].tweetId])
                   else AssignReply(cells, rootId, j)
  {
    if n > 0 {
      ThirdPassOnDistinctIds(cells, rootId, rel, n - 1);
      var prev := ThirdPass(cells, rootId, rel, n - 1);
      var id := cells[n - 1].tweetId;
      if UsesStored(cells, rootId, rel, n - 1) {
        assert prev[n - 1].tweetId == id;
        match FindFirst(prev, ReplyDocId, id, 0)
        case Some(j) =>
          assert j == n - 1;
        case None =>
          assert false;
      }
    }
  }

  // ---------------------------------------------------------------------------------------
  // getAllPreviousMediaUrls

  /** A reply document's media as `getAllPreviousMediaUrls` reads them; missing lists are empty. */
  datatype MediaDoc = MediaDoc(tweetId: string, mediaLinks: seq<string>, quotedMediaLinks: seq<string>)

  function DocId(d: MediaDoc): string {
    d.tweetId
  }

  /**
    Reference reading of the gathered list: every document's media followed by its quoted
    media, document after document, duplicates kept.
   */
  function Flatten(docs: seq<MediaDoc>): seq<string> {
    if docs == [] then [] else docs[0].mediaLinks + docs[0].quotedMediaLinks + Flatten(docs[1..])
  }

  /** Appending a document appends its media and quoted media. */
  lemma {:induction false} FlattenSnoc(docs: seq<MediaDoc>, d: MediaDoc)
    ensures Flatten(docs + [d]) == Flatten(docs) + d.mediaLinks + d.quotedMediaLinks
  {
    if docs == [] {
      assert docs + [d] == [d];
      assert Flatten([d]) == d.mediaLinks + d.quotedMediaLinks + Flatten([]);
    } else {
      assert (docs + [d])[1..] == docs[1..] + [d];
      FlattenSnoc(docs[1..], d);
    }
  }

  /** The media and quoted media of the first `n` documents, in order. */
  function MediaBefore(docs: seq<MediaDoc>, n: nat): (urls: seq<string>)
    requires n <= |docs|
    ensures forall u :: u in urls <==> exists j | 0 <= j < n :: u in docs[j].mediaLinks || u in docs[j].quotedMediaLinks
  {
    if n == 0 then []
    else
      var before := MediaBefore(docs, n - 1);
      var urls := before + docs[n - 1].mediaLinks + docs[n - 1].quotedMediaLinks;
      assert forall u :: u in urls <==> u in before || u in docs[n - 1].mediaLinks || u in docs[n - 1].quotedMediaLinks;
      urls
  }

  /** The loop over the first `n` documents yields exactly their flattened media, in order and with repeats. */
  lemma {:induction false} MediaBeforeIsFlatten(docs: seq<MediaDoc>, n: nat)
    requires n <= |docs|
    ensures MediaBefore(docs, n) == Flatten(docs[..n])
  {
    if n > 0 {
      MediaBeforeIsFlatten(docs, n - 1);
      assert docs[..n] == docs[..n - 1] + [docs[n - 1]];
      FlattenSnoc(docs[..n - 1], docs[n - 1]);
    }
  }

  /**
    `getAllPreviousMediaUrls(tweetId, replyDocs)`: the media and quoted media of every
    document before the first one for the tweet; nothing when the tweet is first or absent.
   */
  function PreviousMediaUrls(tweetId: string, docs: seq<MediaDoc>): (urls: seq<string>)
    ensures (forall j | 0 <= j < |docs| :: docs[j].tweetId != tweetId) ==> urls == []
    ensures docs != [] && docs[0].tweetId == tweetId ==> urls == []
    ensures forall u :: u in urls <==>
      exists i | 0 <= i < |docs| :: docs[i].tweetId == tweetId && (forall k | 0 <= k < i :: docs[k].tweetId != tweetId)
        && exists j | 0 <= j < i :: u in docs[j].mediaLinks || u in docs[j].quotedMediaLinks
    ensures forall i | 0 <= i < |docs| && docs[i].tweetId == tweetId && (forall k | 0 <= k < i :: docs[k].tweetId != tweetId)
      :: urls == Flatten(docs[..i])
  {
    match FindFirst(docs, DocId, tweetId, 0)
    case None => []
    case Some(i) =>
      assert forall i2 | 0 <= i2 < |docs| && docs[i2].tweetId == tweetId && (forall k | 0 <= k < i2 :: docs[k].tweetId != tweetId) :: i2 == i;
      MediaBeforeIsFlatten(docs, i);
      if i > 0 then MediaBefore(docs, i) else []
  }

  /** The media of the tweet itself and of anything after it are not gathered, unless they also appear earlier. */
  lemma PreviousMediaExcludesLater(tweetId: string, docs: seq<MediaDoc>, i: nat, u: string)
    requires i < |docs| && docs[i].tweetId == tweetId
    requires forall j | 0 <= j < i :: u !in docs[j].mediaLinks && u !in docs[j].quotedMediaLinks
    ensures u !in PreviousMediaUrls(tweetId, docs)
  {
    var f := FindFirst(docs, DocId, tweetId, 0);
    assert f.Some? && f.value <= i;
  }
}

=== FILE: wrappers.dfy ===
/** Optional values: the model's stand-in for JavaScript's `null` / `undefined`. */
module Wrappers {

  datatype Option<+T> = None | Some(value: T) {

    /** The wrapped value, or `default` when there is none (JavaScript's `x || default` on objects). */
    function GetOr(default: T): T {
      match this
      case Some(v) => v
      case None => default
    }
  }
}
